=== FILE: README.md ===
# WordPress to Contentful migrator: a Dafny model of its core

This project models the stages of `wordpress-to-contentful` that move a WordPress blog into a Contentful space. The Contentful client, the WordPress API, the file system and the timers are all abstracted away. The stages modelled are:

- the two worker pools: posts in `createBlogPosts`, media in `uploadAssets`;
- the existing-record indexes that `uploadAssets` builds by paging through the space;
- the pure transforms: URL to file name and MIME type, the blog-entry field mapping, the asset maps and inline image-URL rewriting, author-name sanitising, and the category URL builder;
- the find-or-create matchers for links, related topics, topic pages and authors;
- the reference-creation stage, which runs once per post;
- the breadcrumb rewrite.

Every client call is a function parameter that resolves (`Success`) or rejects (`Failure`). A property read on `undefined` becomes an explicit error. A JavaScript `Map` is an insertion-ordered association list (module `JsMap`).

Each worker pool's bookkeeping runs in promise callbacks on JavaScript's single event-loop thread, so each pool is modelled as a sequential transition system (module `Pool`):
- `Start` is the initial claiming loop.
- `Settle` is one `finally` callback.
- Which in-flight item settles next, and with what outcome, is a parameter. A timeout is one more outcome.

Modules, one per file:
- `Util`: `src/util.js`.
- `Pool`, `Paging`, `BlogPosts`, `Assets`, `PostReferences`: the blog-post, asset-upload and post-reference stages.
- `RelatedLinks`, `RelatedTopics`, `TopicPages`, `AuthorTypes`, `Authors`: the matchers.
- `Breadcrumbs`: `src/contentful/update-breadcrumbs.js`.
- `Categories`: `src/wordpress/category-download.js`.
- `Strings`, `JsMap`, `Seqs`, `Drain`, `Wrappers`: shared helpers. `Drain` holds the pop-order loops and `Array.prototype.find` with a throwing callback.

## Model

| member | source | states |
|---|---|---|
| Util.ExtensionIsTextAfterLastDot | src/util.js:61-65 | The extension is the text after the last `.`: it holds no `.`, it is the whole URL when there is no `.`, and for `a + "." + b` with no `.` in `b` it is `b`. |
| Util.MimeTypeOfExtension | src/util.js:54-67 | `png`, `gif`, `jpg` and `jpeg` give their MIME types. An `Object.prototype` property name gives the inherited member. Every other extension falls back to `image/jpeg`. |
| Util.MimeTypeLookupExamples | src/util.js:66 | The lookup is case-sensitive (`.PNG` gives `image/jpeg`), keeps a query string in the extension (`.png?x=1` gives `image/jpeg`), and finds inherited keys (`.constructor`). |
| Util.TrimUrlToFilenameSpec | src/util.js:69-73 | The file name is the text after the last `/`. It contains no `/`, it is the whole URL when the URL has no `/`, and it is `""` for a URL ending in `/`. |
| Util.TrimUrlToFilenameIdempotent | src/util.js:69-73 | Trimming a file name again gives the same file name. |
| Strings.SplitJoinRoundTrip | src/util.js:69-73 | Joining the parts of `split(c)` with `c` gives back the input, so the `split`/`slice(-1)`/`join` chain only selects a segment. |
| Strings.ReplaceFirstSpec | src/contentful/create-post-references.js:49 | `replace` with a string pattern: a text without the pattern is unchanged; otherwise only the first occurrence is replaced, and the text before and after it is kept. |
| Strings.NatToStringRoundTrip | src/wordpress/category-download.js:7 | The decimal text a template literal gives for a number reads back as that number. |
| Pool.Start | src/contentful/create-blog-posts.js:108-113 | The initial loop starts exactly `min(8, n)` items, taken from the end of the queue. What is left queued, followed by the started items in reverse, is the input. `processing` is exactly the started identifiers, and nothing has settled. |
| Pool.Settle | src/contentful/create-blog-posts.js:85-104 | A settlement records exactly one item in the list its verdict names. It claims one queued item if there is one, so the in-flight count never grows. `complete` fires only when the queue and `processing` are both empty. |
| Pool.StartEstablishesInv | src/contentful/upload-assets.js:134-141 | With distinct identifiers, the started pool satisfies the invariant. The invariant is: at most 8 in flight; all 8 slots busy while items wait; `processing` equals the identifiers in flight; queued + in flight + settled = n; and completion fires exactly when all items have settled. |
| Pool.SettlePreservesInv | src/contentful/upload-assets.js:123-131 | Every settlement preserves that invariant, whichever item settles and whatever its outcome (a timeout included). |
| Pool.RunCompletes | src/contentful/create-blog-posts.js:92-104 | Any schedule of settlements at least as long as the remaining work drives the pool to `complete`, with every item settled. If the handler always records, nothing is left unaccounted for. |
| Pool.EmptyInputNeverCompletes | src/contentful/create-blog-posts.js:108-113 | As written, an empty input never completes: no item starts, so no `finally` callback ever runs. |
| Pool.StartOrComplete | src/contentful/create-blog-posts.js:108-113 | The corrected start completes at once exactly when the input is empty, and otherwise starts `min(8, n)` items. |
| Pool.PoolCompletes | src/contentful/upload-assets.js:123-141 | With distinct identifiers, the corrected pool completes on every input, the empty one included, with every item settled. |
| Pool.SettleConserves | src/contentful/create-blog-posts.js:85-104 | A settlement whose verdict records the settled item moves it from in flight to the records, and a claim moves one item from the queue into flight, so every item stays queued, in flight or recorded, each as often as in the input. |
| Pool.PoolRecordsEveryItem | src/contentful/upload-assets.js:113-141 | With distinct identifiers and a handler that records each item it settles, the corrected pool completes. Its three lists then hold exactly the input items, as a multiset. |
| Pool.DuplicateKeysCompleteEarly | src/contentful/create-blog-posts.js:44-46 | `processing` is a `Set` of identifiers. When two posts share an identifier, the first settlement empties it, and `complete` fires while the other post is still in flight. |
| Paging.Fetch | src/contentful/upload-assets.js:150-153 | A page request `{skip, limit: 1000}` returns at most 1000 records, the store's slice from `skip`, and the store's size as `total`. |
| Paging.AsWrittenNeverEnds | src/contentful/upload-assets.js:146-159 | As written, `skip` becomes the page-local index of the last record plus one. For a store of more than 1000 records it never exceeds 1000, so `skip < total` always holds and the loop never ends. |
| Paging.AsWrittenSmallStoreOnePage | src/contentful/upload-assets.js:170-184 | As written, a store of at most 1000 records is read whole in one page, and the loop then stops. |
| Paging.KeyedPairsSpec | src/contentful/upload-assets.js:154-157 | The records are paired with their keys (image file name, asset title) exactly when every record has a key, because reading the key of a record without one throws. The `i`-th pair is then the `i`-th record in store order under its key. |
| Paging.ReadPage | src/contentful/upload-assets.js:154-157 | One page is read record by record after the records before it. It fails exactly when a record read so far has no key. Otherwise the pairs collected are the store's keyed pairs up to the end of the page. |
| Paging.BuildIndex | src/contentful/upload-assets.js:143-164 | The corrected index loop, with `skip` advanced by the records read, terminates. It fails exactly when some record has no key. Otherwise it is the map built by `set`-ting every record under its key in store order. |
| Paging.IndexLookup | src/contentful/upload-assets.js:154-157 | A key maps to the last record in the store that carries it, so later duplicates overwrite earlier ones. A key no record carries is absent. |
| BlogPosts.NormalizeSlug | src/contentful/create-blog-posts.js:129-134 | The stored slug always contains `/blog/`. It is unchanged when it already did, and is `"/blog/" + slug` otherwise. |
| BlogPosts.NormalizeSlugIdempotent | src/contentful/create-blog-posts.js:129-134 | Normalising a normalised slug changes nothing. |
| BlogPosts.MapBlogEntry | src/contentful/create-blog-posts.js:116-356 | The mapping throws exactly when: the entry has no fields; the post has no `contentful` part or no content entry; or the post has an author without an entry. The thrown error is the rethrown message, abbreviated: the model keeps `Error in handleContentfulBlogEntry: TypeError` and drops the engine's text after `TypeError` (such as `: Cannot set properties of undefined (setting 'title')`). Otherwise every field is set as the four lemmas below state. |
| BlogPosts.MapFieldsText | src/contentful/create-blog-posts.js:118-134 | `title` and `slug` are set only from a truthy value, otherwise left as they were. A set slug contains `/blog/`. |
| BlogPosts.MapFieldsModules | src/contentful/create-blog-posts.js:142-180 | `content` links the content entry. Absent `modules` become that one link; existing `modules` get it appended, with their earlier elements unchanged (length + 1). |
| BlogPosts.MapFieldsLinks | src/contentful/create-blog-posts.js:187-291 | Publish date, main title, summary, banner image (from the title image), author and breadcrumbs each link the post's entry when the post has one, and are left as they were otherwise. |
| BlogPosts.MapFieldsTopicsAndDefaults | src/contentful/create-blog-posts.js:292-353 | `relatedTopics` and `relatedTopicsBottom` link the same entry. `ctaBottom` and `layout` get their default ids only when absent. |
| BlogPosts.MapFreshEntry | src/contentful/create-blog-posts.js:59-67 | On a new entry (`{ fields: {} }`), the modules are exactly the content link, and both defaults are filled in. |
| BlogPosts.RemapGrowsModules | src/contentful/create-blog-posts.js:159-180 | Mapping an already-mapped entry appends the content link again, so the mapping is not idempotent. The defaults stay as they were. |
| BlogPosts.AsWrittenNeverUpdates | src/contentful/create-blog-posts.js:63-67 | As written, any post whose slug query reports `total > 0` fails, because the found entry's fields are overwritten with `undefined` before the mapping. |
| BlogPosts.ProcessPost | src/contentful/create-blog-posts.js:54-81 | With the found entry's fields kept, the post goes one of three ways. (1) A found entry with its own `update` is updated with the mapping of its fields. A rejected `update()` fails the post with its reason. Otherwise the post is `Updated` with the value `update()` resolved with. (2) In every other case the mapping of a fresh entry (nothing found) or of the found entry is created and published. A rejected `createEntry` or `publish()` fails the post with that call's reason. Otherwise the post is `Created` with the value `publish()` resolved with. (3) A failed query, a positive `total` with no items, and a mapping that throws each fail the post. Every failure message is `Error with post <slug>. <error>`. |
| BlogPosts.NoUpdatableEntryIsCreated | src/contentful/create-blog-posts.js:68-76 | When nothing is found, or the first found entry has no `update` of its own, a mappable post whose create and publish resolve ends as `Created` with the mapped fields. It carries the value that `publish()` resolved with. |
| BlogPosts.ExistingEntryIsUpdated | src/contentful/create-blog-posts.js:68-70 | An existing entry that has its own `update`, can be mapped, and accepts the update ends as `Updated` with the mapped fields. It carries the value that `update()` resolved with. |
| BlogPosts.Race | src/contentful/create-blog-posts.js:49-84 | The timer rejects with `undefined`. Otherwise the task decides: it resolves with what `publish()` or `update()` gave, or rejects with its message. |
| BlogPosts.Classify | src/contentful/create-blog-posts.js:85-91 | A resolved post goes to `skipped` iff the result's `skipped` is truthy, and to `done` otherwise. A rejection or timeout goes to `failed` as `{post, error}`. |
| BlogPosts.BlogPoolAccountsForEveryPost | src/contentful/create-blog-posts.js:26-113 | The pool runs each post's raced task through the handler. With distinct slugs the (corrected) pool completes. `done`, `skipped` and the posts of `failed` then hold exactly the input posts, as a multiset: each post once, none invented. |
| Assets.TransformForUpload | src/contentful/upload-assets.js:191-209 | Title and description are copied. The MIME type comes from the link. The file name is `trimUrlToFilename(link)`: the longest `/`-free suffix of the link, preceded by a `/` when shorter than the link. The upload URL is the encoded link. |
| Assets.UploadedImageIsReused | src/contentful/upload-assets.js:44-52 | An image created from an item's upload and indexed under its file name is found again by that item's link, and is reused rather than created again. |
| Assets.AssetEntryFields | src/contentful/upload-assets.js:223-246 | A new `asset` entry gets the WordPress title, the description as alt text, the image id as media, and the image URL. |
| Assets.TransformForSaving | src/contentful/upload-assets.js:256-272 | The WordPress item is kept verbatim. Id and title come from the entry, alt text from the WordPress description, and url and file name from the image. A missing title throws. |
| Assets.ImageEntry | src/contentful/upload-assets.js:44-58 | The indexed image of the same file name is reused. Otherwise the image is created, and a create failure is wrapped twice in the image error. |
| Assets.AssetEntry | src/contentful/upload-assets.js:59-74 | `processed` holds iff the title is in the asset index. In that case the indexed entry is used and nothing is created. |
| Assets.ClassifyAsWritten | src/contentful/upload-assets.js:113-121 | As written, a rejection with `undefined` (the timer) is recorded nowhere, because `.message` throws inside `catch`. A string rejection is recorded with an `undefined` error. |
| Assets.AsWrittenFailureIsUnrecorded | src/contentful/upload-assets.js:77-111 | As written, any item whose image or asset step fails, or which times out, ends up in no list. A failure thrown inside an `async` executor does not reject that promise, so in the model the race settles only through the timer. In Node that throw is an unhandled rejection, which ends the process (see "## Left out"). |
| Assets.AsWrittenTimeoutVanishes | src/contentful/upload-assets.js:118-131 | As written, a single item that times out lets the pool complete with `done`, `skipped` and `failed` all empty. |
| Assets.Attempt | src/contentful/upload-assets.js:77-117 | With the failures propagated, the chain rejects with the failing step's reason. A timeout rejects with `undefined`. A failed image step rejects with its error. A failed asset step rejects with `Error in asset entry production: ` followed by its error. A missing title rejects with the saving error. Otherwise the item is saved with the record `transformForSaving` builds from the asset entry and the image. It is `processed` iff its title was indexed, and it keeps its WordPress item. |
| Assets.Classify | src/contentful/upload-assets.js:113-121 | The corrected handler: skipped iff processed, done otherwise, and every rejection goes to `failed` with its reason. |
| Assets.SkippedIffIndexed | src/contentful/upload-assets.js:46-69 | A saved item is skipped iff its title is in the asset index. Its image is created iff its file name is not in the image index. |
| Assets.AssetPoolAccountsForEveryItem | src/contentful/upload-assets.js:123-141 | The pool runs each item's attempt through the corrected handler. With distinct links it completes. The WordPress items behind `done.json` (`done` then `skipped`) and `failed.json` are then exactly the input items, as a multiset: each item once, none invented. |
| PostReferences.InlineMapLastWins | src/contentful/create-post-references.js:35-37 | A saved link maps to the Contentful url of the last asset with that link. |
| PostReferences.SavedRecordIsLookedUp | src/contentful/create-post-references.js:32-44 | The record `transformForSaving` saved for an item is what this stage reads. If it is the last record with the item's link, that link maps to the uploaded image's url. If it is the last with the item's non-zero media number, that number maps to the asset entry's id. |
| PostReferences.InlineMapAbsent | src/contentful/create-post-references.js:35-37 | A link no saved asset has is absent from the inline map. |
| PostReferences.HeroMapNoZero | src/contentful/create-post-references.js:38-42 | Media number 0 (falsy) is never a hero key. |
| PostReferences.HeroMapLastWins | src/contentful/create-post-references.js:38-42 | A non-zero media number maps to the entry id of the last asset with that number. |
| PostReferences.HeroMapAbsent | src/contentful/create-post-references.js:38-42 | A media number no saved asset has is absent from the hero map. |
| PostReferences.CreateMapsFromAssets | src/contentful/create-post-references.js:32-44 | Both maps have distinct keys, and the hero map has no key 0. |
| PostReferences.ReplaceWithoutOccurrence | src/contentful/create-post-references.js:46-52 | A text in which no old url occurs comes back unchanged. |
| PostReferences.ReplaceEmptyMap | src/contentful/create-post-references.js:46-52 | With the empty map the text comes back unchanged. |
| PostReferences.OnlyFirstOccurrenceReplaced | src/contentful/create-post-references.js:48-50 | For every text, a one-entry map leaves a text without the old url unchanged. Otherwise it replaces only the first occurrence and keeps the text before it and everything after it, later occurrences included. |
| PostReferences.ReplaceEachAppend | src/contentful/create-post-references.js:46-52 | The entries are applied in insertion order: one more entry replaces within the text the earlier entries produced. |
| PostReferences.FindAuthor | src/contentful/create-post-references.js:146 | The first author whose id is the post's author, or none. |
| PostReferences.AuthorReference | src/contentful/create-post-references.js:145-151 | The reference is that author's `contentful` entry. It fails with the "Author not found" error iff there is no such author, or it has no entry or no id. |
| PostReferences.TitleImageAsset | src/contentful/create-post-references.js:123-144 | The title image links `heroMap.get(featured_media)` when that is a key. Otherwise it fails with "Title Image not defined." |
| PostReferences.Plan | src/contentful/create-post-references.js:66-144 | The creates, in order: content (body with inline urls replaced), publish date, main title, summary, title image. The summary guard (`yoast_head_json`) stops after three; the title-image guard stops after four. |
| PostReferences.RunCreates | src/contentful/create-post-references.js:156-166 | The creates are awaited one after another: those before the first rejection resolved, none after it is issued, and the rejection message names the post. |
| PostReferences.CreatePostReferenceSpec | src/contentful/create-post-references.js:153-194 | The requests issued are a non-empty prefix of the plan, and all but the last resolved. The post resolves iff both guards pass, all five creates resolve and the author has an entry. Its references are then exactly those entries. |
| PostReferences.ProcessQueueSpec | src/contentful/create-post-references.js:199-229 | Files are handled last first. The `k`-th file written is the `k`-th popped, with only `contentful` replaced by its own references. The loop stops exactly at the first failing file, and it reports no error iff every file succeeded. |
| Drain.GatherIsFlattenOfReverse | src/contentful/create-related-links.js:70-74 | Popping the files and pushing each page's records gives every record, in pages last file first. |
| Drain.MapPoppedSpec | src/contentful/create-related-links.js:78-82 | Popping the records and handling each gives one result per record in pop order. The first handler that rejects ends the stage with its error. |
| Drain.Find | src/contentful/create-related-topics.js:24-27 | `find` with a callback that may throw: the first accepted element, after elements all rejected without a throw; not found iff every element is rejected; a throw ends the search. |
| Drain.FindAppend | src/contentful/create-related-topics.js:24-27 | An element the callback accepts, appended after elements it rejects, is the one found. |
| RelatedLinks.TransformAll | src/contentful/create-related-links.js:50-55 | `transformCfLink` on every entry projects `sys.id` and the locale url. It throws iff some entry has no url field. |
| RelatedLinks.FindLink | src/contentful/create-related-links.js:17-19 | The first projected link whose url (`""` when undefined) contains the slug. The lookup never throws. |
| RelatedLinks.NewLinkFields | src/contentful/create-related-links.js:21-37 | A created link has title and text equal to the name, id equal to the slug, and url `"/blog/topic/" + slug`, which contains the slug. |
| RelatedLinks.FindLinkInContentful | src/contentful/create-related-links.js:16-49 | The output's `wordpress` part is `{id, name, slug}`. `contentful` is the found projection or the created link's projection. A rejected create rejects. |
| RelatedLinks.CreatedLinkIsFound | src/contentful/create-related-links.js:17-38 | Round trip: after a link is created for a slug no existing link matched, the same lookup over the links plus the new one finds exactly the new one. |
| RelatedLinks.ProcessSavedLinksSpec | src/contentful/create-related-links.js:64-82 | One record per category in pop order, each with the category's own `{id, name, slug}`. A link is created iff no fetched link matches the slug, since the list is never extended; a repeated slug is created again. |
| RelatedTopics.LinkIdFor | src/contentful/create-related-topics.js:29-46 | The id of the first saved link whose url contains the slug. It fails with a `TypeError` when there is none, or when a record without a link or url is read first. |
| RelatedTopics.NewTopicFields | src/contentful/create-related-topics.js:48-68 | A created topic has title equal to the name, id equal to the slug, and `topicsList` equal to `[link id]`. |
| RelatedTopics.FindTopicInContentful | src/contentful/create-related-topics.js:17-75 | Three cases. A title-less entry met first throws. The first entry whose title contains the name is returned as it is. Otherwise the link is looked up and the topic created, and a create error is rethrown as "Related Topic Entry not created for <slug>: <error>". |
| RelatedTopics.CreatedTopicIsFound | src/contentful/create-related-topics.js:24-52 | Round trip: the created title equals the name, so the same lookup over the entries plus the new one finds it. |
| RelatedTopics.ProcessSavedTopicsSpec | src/contentful/create-related-topics.js:77-110 | One record per category in pop order, with its `{id, name, slug}`. An entry is created iff no fetched title contains the name. |
| TopicPages.TransformAll | src/contentful/match-topic-page.js:84-89 | `transformCfTopic` projects `{id, title}` and throws iff some entry has no title field. |
| TopicPages.FindTopic | src/contentful/match-topic-page.js:27-29 | The first projection whose title (`""` when undefined) contains the name. The lookup never throws. |
| TopicPages.NewPageFields | src/contentful/match-topic-page.js:49-75 | A created page has title equal to the name, description equal to the slug, slug `"/blog/topic/" + slug`, and `topicsList` equal to `[link id]`. |
| TopicPages.FindTopicPage | src/contentful/match-topic-page.js:20-82 | Found pages are returned as projected. Otherwise the link is looked up (a missing link throws) and the page created, and a create error is rethrown with the slug. |
| TopicPages.CreatedPageIsFound | src/contentful/match-topic-page.js:27-55 | Round trip: the created page's title equals the name, so the lookup finds it. |
| TopicPages.ProcessSavedTopicsSpec | src/contentful/match-topic-page.js:91-124 | One record per category in pop order, with its `{id, name, slug}`. A page is created iff no projected title contains the name. |
| AuthorTypes.SanitizeName | src/contentful/match-author-types.js:14 | The sanitised name has no space and no upper-case letter, only characters of the lower-cased name, and is exactly as long as the input minus its spaces. |
| AuthorTypes.SanitizeNameChar | src/contentful/match-author-types.js:14 | A single space sanitises to nothing; any other character to its lower-case form. |
| AuthorTypes.SanitizeNameAppend | src/contentful/match-author-types.js:14 | Sanitising works character by character: a concatenation sanitises to the concatenation of the sanitised parts. With the one-character case this fixes the result for every name. |
| AuthorTypes.SanitizeNameIgnoresSpace | src/contentful/match-author-types.js:14-17 | A space inserted anywhere in a name leaves its lookup key unchanged. |
| AuthorTypes.SanitizeNameIgnoresCase | src/contentful/match-author-types.js:14-17 | Replacing a character by one that lower-cases alike, anywhere in a name, leaves its lookup key unchanged. |
| AuthorTypes.SanitizeNameIdempotent | src/contentful/match-author-types.js:14 | Sanitising a sanitised name changes nothing. |
| AuthorTypes.SanitizeNameExample | src/contentful/match-author-types.js:14 | For example, "Jane Doe", "jane doe" and "JaneDoe" share the key "janedoe". |
| AuthorTypes.FindUserInContentful | src/contentful/match-author-types.js:16-26 | The `wordpress` part is the user as given, unsanitised. The match is present iff the index has the sanitised name, and is then the indexed entry. |
| AuthorTypes.ProcessSavedUsers | src/contentful/match-author-types.js:28-57 | One record per user across all files, in pop order, each the lookup of that user. |
| Authors.NewAuthorFields | src/contentful/create-authors.js:18-30 | A created author has name, slug, and id equal to the slug. |
| Authors.CreateAuthorEntry | src/contentful/create-authors.js:16-35 | An entry results iff the create resolves. A rejection is swallowed and yields no entry. |
| Authors.CreateAuthorsInContentful | src/contentful/create-authors.js:36-44 | The result is the author with only `contentful` replaced. An existing entry is kept; only an author without one gets a create. |
| Authors.ProcessAuthor | src/contentful/create-authors.js:57-65 | An author whose exact name is in the index is pushed as the indexed entry, with no create. Otherwise it is pushed as the processed author. |
| Authors.ProcessFileSpec | src/contentful/create-authors.js:57-66 | One element per author of a file, in array order. |
| Authors.ProcessBlogAuthorsSpec | src/contentful/create-authors.js:46-67 | `done` has exactly one element per author, in file then array order, each decided against the same, never-extended index. |
| Breadcrumbs.SetFirstModule | src/contentful/update-breadcrumbs.js:26-32 | Writing `modules[0]` makes the first element the link. Every other element is kept. An empty list becomes length 1. |
| Breadcrumbs.Rewrite | src/contentful/update-breadcrumbs.js:26-32 | Only the module list of the entry changes. |
| Breadcrumbs.RewriteIdempotent | src/contentful/update-breadcrumbs.js:26-32 | Rewriting an entry twice equals rewriting it once. |
| Breadcrumbs.FirstPage | src/contentful/update-breadcrumbs.js:12-16 | The one request (skip 0, limit 1000) returns the first `min(n, 1000)` entries. |
| Breadcrumbs.UpdateBreadcrumbs | src/contentful/update-breadcrumbs.js:10-44 | The loop logs counters 1, 2, … and rewrites the entries in order. It saves exactly the rewritten entries that have their own `update`. It stops at the first entry without a module list (`TypeError`), or at the first rejected update, whose error it rethrows. Otherwise it goes through the whole first page. |
| Categories.FieldsPart | src/wordpress/category-download.js:7 | The fields part is empty iff the argument is falsy. An empty array still gives `&fields=`. |
| Categories.UrlForCategories | src/wordpress/category-download.js:7 | The built URL starts with the base URL (`""` by default). |
| Categories.UrlForCategoriesRoundTrip | src/wordpress/category-download.js:7 | Reading back the query of a built URL gives `per_page` (default 20), `page` (default 1), and the comma-joined field names. The fields parameter is empty text for the default `[]` and absent for a falsy argument. |
| Categories.RequestParameters | src/wordpress/category-download.js:9-14 | `categories` asks for page 1, 100 per page, with fields `id,name,slug,parent,count`. |
| Categories.Download | src/wordpress/category-download.js:13-28 | The body is written iff the fetch resolves with status 200. Any other status reports the body as an error. A rejected fetch reports the rejection. |

## Left out

- File reading and writing (`fs-extra`, `glob`), RxJS observers, progress logging and `observer.error` messages are not modelled.
- The client and the WordPress API are not modelled. Each call is a parameter that resolves or rejects. A created entry is modelled as echoing the requested fields under an id the call returns.
- `delay()`, `setTimeout` and the time limits are not modelled. A timeout is one more settlement outcome the caller chooses.
- `encodeURI` is the parameter `encode`.
- The text a JavaScript engine puts after `TypeError` is not modelled. `BlogPosts.MAPPING_ERROR`, `Assets.SAVING_ERROR` and `PostReferences.SUMMARY_ERROR` keep only `TypeError` from the `${error}` the source builds. The full text would read, for example, `TypeError: Cannot set properties of undefined (setting 'title')`.
- Locale-keyed field wrapping (`{ [CONTENTFUL_LOCALE]: … }`) is dropped: a field holds its value directly.
- `getExistingContentType`, `delay`, `CTA_BOTTOM_ID`, `BLOG_LAYOUT_ID`, `BLOG_PAGE_ENTRY_ID`, `ARTICLE_PAGE`, `BREADCRUMBS` and `AUTHOR` are imported from `src/util.js` but not exported by it.
  - Some appear as parameters: `getExistingContentType` as the author index `cfUsers`, `CTA_BOTTOM_ID` and `BLOG_LAYOUT_ID` as the defaults record, and `BLOG_PAGE_ENTRY_ID` as the `blogPage` link.
  - `delay` is modelled as a no-op.
  - The content-type ids `ARTICLE_PAGE`, `BREADCRUMBS` and `AUTHOR` are taken as given: every query is assumed to reach the right content type.
  - The model, including the success branches and all four "## Findings" rows, describes the stages with a `src/util.js` that exports these names.
- As written, `delay` is `undefined`, so every `await delay()` throws `TypeError: delay is not a function`. Each stage that calls it fails at that call:
  - every post fails at src/contentful/create-blog-posts.js:53, before its query;
  - both index builds throw at src/contentful/upload-assets.js:149 and :173;
  - the breadcrumb walk fails after its first save, at src/contentful/update-breadcrumbs.js:36;
  - src/contentful/create-authors.js:40 and src/contentful/create-related-topics.js:34 reject after their first create.
  This failure is not modelled.
- Sorting the post queue with the comparator `(a, b) => b - a` is modelled as leaving the order unchanged. On objects and file names the comparator returns `NaN`, which counts as "equal", and the sort is stable.
- `uploadListOfAssets` calls `uploadAssets` twice and discards the second result. The model covers one call.
- `toLowerCase` is modelled on ASCII letters only; other characters are kept. No Unicode case mapping is modelled.
- `replace` with a string pattern is modelled without the `$` substitution patterns in the replacement text.
- A failing `response.json()` in `categories` is not modelled.
- Page and page size in `urlForCategories` are non-negative integers only. Negative numbers, fractions and non-numbers are not modelled.
- The link, topic, page and breadcrumb fetches read one page of at most 1000 entries. Only the breadcrumb model states the limit. For the matchers, the fetched list is a parameter.
- A network error while building the image and asset indexes is not modelled separately. A missing key, which makes the read throw, is.
- A failing index build inside `uploadAssets` is not composed with the pool. `getExistingImages` or `getExistingAssets` throws (a missing key, a rejected page request) inside the `async` executor of `new Promise` at src/contentful/upload-assets.js:25-32. That does not reject the promise `uploadAssets` returns, so neither `done.json` nor `failed.json` is written. The model stops at the `Failure` of `Paging.BuildIndex`.
- Unhandled rejections are modelled as lost, and Node ending the process on them is not modelled. The source needs Node 16.9 or later (it calls `Object.hasOwn`), and since Node 15 an unhandled rejection terminates the process by default. `src/index.js` installs no handler. So in the source, the first of these ends the whole run, instead of waiting for the timer or staying unsettled:
  - a throw inside an `async` executor at src/contentful/upload-assets.js:80-87 and :92-100;
  - a throw in the index build at :31-32;
  - the `TypeError` that the `catch` at :118-121 throws, which `.finally` passes into the promises that :126 and :139 discard.
  Either way, the item is in neither `done.json` nor `failed.json`.
- `BlogPosts.MappingThrows` covers the reads that fail in `handleContentfulBlogEntry`. The author link reads `author.contentful.sys.id`, but the reference stage stores the author's entry itself, so a post carried through both stages would fail that read. The two stages are modelled separately and not composed.
- `match-topic-page.js` queries the `relatedTopics` content type but creates `topicPage` entries. The model takes the fetched list as given.
- An unhandled rejection after `observer.error` in `createAuthorEntry` is not modelled. The create is swallowed, as the source does.
- `src/index.js`, `src/contentful/create-client.js`, `src/contentful/delete-entries.js`, `src/wordpress/create-categories.js`, `src/contentful/match-breadcrumbs.js` and `src/contentful/create-topic-pages.js` are not part of this model. The last two do not run as written.
- The author indexes of `create-authors.js` and `match-author-types.js` are name-keyed maps given as parameters. How `getExistingContentType` builds their keys is not part of this model.

## Findings

| source | as written | input that shows it | evidently intended | confidence | as-written member | corrected member |
|---|---|---|---|---|---|---|
| src/contentful/upload-assets.js:78-121 | The timer rejects with `undefined`. A step failure thrown inside an `async` executor does not reject the race; in the model it ends as that timeout, while Node ends the process on the unhandled rejection. The `catch` then reads `error.message` of `undefined`, which throws, so nothing is pushed. | Any asset whose image create rejects, or that times out: it is in neither `done.json` nor `failed.json`. | Every failure is recorded in `failed` with its reason. | not executed; high | Assets.AsWrittenFailureIsUnrecorded | Assets.AssetPoolAccountsForEveryItem |
| src/contentful/create-blog-posts.js:108-113 | With an empty input the start loop starts nothing, so no `finally` runs and `complete` is never called. | `createBlogPosts([], …)` (and `uploadAssets` with `[]`): the promise never settles. | Complete at once on empty input. | not executed; high | Pool.EmptyInputNeverCompletes | Pool.PoolCompletes |
| src/contentful/upload-assets.js:154-158 | `skip = index + 1` uses the page-local index, so `skip` never exceeds 1000. | A space with 1001 images: every request returns a page from skip ≤ 1000 and `skip < total` stays true. | `skip` advances by the number of records read. | not executed; high | Paging.AsWrittenNeverEnds | Paging.BuildIndex |
| src/contentful/create-blog-posts.js:63-67 | `cfEntry.fields = cfData.fields` runs while `cfData` is `{}`, so the found entry loses its fields and the mapping throws. | Any post whose slug query returns `total: 1`: it fails with the mapping error and is never updated. | Keep the found entry's fields, so it is mapped and updated. | not executed; high | BlogPosts.AsWrittenNeverUpdates | BlogPosts.ExistingEntryIsUpdated |

=== FILE: assets.dfy ===
/** `uploadAssets`: every WordPress media item becomes a published Contentful
    image (reused when its file name is already in the image index) and an
    `asset` entry pointing at it (reused, and the item counted as skipped,
    when its title is already in the asset index). The items go through the
    worker pool of module `Pool`, keyed by link.

    Locale wrapping is dropped. The client calls are parameters resolving or
    rejecting; `encodeURI` is the parameter `encode`.
 */
module Assets {
  import opened Wrappers
  import opened Strings
  import JsMap
  import Util
  import Pool
  import Seqs

  /** An entry of `assets.json`. */
  datatype WpAsset = WpAsset(link: string, title: string, description: string, mediaNumber: int)

  /** A published Contentful image (a Contentful "asset"): its id and the
      url and file name of its file. */
  datatype CfImage = CfImage(id: string, url: string, fileName: string)

  /** A published `asset` entry; its title field may be missing. */
  datatype CfAssetEntry = CfAssetEntry(id: string, title: Option<string>)

  datatype UploadFile = UploadFile(contentType: Util.MimeType, fileName: string, upload: string)

  /** The fields `createAsset` receives. */
  datatype UploadFields = UploadFields(title: string, description: string, file: UploadFile)

  /** The fields `createEntry("asset", …)` receives; `media` is the id of the
      linked image. */
  datatype AssetFields = AssetFields(title: string, altText: string, media: string, url: string)

  /** The record saved for a processed item. */
  datatype SavedRef = SavedRef(id: string, title: string, altText: string, url: string, media: string)
  datatype SavedAsset = SavedAsset(wordpress: WpAsset, contentful: SavedRef)

  /** The image and asset indexes built before the pool starts. */
  datatype Indexes = Indexes(images: JsMap.JsMap<string, CfImage>, assets: JsMap.JsMap<string, CfAssetEntry>)

  /** `createAsset` + `processForAllLocales` + `publish`, and
      `createEntry("asset")` + `publish`, each as one call. */
  datatype AssetClient = AssetClient(
    createImage: UploadFields -> Result<CfImage, string>,
    createAsset: AssetFields -> Result<CfAssetEntry, string>)

  const IMAGE_ERROR: string := "Error in image entry creation: "
  const ASSET_ERROR: string := "Error in asset entry creation: "
  /** The saving error, abbreviated: the engine's text after `TypeError` is
      dropped. */
  const SAVING_ERROR: string := "Error in transforming for saving: TypeError"
  /** The prefix the asset race's `catch` adds to an asset-step failure. */
  const PRODUCTION_ERROR: string := "Error in asset entry production: "

  /** `transformForUpload`: title and description copied, the file named after
      the link's last path segment, typed by the link's extension, and
      uploaded from the encoded link. */
  function TransformForUpload(a: WpAsset, encode: string -> string): (r: UploadFields)
    ensures r.title == a.title && r.description == a.description
    ensures r.file.contentType == Util.UrlToMimeType(a.link)
    ensures r.file.fileName == Util.TrimUrlToFilename(a.link)
    ensures '/' !in r.file.fileName
    ensures |r.file.fileName| <= |a.link| && r.file.fileName == a.link[|a.link| - |r.file.fileName|..]
    ensures |r.file.fileName| < |a.link| ==> a.link[|a.link| - |r.file.fileName| - 1] == '/'
    ensures r.file.upload == encode(a.link)
  {
    Util.TrimUrlToFilenameSpec(a.link);
    LastSegmentIsMaximalSuffix(a.link, '/');
    UploadFields(a.title, a.description,
      UploadFile(Util.UrlToMimeType(a.link), Util.TrimUrlToFilename(a.link), encode(a.link)))
  }

  /** The fields of a new `asset` entry for `a` linking `image`. */
  function AssetEntryFields(a: WpAsset, image: CfImage): (r: AssetFields)
    ensures r.title == a.title && r.altText == a.description
    ensures r.media == image.id && r.url == image.url
  {
    AssetFields(a.title, a.description, image.id, image.url)
  }

  /** `transformForSaving`: the WordPress item kept verbatim, id and title
      from the entry, alt text from the WordPress description, url and file
      name from the image. Reading a missing title throws. */
  function TransformForSaving(a: WpAsset, entry: CfAssetEntry, image: CfImage): (r: Result<SavedAsset, string>)
    ensures r.Failure? <==> entry.title.None?
    ensures r.Success? ==> r.value.wordpress == a
    ensures r.Success? ==> r.value.contentful == SavedRef(entry.id, entry.title.value, a.description, image.url, image.fileName)
  {
    match entry.title
    case None => Failure(SAVING_ERROR)
    case Some(t) => Success(SavedAsset(a, SavedRef(entry.id, t, a.description, image.url, image.fileName)))
  }

  datatype ImageStep = ImageStep(image: CfImage, created: bool)

  /** `handleContentfulImageEntry`: the image of the same file name from the
      index when there is one; otherwise a newly created one. */
  function ImageEntry(a: WpAsset, images: JsMap.JsMap<string, CfImage>, c: AssetClient, encode: string -> string): (r: Result<ImageStep, string>)
    ensures var name := Util.TrimUrlToFilename(a.link);
      && (JsMap.Has(images, name) ==> r == Success(ImageStep(JsMap.Get(images, name).value, false)))
      && (!JsMap.Has(images, name) ==>
            match c.createImage(TransformForUpload(a, encode))
            case Success(img) => r == Success(ImageStep(img, true))
            case Failure(e) => r == Failure(IMAGE_ERROR + IMAGE_ERROR + e))
  {
    var name := Util.TrimUrlToFilename(a.link);
    match JsMap.Get(images, name)
    case Some(img) => Success(ImageStep(img, false))
    case None =>
      match c.createImage(TransformForUpload(a, encode))
      case Success(img) => Success(ImageStep(img, true))
      case Failure(e) => Failure(IMAGE_ERROR + IMAGE_ERROR + e)
  }

  /** The image index is keyed by file name, and the uploaded file is named
      by the same rule the lookup uses: once an image created from `a`'s
      upload is indexed under its file name, `a`'s link finds it and nothing
      is created again. */
  lemma UploadedImageIsReused(a: WpAsset, images: JsMap.JsMap<string, CfImage>, img: CfImage, c: AssetClient, encode: string -> string)
    requires img.fileName == TransformForUpload(a, encode).file.fileName
    ensures ImageEntry(a, JsMap.Set(images, img.fileName, img), c, encode) == Success(ImageStep(img, false))
  {
  }

  /** `{ result, processed }` of `handleContentfulAssetEntry`. */
  datatype AssetStep = AssetStep(entry: CfAssetEntry, processed: bool)

  /** `handleContentfulAssetEntry`: `processed` exactly when the title is in
      the asset index, in which case the indexed entry is used and nothing is
      created. */
  function AssetEntry(a: WpAsset, image: CfImage, assets: JsMap.JsMap<string, CfAssetEntry>, c: AssetClient): (r: Result<AssetStep, string>)
    ensures r.Success? ==> (r.value.processed <==> JsMap.Has(assets, a.title))
    ensures JsMap.Has(assets, a.title) ==> r == Success(AssetStep(JsMap.Get(assets, a.title).value, true))
    ensures !JsMap.Has(assets, a.title) ==>
      match c.createAsset(AssetEntryFields(a, image))
      case Success(e) => r == Success(AssetStep(e, false))
      case Failure(e) => r == Failure(ASSET_ERROR + ASSET_ERROR + e)
  {
    match JsMap.Get(assets, a.title)
    case Some(e) => Success(AssetStep(e, true))
    case None =>
      match c.createAsset(AssetEntryFields(a, image))
      case Success(e) => Success(AssetStep(e, false))
      case Failure(e) => Failure(ASSET_ERROR + ASSET_ERROR + e)
  }

  /** How an item's promise chain settled before its `catch`: with the saved
      record and `processed`, or rejected with a reason (`None` is
      `undefined`). */
  datatype Outcome = Saved(saved: SavedAsset, processed: bool) | RejectedWith(reason: Option<string>)

  /** The chain after both steps succeeded: `transformForSaving` runs in the
      next `then`, and what it throws rejects the chain. */
  function SaveStep(a: WpAsset, img: CfImage, st: AssetStep): Outcome
  {
    match TransformForSaving(a, st.entry, img)
    case Success(saved) => Saved(saved, st.processed)
    case Failure(e) => RejectedWith(Some(e))
  }

  /** One item as written. Both steps run inside `async` Promise executors, so
      what they throw never settles the raced promise: the timer wins and the
      chain rejects with `undefined`, as it does on a genuine timeout. */
  function AttemptAsWritten(a: WpAsset, idx: Indexes, c: AssetClient, encode: string -> string, timedOut: bool): Outcome
  {
    if timedOut then RejectedWith(None)
    else
      match ImageEntry(a, idx.images, c, encode)
      case Failure(_) => RejectedWith(None)
      case Success(im) =>
        match AssetEntry(a, im.image, idx.assets, c)
        case Failure(_) => RejectedWith(None)
        case Success(st) => SaveStep(a, im.image, st)
  }

  /** `{ asset, error }` pushed to `failed`. */
  datatype FailedAsset = FailedAsset(asset: WpAsset, error: Option<string>)

  function Link(a: WpAsset): string
  {
    a.link
  }

  /** The settlement handler as written: `skipped` when `processed`, `done`
      otherwise; a rejection pushes `{ asset, error: error.message }`, but
      reading `.message` of `undefined` throws inside the `catch`, so such an
      item is recorded nowhere (the `finally` still runs), and a string reason
      has no `message`, so its error is lost. */
  function ClassifyAsWritten(a: WpAsset, o: Outcome): (v: Pool.Verdict<SavedAsset, FailedAsset>)
    ensures v.Unrecorded? <==> o == RejectedWith(None)
    ensures v.ToFailed? ==> v.f == FailedAsset(a, None)
  {
    match o
    case Saved(s, processed) => if processed then Pool.ToSkipped(s) else Pool.ToDone(s)
    case RejectedWith(None) => Pool.Unrecorded
    case RejectedWith(Some(_)) => Pool.ToFailed(FailedAsset(a, None))
  }

  /** As written, an item whose image or asset step fails is never recorded:
      it is neither done, skipped nor failed. */
  lemma AsWrittenFailureIsUnrecorded(a: WpAsset, idx: Indexes, c: AssetClient, encode: string -> string, timedOut: bool)
    requires
      || timedOut
      || ImageEntry(a, idx.images, c, encode).Failure?
      || AssetEntry(a, ImageEntry(a, idx.images, c, encode).value.image, idx.assets, c).Failure?
    ensures ClassifyAsWritten(a, AttemptAsWritten(a, idx, c, encode, timedOut)).Unrecorded?
  {
  }

  /** A single item that times out: the pool completes with all three lists
      empty, so the item vanishes from both output files. */
  lemma AsWrittenTimeoutVanishes(a: WpAsset)
    ensures var s := Pool.Start<WpAsset, string, SavedAsset, FailedAsset>([a], Link);
      var r := Pool.Settle(s, 0, ClassifyAsWritten(a, RejectedWith(None)), Link);
      && r.completed
      && r.done == [] && r.skipped == [] && r.failed == []
  {
    var s := Pool.Start<WpAsset, string, SavedAsset, FailedAsset>([a], Link);
    SingleStart(a, s);
  }

  lemma SingleStart(a: WpAsset, s: Pool.State<WpAsset, string, SavedAsset, FailedAsset>)
    requires |s.inFlight| == 1
    requires s.queue + Seqs.Reverse(s.inFlight) == [a]
    requires s.processing == Pool.KeySet(s.inFlight, Link)
    requires Pool.SettledCount(s) == 0 && !s.completed
    ensures var r := Pool.Settle(s, 0, ClassifyAsWritten(a, RejectedWith(None)), Link);
      && r.completed
      && r.done == [] && r.skipped == [] && r.failed == []
  {
    assert s.queue == [];
    assert Seqs.Reverse(s.inFlight) == [a];
    assert Seqs.Reverse(s.inFlight)[0] == s.inFlight[0];
    assert s.processing == {a.link};
  }

  /** One item with the failures propagated: a failing step rejects the chain
      with its message (an asset-step message passes through the `catch`
      that prefixes it), and an item whose steps succeed is saved with the
      record `transformForSaving` builds from the image and the entry. */
  function Attempt(a: WpAsset, idx: Indexes, c: AssetClient, encode: string -> string, timedOut: bool): (o: Outcome)
    ensures timedOut ==> o == RejectedWith(None)
    ensures !timedOut && ImageEntry(a, idx.images, c, encode).Failure? ==>
      o == RejectedWith(Some(ImageEntry(a, idx.images, c, encode).error))
    ensures !timedOut && ImageEntry(a, idx.images, c, encode).Success? ==>
      var im := ImageEntry(a, idx.images, c, encode).value;
      var st := AssetEntry(a, im.image, idx.assets, c);
      && (st.Failure? ==> o == RejectedWith(Some(PRODUCTION_ERROR + st.error)))
      && (st.Success? && st.value.entry.title.None? ==> o == RejectedWith(Some(SAVING_ERROR)))
      && (st.Success? && st.value.entry.title.Some? ==>
            o == Saved(TransformForSaving(a, st.value.entry, im.image).value, st.value.processed))
    ensures o.Saved? ==>
      && !timedOut && ImageEntry(a, idx.images, c, encode).Success?
      && (o.processed <==> JsMap.Has(idx.assets, a.title))
      && o.saved.wordpress == a
  {
    if timedOut then RejectedWith(None)
    else
      match ImageEntry(a, idx.images, c, encode)
      case Failure(e) => RejectedWith(Some(e))
      case Success(im) =>
        match AssetEntry(a, im.image, idx.assets, c)
        case Failure(e) => RejectedWith(Some(PRODUCTION_ERROR + e))
        case Success(st) => SaveStep(a, im.image, st)
  }

  /** The corrected handler: every rejection is recorded with its reason. */
  function Classify(a: WpAsset, o: Outcome): (v: Pool.Verdict<SavedAsset, FailedAsset>)
    ensures v.ToSkipped? <==> o.Saved? && o.processed
    ensures v.ToDone? <==> o.Saved? && !o.processed
    ensures v.ToFailed? <==> o.RejectedWith?
    ensures v.ToSkipped? || v.ToDone? ==> v.d == o.saved
    ensures v.ToFailed? ==> v.f == FailedAsset(a, o.reason)
  {
    match o
    case Saved(s, processed) => if processed then Pool.ToSkipped(s) else Pool.ToDone(s)
    case RejectedWith(e) => Pool.ToFailed(FailedAsset(a, e))
  }

  /** An item that saves is skipped exactly when its title was already in the
      asset index, and its image is created only when its file name was not
      in the image index. */
  lemma SkippedIffIndexed(a: WpAsset, idx: Indexes, c: AssetClient, encode: string -> string, timedOut: bool)
    requires Attempt(a, idx, c, encode, timedOut).Saved?
    ensures Classify(a, Attempt(a, idx, c, encode, timedOut)).ToSkipped? <==> JsMap.Has(idx.assets, a.title)
    ensures ImageEntry(a, idx.images, c, encode).value.created <==> !JsMap.Has(idx.images, Util.TrimUrlToFilename(a.link))
  {
  }

  /** The settlement of one item with the failures propagated: the attempt,
      then the corrected handler. The pool's choice says whether the timer
      fired first. */
  function Settlement(idx: Indexes, c: AssetClient, encode: string -> string): (WpAsset, bool) -> Pool.Verdict<SavedAsset, FailedAsset>
  {
    (a: WpAsset, timedOut: bool) => Classify(a, Attempt(a, idx, c, encode, timedOut))
  }

  /** The WordPress item behind a saved record and behind a failure record. */
  function SavedItem(s: SavedAsset): WpAsset
  {
    s.wordpress
  }

  function FailedItem(f: FailedAsset): WpAsset
  {
    f.asset
  }

  /** With distinct links, the corrected pool completes after any schedule at
      least as long as the input, and the WordPress items behind `done.json`
      and `failed.json` together are exactly the input items, each once. */
  lemma AssetPoolAccountsForEveryItem(assets: seq<WpAsset>, choices: seq<Pool.Choice<bool>>, idx: Indexes, c: AssetClient, encode: string -> string)
    requires Pool.KeysDistinct(assets, Link)
    requires |choices| >= |assets|
    ensures var r := Pool.Run(Pool.StartOrComplete<WpAsset, string, SavedAsset, FailedAsset>(assets, Link), choices, Settlement(idx, c, encode), Link);
      && r.completed
      && multiset(Pool.Images(DoneFile(r), SavedItem)) + multiset(Pool.Images(r.failed, FailedItem)) == multiset(assets)
      && |DoneFile(r)| + |r.failed| == |assets|
  {
    var settle := Settlement(idx, c, encode);
    SettlementFaithful(idx, c, encode);
    Pool.PoolRecordsEveryItem<WpAsset, string, SavedAsset, FailedAsset, bool>(assets, choices, settle, Link, SavedItem, FailedItem);
    DoneFileItems(Pool.Run(Pool.StartOrComplete<WpAsset, string, SavedAsset, FailedAsset>(assets, Link), choices, settle, Link));
  }

  /** Every settlement records the item it settles. */
  lemma SettlementFaithful(idx: Indexes, c: AssetClient, encode: string -> string)
    ensures Pool.Faithful(Settlement(idx, c, encode), SavedItem, FailedItem)
  {
    var settle := Settlement(idx, c, encode);
    forall x, t ensures Pool.RecordsItem(settle(x, t), x, SavedItem, FailedItem) {
      var o := Attempt(x, idx, c, encode, t);
      assert settle(x, t) == Classify(x, o);
    }
  }

  lemma DoneFileItems(r: Pool.State<WpAsset, string, SavedAsset, FailedAsset>)
    ensures multiset(Pool.Images(DoneFile(r), SavedItem))
      == multiset(Pool.Images(r.done, SavedItem)) + multiset(Pool.Images(r.skipped, SavedItem))
  {
    assert Pool.Images(DoneFile(r), SavedItem) == Pool.Images(r.done, SavedItem) + Pool.Images(r.skipped, SavedItem);
  }

  /** `done.json`: the `done` records followed by the `skipped` ones. */
  function DoneFile(s: Pool.State<WpAsset, string, SavedAsset, FailedAsset>): seq<SavedAsset>
  {
    s.done + s.skipped
  }
}

=== FILE: author_types.dfy ===
/** `processSavedUsers`: every WordPress user is paired with the existing
    author entry, if any, stored under the user's sanitised name.
 */
module AuthorTypes {
  import opened Wrappers
  import opened Strings
  import JsMap
  import Drain

  /** `sanitizeName`: lower-case, then drop every space (U+0020). Only the
      spaces go: every other character survives, lower-cased. */
  function SanitizeName(s: string): (r: string)
    ensures ' ' !in r
    ensures forall i :: 0 <= i < |r| ==> !('A' <= r[i] <= 'Z')
    ensures forall ch :: ch in r ==> ch in ToLower(s)
    ensures |r| == |s| - multiset(s)[' ']
  {
    var r := RemoveAll(ToLower(s), ' ');
    assert forall i :: 0 <= i < |r| ==> r[i] in ToLower(s);
    RemoveAllLength(ToLower(s), ' ');
    ToLowerKeepsCount(s, ' ');
    r
  }

  /** One character: a space vanishes, anything else is lower-cased. */
  lemma SanitizeNameChar(ch: char)
    ensures SanitizeName([ch]) == if ch == ' ' then [] else [LowerChar(ch)]
  {
    assert ToLower([ch]) == [LowerChar(ch)];
  }

  /** The name is sanitised character by character: sanitising a
      concatenation concatenates the sanitised parts. With SanitizeNameChar
      this determines the result for every input. */
  lemma SanitizeNameAppend(a: string, b: string)
    ensures SanitizeName(a + b) == SanitizeName(a) + SanitizeName(b)
  {
    ToLowerAppend(a, b);
    RemoveAllAppend(ToLower(a), ToLower(b), ' ');
  }

  /** A space inserted anywhere does not change the key. */
  lemma SanitizeNameIgnoresSpace(a: string, b: string)
    ensures SanitizeName(a + " " + b) == SanitizeName(a + b)
  {
    SanitizeNameAppend(a + " ", b);
    SanitizeNameAppend(a, " ");
    SanitizeNameChar(' ');
    SanitizeNameAppend(a, b);
  }

  /** Two characters that lower-case alike give the same key wherever they
      stand. */
  lemma SanitizeNameIgnoresCase(a: string, x: char, y: char, b: string)
    requires LowerChar(x) == LowerChar(y)
    ensures SanitizeName(a + [x] + b) == SanitizeName(a + [y] + b)
  {
    SanitizeNameAppend(a + [x], b);
    SanitizeNameAppend(a, [x]);
    SanitizeNameChar(x);
    SanitizeNameAppend(a + [y], b);
    SanitizeNameAppend(a, [y]);
    SanitizeNameChar(y);
    assert x == ' ' <==> y == ' ';
  }

  /** Sanitising a sanitised name changes nothing. */
  lemma SanitizeNameIdempotent(s: string)
    ensures SanitizeName(SanitizeName(s)) == SanitizeName(s)
  {
    var r := SanitizeName(s);
    assert ToLower(r) == r;
    RemoveAllAbsent(r, ' ');
  }

  /** For example, three spellings of one name share the key `janedoe`. */
  lemma SanitizeNameExample()
    ensures SanitizeName("Jane Doe") == "janedoe"
    ensures SanitizeName("jane doe") == "janedoe"
    ensures SanitizeName("JaneDoe") == "janedoe"
  {
    JaneDoeLowered();
    JaneDoeWithoutSpace();
  }

  lemma JaneDoeLowered()
    ensures ToLower("Jane Doe") == "jane doe" && ToLower("jane doe") == "jane doe"
    ensures ToLower("JaneDoe") == "janedoe"
  {
  }

  lemma JaneDoeWithoutSpace()
    ensures RemoveAll("jane doe", ' ') == "janedoe"
    ensures RemoveAll("janedoe", ' ') == "janedoe"
  {
    RemoveAllAbsent("janedoe", ' ');
    JaneDoeSpaceDropped();
  }

  lemma JaneDoeSpaceDropped()
    ensures RemoveAll("jane doe", ' ') == "janedoe"
  {
    assert "jane doe" == "jane" + " doe";
    assert " doe" == " " + "doe";
    RemoveAllAppend("jane", " doe", ' ');
    RemoveAllAppend(" ", "doe", ' ');
    RemoveAllAbsent("jane", ' ');
    RemoveAllAbsent("doe", ' ');
    assert "jane" + "doe" == "janedoe";
  }

  /** A WordPress user as downloaded. */
  datatype WpUser = WpUser(id: int, name: string)

  /** A saved record: the user as downloaded and the matching author entry
      (`found || null`). */
  datatype UserOutput<V> = UserOutput(wordpress: WpUser, contentful: Option<V>)

  /** `findUserInContentful` against the name-keyed index of existing author
      entries. */
  function FindUserInContentful<V>(u: WpUser, cfUsers: JsMap.JsMap<string, V>): (r: UserOutput<V>)
    ensures r.wordpress == u
    ensures r.contentful.Some? <==> JsMap.Has(cfUsers, SanitizeName(u.name))
    ensures r.contentful.Some? ==> Some(r.contentful.value) == JsMap.Get(cfUsers, SanitizeName(u.name))
  {
    var key := SanitizeName(u.name);
    UserOutput(u, if JsMap.Has(cfUsers, key) then JsMap.Get(cfUsers, key) else None)
  }

  /** `processSavedUsers`: one record per user across all saved pages, in
      pop order; the lookup never fails. */
  function ProcessSavedUsers<V>(files: seq<seq<WpUser>>, cfUsers: JsMap.JsMap<string, V>): (out: seq<UserOutput<V>>)
    ensures |out| == |Drain.Gather(files)|
    ensures forall k :: 0 <= k < |out| ==>
      out[k] == FindUserInContentful(Drain.Popped(Drain.Gather(files), k), cfUsers)
  {
    var users := Drain.Gather(files);
    var f: WpUser -> Result<UserOutput<V>, string> := u => Success(FindUserInContentful(u, cfUsers));
    Drain.MapPoppedSpec(users, f);
    Drain.MapPopped(users, f).value
  }
}

=== FILE: authors.dfy ===
/** `processBlogAuthors`: every saved WordPress author, file by file and in
    page order, is either replaced by the existing author entry stored under
    its exact name or kept with an author entry attached, created when it
    has none.
 */
module Authors {
  import opened Wrappers
  import opened Seqs
  import JsMap

  /** A saved WordPress author; `contentful` is the entry attached by an
      earlier run, if any. The other fields are carried along unchanged. */
  datatype Author<E> = Author(id: int, name: string, slug: string, contentful: Option<E>)

  /** The fields of a new `author` entry. */
  datatype AuthorFields = AuthorFields(name: string, slug: string, id: string)

  function NewAuthorFields<E>(a: Author<E>): (f: AuthorFields)
    ensures f.name == a.name && f.slug == a.slug && f.id == a.slug
  {
    AuthorFields(a.name, a.slug, a.slug)
  }

  /** `createAuthorEntry`: a rejected create is reported and swallowed, so it
      yields no entry. */
  function CreateAuthorEntry<E>(a: Author<E>, create: AuthorFields -> Result<E, string>): (r: Option<E>)
    ensures r.Some? <==> create(NewAuthorFields(a)).Success?
    ensures r.Some? ==> r.value == create(NewAuthorFields(a)).value
  {
    match create(NewAuthorFields(a))
    case Success(e) => Some(e)
    case Failure(_) => None
  }

  /** `createAuthorsInContentful`: the author with only `contentful`
      replaced; an attached entry is kept, otherwise one is created. */
  function CreateAuthorsInContentful<E>(a: Author<E>, create: AuthorFields -> Result<E, string>): (r: Author<E>)
    ensures r == a.(contentful := r.contentful)
    ensures a.contentful.Some? ==> r == a
    ensures a.contentful.None? ==> r.contentful == CreateAuthorEntry(a, create)
  {
    if a.contentful.Some? then a
    else a.(contentful := CreateAuthorEntry(a, create))
  }

  /** An element of the written list: an existing entry as fetched, or the
      processed author. */
  datatype Done<E> = Existing(entry: E) | Processed(author: Author<E>)

  /** One author: the entry under its exact name if the index has one, no
      create then; otherwise the processed author. */
  function ProcessAuthor<E>(a: Author<E>, cfUsers: JsMap.JsMap<string, E>, create: AuthorFields -> Result<E, string>): (r: Done<E>)
    ensures r.Existing? <==> JsMap.Has(cfUsers, a.name)
    ensures r.Existing? ==> JsMap.Get(cfUsers, a.name) == Some(r.entry)
    ensures r.Processed? ==> r.author == CreateAuthorsInContentful(a, create)
  {
    if JsMap.Has(cfUsers, a.name) then Existing(JsMap.Get(cfUsers, a.name).value)
    else Processed(CreateAuthorsInContentful(a, create))
  }

  /** The inner loop over one file's authors, in array order. */
  function ProcessFile<E>(authors: seq<Author<E>>, cfUsers: JsMap.JsMap<string, E>, create: AuthorFields -> Result<E, string>): seq<Done<E>>
  {
    if |authors| == 0 then []
    else ProcessFile(authors[..|authors| - 1], cfUsers, create) + [ProcessAuthor(authors[|authors| - 1], cfUsers, create)]
  }

  /** The outer loop over the files, in listing order. The index is fetched
      once and never extended. */
  function ProcessBlogAuthors<E>(files: seq<seq<Author<E>>>, cfUsers: JsMap.JsMap<string, E>, create: AuthorFields -> Result<E, string>): seq<Done<E>>
  {
    if |files| == 0 then []
    else ProcessBlogAuthors(files[..|files| - 1], cfUsers, create) + ProcessFile(files[|files| - 1], cfUsers, create)
  }

  /** One element per author of the file, in array order. */
  lemma {:induction false} ProcessFileSpec<E>(authors: seq<Author<E>>, cfUsers: JsMap.JsMap<string, E>, create: AuthorFields -> Result<E, string>)
    ensures var out := ProcessFile(authors, cfUsers, create);
      |out| == |authors| && forall i :: 0 <= i < |authors| ==> out[i] == ProcessAuthor(authors[i], cfUsers, create)
    decreases |authors|
  {
    if |authors| > 0 {
      ProcessFileSpec(authors[..|authors| - 1], cfUsers, create);
    }
  }

  /** Element-wise images concatenate. */
  lemma ImagesConcat<T, R>(out1: seq<R>, in1: seq<T>, out2: seq<R>, in2: seq<T>, g: T -> R)
    requires |out1| == |in1| && forall i :: 0 <= i < |in1| ==> out1[i] == g(in1[i])
    requires |out2| == |in2| && forall i :: 0 <= i < |in2| ==> out2[i] == g(in2[i])
    ensures forall i :: 0 <= i < |in1 + in2| ==> (out1 + out2)[i] == g((in1 + in2)[i])
  {
  }

  /** The written list has exactly one element per author, file then array
      order, each decided against the same index: an author whose name
      another author already had gets an entry created again. */
  lemma {:induction false} ProcessBlogAuthorsSpec<E>(files: seq<seq<Author<E>>>, cfUsers: JsMap.JsMap<string, E>, create: AuthorFields -> Result<E, string>)
    ensures var out := ProcessBlogAuthors(files, cfUsers, create);
      && |out| == |Flatten(files)|
      && forall i :: 0 <= i < |out| ==> out[i] == ProcessAuthor(Flatten(files)[i], cfUsers, create)
    decreases |files|
  {
    if |files| > 0 {
      var init := files[..|files| - 1];
      var page := files[|files| - 1];
      ProcessBlogAuthorsSpec(init, cfUsers, create);
      ProcessFileSpec(page, cfUsers, create);
      ImagesConcat(ProcessBlogAuthors(init, cfUsers, create), Flatten(init),
                   ProcessFile(page, cfUsers, create), page,
                   a => ProcessAuthor(a, cfUsers, create));
    }
  }
}

=== FILE: blog_posts.dfy ===
/** `createBlogPosts` and `handleContentfulBlogEntry`: every transformed post
    is mapped onto the fields of an `articlePage` entry, which is then either
    updated (when an entry with a matching slug exists) or created and
    published. The posts go through the worker pool of module `Pool`, keyed
    by slug.

    Locale wrapping (`{ [CONTENTFUL_LOCALE]: … }`) is dropped: a field holds
    its value directly. A link `{ sys: { type: "Link", linkType: "Entry", id } }`
    is `Link(id)`.
 */
module BlogPosts {
  import opened Wrappers
  import opened Strings
  import Pool

  datatype Link = Link(id: string)

  /** The fields of an `articlePage` entry; `None` is an absent field. */
  datatype Fields = Fields(
    title: Option<string>,
    slug: Option<string>,
    content: Option<Link>,
    modules: Option<seq<Link>>,
    publishDate: Option<Link>,
    mainTitle: Option<Link>,
    summary: Option<Link>,
    bannerImage: Option<Link>,
    author: Option<Link>,
    breadcrumbs: Option<Link>,
    relatedTopics: Option<Link>,
    relatedTopicsBottom: Option<Link>,
    ctaBottom: Option<Link>,
    layout: Option<Link>)

  /** The entry a new post starts from: `{ fields: {} }`. */
  const NoFields := Fields(None, None, None, None, None, None, None, None, None, None, None, None, None, None)

  /** The author the references stage attached to a post: an object whose
      `contentful` part may be missing. */
  datatype AuthorRef = AuthorRef(contentful: Option<Link>)

  /** `post.contentful`: the entries the references stage created. */
  datatype PostRefs = PostRefs(
    content: Option<Link>,
    publishDate: Option<Link>,
    mainTitle: Option<Link>,
    summary: Option<Link>,
    titleImage: Option<Link>,
    author: Option<AuthorRef>,
    breadcrumbs: Option<Link>,
    relatedTopics: Option<Link>)

  /** A transformed post; the empty string is a falsy title or slug. */
  datatype Post = Post(title: string, slug: string, contentful: Option<PostRefs>)

  /** The two ids the mapping falls back on (`CTA_BOTTOM_ID`, `BLOG_LAYOUT_ID`). */
  datatype Defaults = Defaults(ctaBottom: string, layout: string)

  const BLOG: string := "/blog/"

  /** The rethrown mapping error, abbreviated: the engine's text after
      `TypeError` is dropped. */
  const MAPPING_ERROR: string := "Error in handleContentfulBlogEntry: TypeError"

  /** The slug stored on the entry: `/blog/` is put in front unless it already
      occurs somewhere in the slug. */
  function NormalizeSlug(slug: string): (r: string)
    ensures Contains(r, BLOG)
    ensures Contains(slug, BLOG) ==> r == slug
    ensures !Contains(slug, BLOG) ==> r == BLOG + slug
  {
    if Contains(slug, BLOG) then slug
    else
      ContainsMiddle("", BLOG, slug);
      assert "" + BLOG + slug == BLOG + slug;
      BLOG + slug
  }

  /** Normalising a slug twice is normalising it once. */
  lemma NormalizeSlugIdempotent(slug: string)
    ensures NormalizeSlug(NormalizeSlug(slug)) == NormalizeSlug(slug)
  {
  }

  /** The mapping throws (a `TypeError` caught and rethrown as
      "Error in handleContentfulBlogEntry: …") when the entry has no fields
      object, the post has no `contentful` part, that part has no content
      entry (whose id every module link needs), or it has an author without a
      `contentful` entry. */
  predicate MappingThrows(post: Post, fields: Option<Fields>)
  {
    || fields.None?
    || post.contentful.None?
    || post.contentful.value.content.None?
    || (post.contentful.value.author.Some? && post.contentful.value.author.value.contentful.None?)
  }

  function LinkIfPresent(current: Option<Link>, ref: Option<Link>): Option<Link>
  {
    if ref.Some? then ref else current
  }

  function DefaultIfAbsent(current: Option<Link>, id: string): Option<Link>
  {
    if current.Some? then current else Some(Link(id))
  }

  /** The fields after the steps of `handleContentfulBlogEntry` that cannot
      throw once the guard has passed. */
  function MapFields(post: Post, f: Fields, refs: PostRefs, d: Defaults): Fields
    requires refs.content.Some?
    requires refs.author.Some? ==> refs.author.value.contentful.Some?
  {
    var contentLink := refs.content.value;
    var f1 := if post.title != "" then f.(title := Some(post.title)) else f;
    var f2 := if post.slug != "" then f1.(slug := Some(NormalizeSlug(post.slug))) else f1;
    var f3 := f2.(content := Some(contentLink));
    var f4 := f3.(modules := Some(if f3.modules.None? then [contentLink] else f3.modules.value + [contentLink]));
    var f5 := f4.(publishDate := LinkIfPresent(f4.publishDate, refs.publishDate),
                  mainTitle := LinkIfPresent(f4.mainTitle, refs.mainTitle),
                  summary := LinkIfPresent(f4.summary, refs.summary),
                  bannerImage := LinkIfPresent(f4.bannerImage, refs.titleImage));
    var f6 := if refs.author.Some? then f5.(author := refs.author.value.contentful) else f5;
    var f7 := f6.(breadcrumbs := LinkIfPresent(f6.breadcrumbs, refs.breadcrumbs));
    var f8 := if refs.relatedTopics.Some? then f7.(relatedTopics := refs.relatedTopics, relatedTopicsBottom := refs.relatedTopics) else f7;
    f8.(ctaBottom := DefaultIfAbsent(f8.ctaBottom, d.ctaBottom), layout := DefaultIfAbsent(f8.layout, d.layout))
  }

  /** Title and slug are set only from a truthy value; a set slug always
      holds "/blog/" and is kept as it is when it already did. */
  predicate TextMapped(post: Post, f: Fields, r: Fields)
  {
    && (post.title != "" ==> r.title == Some(post.title))
    && (post.title == "" ==> r.title == f.title)
    && (post.slug != "" ==> r.slug.Some? && Contains(r.slug.value, BLOG)
                            && (Contains(post.slug, BLOG) ==> r.slug == Some(post.slug)))
    && (post.slug == "" ==> r.slug == f.slug)
  }

  /** The content entry is linked, and appended to the modules with the
      earlier modules kept; absent modules become that one link. */
  predicate ModulesMapped(link: Link, f: Fields, r: Fields)
  {
    && r.content == Some(link)
    && r.modules.Some?
    && |r.modules.value| == (if f.modules.None? then 1 else |f.modules.value| + 1)
    && r.modules.value[|r.modules.value| - 1] == link
    && (f.modules.Some? ==> r.modules.value[..|f.modules.value|] == f.modules.value)
  }

  /** Each entry the post carries is linked; a field whose entry the post
      lacks is left as it was. */
  predicate LinksMapped(refs: PostRefs, f: Fields, r: Fields)
  {
    && r.publishDate == (if refs.publishDate.Some? then refs.publishDate else f.publishDate)
    && r.mainTitle == (if refs.mainTitle.Some? then refs.mainTitle else f.mainTitle)
    && r.summary == (if refs.summary.Some? then refs.summary else f.summary)
    && r.bannerImage == (if refs.titleImage.Some? then refs.titleImage else f.bannerImage)
    && r.author == (if refs.author.Some? then refs.author.value.contentful else f.author)
    && r.breadcrumbs == (if refs.breadcrumbs.Some? then refs.breadcrumbs else f.breadcrumbs)
  }

  /** Both related-topic fields link the same entry, and the two defaults are
      filled in only where the entry has nothing. */
  predicate TopicsAndDefaultsMapped(refs: PostRefs, d: Defaults, f: Fields, r: Fields)
  {
    && (refs.relatedTopics.Some? ==>
          r.relatedTopics == refs.relatedTopics && r.relatedTopicsBottom == refs.relatedTopics)
    && (refs.relatedTopics.None? ==>
          r.relatedTopics == f.relatedTopics && r.relatedTopicsBottom == f.relatedTopicsBottom)
    && r.ctaBottom == (if f.ctaBottom.Some? then f.ctaBottom else Some(Link(d.ctaBottom)))
    && r.layout == (if f.layout.Some? then f.layout else Some(Link(d.layout)))
  }

  lemma MapFieldsText(post: Post, f: Fields, refs: PostRefs, d: Defaults)
    requires refs.content.Some?
    requires refs.author.Some? ==> refs.author.value.contentful.Some?
    ensures TextMapped(post, f, MapFields(post, f, refs, d))
  {
  }

  lemma MapFieldsModules(post: Post, f: Fields, refs: PostRefs, d: Defaults)
    requires refs.content.Some?
    requires refs.author.Some? ==> refs.author.value.contentful.Some?
    ensures ModulesMapped(refs.content.value, f, MapFields(post, f, refs, d))
  {
  }

  lemma MapFieldsLinks(post: Post, f: Fields, refs: PostRefs, d: Defaults)
    requires refs.content.Some?
    requires refs.author.Some? ==> refs.author.value.contentful.Some?
    ensures LinksMapped(refs, f, MapFields(post, f, refs, d))
  {
  }

  lemma MapFieldsTopicsAndDefaults(post: Post, f: Fields, refs: PostRefs, d: Defaults)
    requires refs.content.Some?
    requires refs.author.Some? ==> refs.author.value.contentful.Some?
    ensures TopicsAndDefaultsMapped(refs, d, f, MapFields(post, f, refs, d))
  {
  }

  /** `handleContentfulBlogEntry(post, entry)` on an entry whose fields are
      `fields` (`None` for `undefined`): it throws exactly in the cases of
      `MappingThrows`, and otherwise maps every field as the four predicates
      above describe. */
  function MapBlogEntry(post: Post, fields: Option<Fields>, d: Defaults): (r: Result<Fields, string>)
    ensures r.Failure? <==> MappingThrows(post, fields)
    ensures r.Failure? ==> r.error == MAPPING_ERROR
    ensures r.Success? ==>
      && TextMapped(post, fields.value, r.value)
      && ModulesMapped(post.contentful.value.content.value, fields.value, r.value)
      && LinksMapped(post.contentful.value, fields.value, r.value)
      && TopicsAndDefaultsMapped(post.contentful.value, d, fields.value, r.value)
  {
    if MappingThrows(post, fields) then Failure(MAPPING_ERROR)
    else
      var refs := post.contentful.value;
      MapFieldsText(post, fields.value, refs, d);
      MapFieldsModules(post, fields.value, refs, d);
      MapFieldsLinks(post, fields.value, refs, d);
      MapFieldsTopicsAndDefaults(post, fields.value, refs, d);
      Success(MapFields(post, fields.value, refs, d))
  }

  /** Mapping a post onto a fresh entry: every link the post carries, the
      content entry as the only module, and both defaults. */
  lemma MapFreshEntry(post: Post, d: Defaults)
    requires !MappingThrows(post, Some(NoFields))
    ensures var r := MapBlogEntry(post, Some(NoFields), d);
      && r.Success?
      && r.value.modules == Some([post.contentful.value.content.value])
      && r.value.ctaBottom == Some(Link(d.ctaBottom))
      && r.value.layout == Some(Link(d.layout))
  {
  }

  /** Mapping an already-mapped entry again adds the content link to the
      modules a second time: re-running the mapping is not idempotent. */
  lemma RemapGrowsModules(post: Post, f: Fields, d: Defaults)
    requires !MappingThrows(post, Some(f))
    ensures var r1 := MapBlogEntry(post, Some(f), d);
      var r2 := MapBlogEntry(post, Some(r1.value), d);
      && r2.Success?
      && |r2.value.modules.value| == |r1.value.modules.value| + 1
      && r2.value.ctaBottom == r1.value.ctaBottom
      && r2.value.layout == r1.value.layout
  {
  }

  /** An entry fetched from the space: its fields and whether it has its own
      `update` method. */
  datatype CfEntry = CfEntry(fields: Option<Fields>, hasOwnUpdate: bool)

  /** The response of the slug-match query. */
  datatype QueryResult = QueryResult(total: nat, items: seq<CfEntry>)

  /** What `publish()` or `update()` resolves with; `skipped` is its
      (truthy) `skipped` property. */
  datatype Published = Published(skipped: bool)

  /** Which write a post ended with. */
  datatype Write = Updated(fields: Fields) | Created(fields: Fields)

  /** The client calls the per-post task makes, each resolving or rejecting. */
  datatype Client = Client(
    query: string -> Result<QueryResult, string>,
    update: CfEntry -> Result<Published, string>,
    create: Fields -> Result<string, string>,
    publish: string -> Result<Published, string>)

  function PostError(post: Post, e: string): string
  {
    "Error with post " + post.slug + ". " + e
  }

  /** The write step once the fields are mapped: `update()` when an entry was
      found and has its own `update`, otherwise `createEntry` then `publish()`. */
  function WriteEntry(post: Post, c: Client, found: Option<CfEntry>, f: Fields): Result<(Published, Write), string>
  {
    if found.Some? && found.value.hasOwnUpdate then
      match c.update(found.value.(fields := Some(f)))
      case Failure(e) => Failure(PostError(post, e))
      case Success(p) => Success((p, Updated(f)))
    else
      match c.create(f)
      case Failure(e) => Failure(PostError(post, e))
      case Success(id) =>
        match c.publish(id)
        case Failure(e) => Failure(PostError(post, e))
        case Success(p) => Success((p, Created(f)))
  }

  /** The per-post task as written: on a match the entry's fields are
      overwritten with `cfData.fields`, and `cfData` is still `{}`, so the
      mapping sees `undefined` fields. An empty `items` with a positive
      `total` makes the assignment itself throw. */
  function ProcessPostAsWritten(post: Post, c: Client, d: Defaults): Result<(Published, Write), string>
  {
    match c.query(post.slug)
    case Failure(e) => Failure(PostError(post, e))
    case Success(q) =>
      if q.total > 0 && |q.items| == 0 then Failure(PostError(post, "TypeError"))
      else
        var found := if q.total > 0 then Some(q.items[0].(fields := None)) else None;
        match MapBlogEntry(post, if found.Some? then None else Some(NoFields), d)
        case Failure(e) => Failure(PostError(post, e))
        case Success(f) => WriteEntry(post, c, found, f)
  }

  /** As written, a post whose slug matches an existing entry always fails
      with the mapping error, so no entry is ever updated. */
  lemma AsWrittenNeverUpdates(post: Post, c: Client, d: Defaults)
    requires c.query(post.slug).Success? && c.query(post.slug).value.total > 0
    ensures ProcessPostAsWritten(post, c, d).Failure?
  {
  }

  /** The per-post task with the existing entry's fields kept, so the mapping
      runs on them and the entry is updated. */
  function ProcessPost(post: Post, c: Client, d: Defaults): (r: Result<(Published, Write), string>)
    ensures c.query(post.slug).Failure? ==> r.Failure?
    ensures c.query(post.slug).Success? ==>
      var q := c.query(post.slug).value;
      && (q.total > 0 && |q.items| == 0 ==> r.Failure?)
      && (q.total == 0 && MappingThrows(post, Some(NoFields)) ==> r.Failure?)
      && (q.total > 0 && |q.items| > 0 && MappingThrows(post, q.items[0].fields) ==> r.Failure?)
    ensures r.Failure? ==> exists e :: r.error == PostError(post, e)
    ensures r.Success? && r.value.1.Updated? ==>
      var q := c.query(post.slug).value;
      && q.total > 0 && |q.items| > 0 && q.items[0].hasOwnUpdate
      && Success(r.value.1.fields) == MapBlogEntry(post, q.items[0].fields, d)
    ensures r.Success? && r.value.1.Created? ==>
      var q := c.query(post.slug).value;
      && (q.total == 0 ==> Success(r.value.1.fields) == MapBlogEntry(post, Some(NoFields), d))
      && (q.total > 0 ==> |q.items| > 0 && !q.items[0].hasOwnUpdate
                          && Success(r.value.1.fields) == MapBlogEntry(post, q.items[0].fields, d))
    // The update branch: `update()`'s rejection fails the post with its reason,
    // and its resolved value is what the post publishes.
    ensures c.query(post.slug).Success? ==>
      var q := c.query(post.slug).value;
      q.total > 0 && |q.items| > 0 && q.items[0].hasOwnUpdate && !MappingThrows(post, q.items[0].fields) ==>
        var f := MapBlogEntry(post, q.items[0].fields, d).value;
        var u := c.update(q.items[0].(fields := Some(f)));
        && (u.Failure? ==> r == Failure(PostError(post, u.error)))
        && (u.Success? ==> r == Success((u.value, Updated(f))))
    // The create branch: a rejected `createEntry` or `publish()` fails the post
    // with its reason; otherwise the post publishes what `publish()` resolved.
    ensures c.query(post.slug).Success? ==>
      var q := c.query(post.slug).value;
      var fields := if q.total > 0 && |q.items| > 0 then q.items[0].fields else Some(NoFields);
      (q.total == 0 || (|q.items| > 0 && !q.items[0].hasOwnUpdate)) && !MappingThrows(post, fields) ==>
        var f := MapBlogEntry(post, fields, d).value;
        var cr := c.create(f);
        && (cr.Failure? ==> r == Failure(PostError(post, cr.error)))
        && (cr.Success? && c.publish(cr.value).Failure? ==> r == Failure(PostError(post, c.publish(cr.value).error)))
        && (cr.Success? && c.publish(cr.value).Success? ==> r == Success((c.publish(cr.value).value, Created(f))))
  {
    match c.query(post.slug)
    case Failure(e) => Failure(PostError(post, e))
    case Success(q) =>
      if q.total > 0 && |q.items| == 0 then Failure(PostError(post, "TypeError"))
      else
        var found := if q.total > 0 then Some(q.items[0]) else None;
        match MapBlogEntry(post, if found.Some? then found.value.fields else Some(NoFields), d)
        case Failure(e) => Failure(PostError(post, e))
        case Success(f) => WriteEntry(post, c, found, f)
  }

  /** With the fields kept, an existing entry that has its own `update`, is
      mappable and accepts the update is updated with the mapped fields. */
  lemma ExistingEntryIsUpdated(post: Post, c: Client, d: Defaults)
    requires c.query(post.slug).Success?
    requires var q := c.query(post.slug).value;
      && q.total > 0 && |q.items| > 0 && q.items[0].hasOwnUpdate
      && !MappingThrows(post, q.items[0].fields)
      && c.update(q.items[0].(fields := Some(MapBlogEntry(post, q.items[0].fields, d).value))).Success?
    ensures var q := c.query(post.slug).value;
      var f := MapBlogEntry(post, q.items[0].fields, d).value;
      var r := ProcessPost(post, c, d);
      && r.Success?
      && r.value == (c.update(q.items[0].(fields := Some(f))).value, Updated(f))
  {
  }

  /** With the fields kept, a post with no updatable entry (none found, or
      the first found one has no `update` of its own) whose mapping succeeds
      is created with the mapped fields and published, when both calls
      resolve. */
  lemma NoUpdatableEntryIsCreated(post: Post, c: Client, d: Defaults)
    requires c.query(post.slug).Success?
    requires var q := c.query(post.slug).value;
      var fields := if q.total > 0 && |q.items| > 0 then q.items[0].fields else Some(NoFields);
      && (q.total == 0 || (|q.items| > 0 && !q.items[0].hasOwnUpdate))
      && !MappingThrows(post, fields)
      && c.create(MapBlogEntry(post, fields, d).value).Success?
      && c.publish(c.create(MapBlogEntry(post, fields, d).value).value).Success?
    ensures var q := c.query(post.slug).value;
      var fields := if q.total > 0 && |q.items| > 0 then q.items[0].fields else Some(NoFields);
      var r := ProcessPost(post, c, d);
      var f := MapBlogEntry(post, fields, d).value;
      && r.Success?
      && r.value == (c.publish(c.create(f).value).value, Created(f))
  {
  }

  /** How the race between the task and the timer settled. */
  datatype Outcome = Resolved(published: Published) | Rejected(error: Option<string>)

  /** `Promise.race([timer, task])`: the timer rejects with `undefined`;
      otherwise the task's own settlement decides. */
  function Race(timedOut: bool, task: Result<(Published, Write), string>): (o: Outcome)
    ensures timedOut ==> o == Rejected(None)
    ensures !timedOut ==> (o.Resolved? <==> task.Success?)
    ensures !timedOut && task.Success? ==> o.published == task.value.0
    ensures !timedOut && task.Failure? ==> o.error == Some(task.error)
  {
    if timedOut then Rejected(None)
    else match task
      case Success(pw) => Resolved(pw.0)
      case Failure(e) => Rejected(Some(e))
  }

  /** `{ post, error }` pushed to `failed`; `None` is an `undefined` error. */
  datatype FailedPost = FailedPost(post: Post, error: Option<string>)

  function Slug(post: Post): string
  {
    post.slug
  }

  /** The settlement handler: a resolved post goes to `skipped` when the
      result's `skipped` is truthy and to `done` otherwise; a rejected or timed
      out post goes to `failed` with its error. */
  function Classify(post: Post, o: Outcome): (v: Pool.Verdict<Post, FailedPost>)
    ensures v.ToSkipped? <==> o.Resolved? && o.published.skipped
    ensures v.ToDone? <==> o.Resolved? && !o.published.skipped
    ensures v.ToFailed? <==> o.Rejected?
    ensures v.ToSkipped? || v.ToDone? ==> v.d == post
    ensures v.ToFailed? ==> v.f == FailedPost(post, o.error)
  {
    match o
    case Resolved(p) => if p.skipped then Pool.ToSkipped(post) else Pool.ToDone(post)
    case Rejected(e) => Pool.ToFailed(FailedPost(post, e))
  }

  /** The settlement of one post: the task raced against the timer, then the
      handler. The pool's choice says whether the timer fired first. */
  function Settlement(c: Client, d: Defaults): (Post, bool) -> Pool.Verdict<Post, FailedPost>
  {
    (post: Post, timedOut: bool) => Classify(post, Race(timedOut, ProcessPost(post, c, d)))
  }

  function PostItem(post: Post): Post
  {
    post
  }

  function FailedPostItem(f: FailedPost): Post
  {
    f.post
  }

  /** With distinct slugs, the pool (with the empty-input completion added)
      completes after any schedule at least as long as the input, and `done`,
      `skipped` and the posts of `failed` together hold exactly the input
      posts, each once. */
  lemma BlogPoolAccountsForEveryPost(posts: seq<Post>, choices: seq<Pool.Choice<bool>>, c: Client, d: Defaults)
    requires Pool.KeysDistinct(posts, Slug)
    requires |choices| >= |posts|
    ensures var r := Pool.Run(Pool.StartOrComplete<Post, string, Post, FailedPost>(posts, Slug), choices, Settlement(c, d), Slug);
      && r.completed
      && multiset(r.done) + multiset(r.skipped) + multiset(Pool.Images(r.failed, FailedPostItem)) == multiset(posts)
      && |r.done| + |r.skipped| + |r.failed| == |posts|
  {
    var settle := Settlement(c, d);
    forall x, t ensures Pool.RecordsItem(settle(x, t), x, PostItem, FailedPostItem) {
      var v := Classify(x, Race(t, ProcessPost(x, c, d)));
      assert settle(x, t) == v;
    }
    Pool.PoolRecordsEveryItem<Post, string, Post, FailedPost, bool>(posts, choices, settle, Slug, PostItem, FailedPostItem);
    var r := Pool.Run(Pool.StartOrComplete<Post, string, Post, FailedPost>(posts, Slug), choices, settle, Slug);
    assert Pool.Images(r.done, PostItem) == r.done;
    assert Pool.Images(r.skipped, PostItem) == r.skipped;
  }
}

=== FILE: breadcrumbs.dfy ===
/** `updateBreadcrumbs`: the first page of `breadcrumbs` entries is walked in
    order; each entry's first module becomes a link to the blog page, and
    entries that carry their own `update` are saved.
 */
module Breadcrumbs {
  import opened Wrappers
  import Paging

  /** A `breadcrumbs` entry as fetched: `modules` is `None` when the entry
      has no module list for the locale; `hasOwnUpdate` tells whether the
      entry object carries its own `update`. Other fields are carried along
      unchanged. */
  datatype Breadcrumb = Breadcrumb(id: string, modules: Option<seq<string>>, hasOwnUpdate: bool)

  /** Why the walk stopped: writing into a missing module list, or an
      update the client rejected, rethrown as it is. */
  datatype StopReason = TypeError | UpdateFailed(error: string)

  /** `modules[0] = link`: an empty list grows to one element, a longer one
      keeps its length and every other element. */
  function SetFirstModule(mods: seq<string>, link: string): (r: seq<string>)
    ensures |r| == if |mods| == 0 then 1 else |mods|
    ensures r[0] == link
    ensures forall i :: 1 <= i < |mods| ==> r[i] == mods[i]
  {
    if |mods| == 0 then [link] else [link] + mods[1..]
  }

  /** The entry with its first module rewritten. */
  function Rewrite(b: Breadcrumb, link: string): (r: Breadcrumb)
    requires b.modules.Some?
    ensures r == b.(modules := r.modules)
    ensures r.modules == Some(SetFirstModule(b.modules.value, link))
  {
    b.(modules := Some(SetFirstModule(b.modules.value, link)))
  }

  /** Rewriting an entry a second time changes nothing, so running the
      stage again leaves the module lists as the first run wrote them. */
  lemma RewriteIdempotent(b: Breadcrumb, link: string)
    requires b.modules.Some?
    ensures Rewrite(Rewrite(b, link), link) == Rewrite(b, link)
  {
    var m := Rewrite(b, link).modules.value;
    assert SetFirstModule(m, link) == m;
  }

  /** What the walk did: the progress counters logged, the entries rewritten
      (in order), the positions of the entries saved, and why it stopped
      early, if it did. */
  datatype Walk = Walk(progress: seq<nat>, rewritten: seq<Breadcrumb>, saved: seq<nat>, stop: Option<StopReason>)

  /** The entries the one request (skip 0, limit 1000) returns. */
  function FirstPage(store: seq<Breadcrumb>): (items: seq<Breadcrumb>)
    ensures |items| == if |store| < Paging.LIMIT then |store| else Paging.LIMIT
    ensures items == store[..|items|]
  {
    Paging.Fetch(store, 0).items
  }

  /** `updateBreadcrumbs`, with `update` standing for the client's save of
      one entry. The walk logs counters 1, 2, ...; rewrites the entries in
      order; saves exactly the rewritten entries that carry their own
      `update`; and stops at the first entry without a module list or the
      first save that fails. */
  method UpdateBreadcrumbs(store: seq<Breadcrumb>, blogPage: string, update: Breadcrumb -> Result<(), string>) returns (w: Walk)
    ensures |w.rewritten| <= |FirstPage(store)|
    ensures forall i :: 0 <= i < |w.progress| ==> w.progress[i] == i + 1
    ensures forall i :: 0 <= i < |w.rewritten| ==>
      FirstPage(store)[i].modules.Some? && w.rewritten[i] == Rewrite(FirstPage(store)[i], blogPage)
    ensures forall i :: i in w.saved <==> 0 <= i < |w.rewritten| && FirstPage(store)[i].hasOwnUpdate
    ensures w.stop.None? ==> |w.progress| == |w.rewritten| == |FirstPage(store)|
    ensures w.stop != Some(TypeError) ==> |w.progress| == |w.rewritten|
    ensures w.stop == Some(TypeError) ==>
      |w.progress| == |w.rewritten| + 1 <= |FirstPage(store)| && FirstPage(store)[|w.rewritten|].modules.None?
    ensures w.stop.Some? && w.stop.value.UpdateFailed? ==>
      0 < |w.rewritten| && FirstPage(store)[|w.rewritten| - 1].hasOwnUpdate
      && update(w.rewritten[|w.rewritten| - 1]) == Failure(w.stop.value.error)
    ensures forall i :: i in w.saved && !(w.stop.Some? && w.stop.value.UpdateFailed? && i == |w.rewritten| - 1) ==>
      update(w.rewritten[i]).Success?
  {
    w := WalkItems(FirstPage(store), blogPage, update);
  }

  /** Appending position `n` to the saved positions keeps them exactly the
      positions, below the new count, of entries with their own `update`. */
  lemma SavedStep(items: seq<Breadcrumb>, n: nat, saved: seq<nat>)
    requires n < |items| && items[n].hasOwnUpdate
    requires forall i :: i in saved <==> 0 <= i < n && items[i].hasOwnUpdate
    ensures forall i :: i in saved + [n] <==> 0 <= i < n + 1 && items[i].hasOwnUpdate
  {
  }

  /** Rewriting entry `n` extends the rewritten prefix by one. */
  lemma RewrittenStep(items: seq<Breadcrumb>, blogPage: string, n: nat, rewritten: seq<Breadcrumb>)
    requires n == |rewritten| < |items| && items[n].modules.Some?
    requires forall i :: 0 <= i < n ==> items[i].modules.Some? && rewritten[i] == Rewrite(items[i], blogPage)
    ensures forall i :: 0 <= i < n + 1 ==>
      items[i].modules.Some? && (rewritten + [Rewrite(items[n], blogPage)])[i] == Rewrite(items[i], blogPage)
  {
  }

  /** The walk over the fetched entries. */
  method WalkItems(items: seq<Breadcrumb>, blogPage: string, update: Breadcrumb -> Result<(), string>) returns (w: Walk)
    ensures |w.rewritten| <= |items|
    ensures forall i :: 0 <= i < |w.progress| ==> w.progress[i] == i + 1
    ensures forall i :: 0 <= i < |w.rewritten| ==>
      items[i].modules.Some? && w.rewritten[i] == Rewrite(items[i], blogPage)
    ensures forall i :: i in w.saved <==> 0 <= i < |w.rewritten| && items[i].hasOwnUpdate
    ensures w.stop.None? ==> |w.progress| == |w.rewritten| == |items|
    ensures w.stop != Some(TypeError) ==> |w.progress| == |w.rewritten|
    ensures w.stop == Some(TypeError) ==>
      |w.progress| == |w.rewritten| + 1 <= |items| && items[|w.rewritten|].modules.None?
    ensures w.stop.Some? && w.stop.value.UpdateFailed? ==>
      0 < |w.rewritten| && items[|w.rewritten| - 1].hasOwnUpdate
      && update(w.rewritten[|w.rewritten| - 1]) == Failure(w.stop.value.error)
    ensures forall i :: i in w.saved && !(w.stop.Some? && w.stop.value.UpdateFailed? && i == |w.rewritten| - 1) ==>
      update(w.rewritten[i]).Success?
  {
    var progress: seq<nat> := [];
    var rewritten: seq<Breadcrumb> := [];
    var saved: seq<nat> := [];
    var count := 0;
    while count < |items|
      invariant count == |progress| == |rewritten| <= |items|
      invariant forall i :: 0 <= i < |progress| ==> progress[i] == i + 1
      invariant forall i :: 0 <= i < count ==> items[i].modules.Some? && rewritten[i] == Rewrite(items[i], blogPage)
      invariant forall i :: i in saved <==> 0 <= i < count && items[i].hasOwnUpdate
      invariant forall i :: i in saved ==> update(rewritten[i]).Success?
    {
      progress := progress + [count + 1];
      var b := items[count];
      if b.modules.None? {
        return Walk(progress, rewritten, saved, Some(TypeError));
      }
      var b' := Rewrite(b, blogPage);
      RewrittenStep(items, blogPage, count, rewritten);
      rewritten := rewritten + [b'];
      if b.hasOwnUpdate {
        SavedStep(items, count, saved);
        saved := saved + [count];
        match update(b')
        case Failure(e) =>
          return Walk(progress, rewritten, saved, Some(UpdateFailed(e)));
        case Success(_) =>
      }
      count := count + 1;
    }
    return Walk(progress, rewritten, saved, None);
  }
}

=== FILE: categories.dfy ===
/** The WordPress category download: the request URL builder
    `urlForCategories` and the single request `categories` makes.
 */
module Categories {
  import opened Wrappers
  import opened Strings

  /** The `fields` argument: left out (so the default `[]`), some falsy
      value other than `undefined`, or a list of field names. */
  datatype FieldsArg = Omitted | Falsy | Names(names: seq<string>)

  const DEFAULT_URL: string := ""
  const DEFAULT_PAGE: nat := 1
  const DEFAULT_PER_PAGE: nat := 20

  const PATH: string := "/categories?per_page="
  const PAGE_KEY: string := "&page="
  const FIELDS_KEY: string := "&fields="

  /** The fields part: any array, the empty one included, is truthy, so the
      part is left off only for a falsy argument. */
  function FieldsPart(f: FieldsArg): (r: string)
    ensures f.Falsy? <==> r == ""
  {
    match f
    case Omitted => FIELDS_KEY + Join([], ",")
    case Falsy => ""
    case Names(ns) => FIELDS_KEY + Join(ns, ",")
  }

  /** `urlForCategories`, each argument `None` when left out. */
  function UrlForCategories(url: Option<string>, page: Option<nat>, perPage: Option<nat>, fields: FieldsArg): (r: string)
    ensures var base := if url.Some? then url.value else DEFAULT_URL;
      |base| <= |r| && r[..|base|] == base
  {
    var base := if url.Some? then url.value else DEFAULT_URL;
    var p := if page.Some? then page.value else DEFAULT_PAGE;
    var pp := if perPage.Some? then perPage.value else DEFAULT_PER_PAGE;
    base + PATH + NatToString(pp) + PAGE_KEY + NatToString(p) + FieldsPart(fields)
  }

  /** What a reader of the query recovers: the page size, the page and the
      text of the `fields` parameter, if there is one. */
  datatype Query = Query(perPage: nat, page: nat, fields: Option<string>)

  predicate StartsWith(s: string, p: string)
  {
    |p| <= |s| && s[..|p|] == p
  }

  function IsDigit(ch: char): bool
  {
    '0' <= ch <= '9'
  }

  /** The length of the run of decimal digits `s` starts with. */
  function DigitPrefix(s: string): (n: nat)
    ensures n <= |s| && IsDigits(s[..n])
    ensures n < |s| ==> !IsDigit(s[n])
  {
    if |s| == 0 || !IsDigit(s[0]) then 0
    else
      var n := 1 + DigitPrefix(s[1..]);
      assert s[..n] == [s[0]] + s[1..][..n - 1];
      n
  }

  /** The text after `key`, if `s` starts with it. */
  function ReadKey(s: string, key: string): (r: Option<string>)
    ensures r.Some? <==> StartsWith(s, key)
    ensures r.Some? ==> s == key + r.value
  {
    if StartsWith(s, key) then
      assert s == s[..|key|] + s[|key|..];
      Some(s[|key|..])
    else None
  }

  /** The value of the digit run `s` starts with, and the text after it. */
  function ReadNumber(s: string): Option<(nat, string)>
  {
    var n := DigitPrefix(s);
    if n == 0 then None else Some((DigitsValue(s[..n]), s[n..]))
  }

  /** The end of the query, or the text of the `fields` parameter. */
  function ReadFields(s: string): Option<Option<string>>
  {
    if s == "" then Some(None)
    else
      match ReadKey(s, FIELDS_KEY)
      case None => None
      case Some(t) => Some(Some(t))
  }

  /** Reads the query part `urlForCategories` appends after the base URL. */
  function ParseQuery(q: string): Option<Query>
  {
    var a :- ReadKey(q, PATH);
    var perPage :- ReadNumber(a);
    var b :- ReadKey(perPage.1, PAGE_KEY);
    var page :- ReadNumber(b);
    var fields :- ReadFields(page.1);
    Some(Query(perPage.0, page.0, fields))
  }

  lemma ReadKeyOf(key: string, rest: string)
    ensures ReadKey(key + rest, key) == Some(rest)
  {
    assert (key + rest)[..|key|] == key;
    assert (key + rest)[|key|..] == rest;
  }

  /** A digit run followed by a non-digit, or by nothing, is read whole. */
  lemma {:induction false} DigitPrefixOfDigits(d: string, rest: string)
    requires IsDigits(d)
    requires |rest| > 0 ==> !IsDigit(rest[0])
    ensures DigitPrefix(d + rest) == |d|
    decreases |d|
  {
    if |d| > 0 {
      assert (d + rest)[1..] == d[1..] + rest;
      DigitPrefixOfDigits(d[1..], rest);
    } else {
      assert d + rest == rest;
    }
  }

  lemma ReadNumberOf(d: string, rest: string)
    requires |d| > 0 && IsDigits(d)
    requires |rest| > 0 ==> !IsDigit(rest[0])
    ensures ReadNumber(d + rest) == Some((DigitsValue(d), rest))
  {
    DigitPrefixOfDigits(d, rest);
    assert (d + rest)[..|d|] == d;
    assert (d + rest)[|d|..] == rest;
  }

  /** The text of the `fields` parameter a built URL carries. */
  function FieldsText(f: FieldsArg): Option<string>
  {
    match f
    case Omitted => Some("")
    case Falsy => None
    case Names(ns) => Some(Join(ns, ","))
  }

  /** The fields part is the key followed by the fields text, or nothing. */
  lemma FieldsPartText(f: FieldsArg)
    ensures FieldsText(f).None? ==> FieldsPart(f) == ""
    ensures FieldsText(f).Some? ==> FieldsPart(f) == FIELDS_KEY + FieldsText(f).value
  {
    if f.Omitted? {
      assert Join([], ",") == "";
    }
  }

  /** Reading a query assembled from two decimal numbers and a fields part. */
  lemma ParseQueryOf(sp: string, sq: string, fields: Option<string>)
    requires |sp| > 0 && IsDigits(sp) && |sq| > 0 && IsDigits(sq)
    ensures var fp := if fields.Some? then FIELDS_KEY + fields.value else "";
      ParseQuery(PATH + (sp + (PAGE_KEY + (sq + fp)))) == Some(Query(DigitsValue(sp), DigitsValue(sq), fields))
  {
    var fp := if fields.Some? then FIELDS_KEY + fields.value else "";
    ReadKeyOf(PATH, sp + (PAGE_KEY + (sq + fp)));
    ReadNumberOf(sp, PAGE_KEY + (sq + fp));
    ReadKeyOf(PAGE_KEY, sq + fp);
    ReadNumberOf(sq, fp);
    if fields.Some? {
      ReadKeyOf(FIELDS_KEY, fields.value);
    }
  }

  lemma DropBase(base: string, a: string, b: string, c: string, d: string, e: string)
    ensures (base + a + b + c + d + e)[|base|..] == a + (b + (c + (d + e)))
  {
  }

  /** Round trip: the query part of a built URL reads back as the page size
      and page given (or their defaults) and the joined field names. */
  lemma UrlForCategoriesRoundTrip(url: Option<string>, page: Option<nat>, perPage: Option<nat>, fields: FieldsArg)
    ensures var base := if url.Some? then url.value else DEFAULT_URL;
      var p := if page.Some? then page.value else DEFAULT_PAGE;
      var pp := if perPage.Some? then perPage.value else DEFAULT_PER_PAGE;
      ParseQuery(UrlForCategories(url, page, perPage, fields)[|base|..]) == Some(Query(pp, p, FieldsText(fields)))
  {
    var base := if url.Some? then url.value else DEFAULT_URL;
    var p := if page.Some? then page.value else DEFAULT_PAGE;
    var pp := if perPage.Some? then perPage.value else DEFAULT_PER_PAGE;
    var sp, sq, fp := NatToString(pp), NatToString(p), FieldsPart(fields);
    var r := UrlForCategories(url, page, perPage, fields);
    assert r == base + PATH + sp + PAGE_KEY + sq + fp;
    DropBase(base, PATH, sp, PAGE_KEY, sq, fp);
    FieldsPartText(fields);
    ParseQueryOf(sp, sq, FieldsText(fields));
    NatToStringRoundTrip(pp);
    NatToStringRoundTrip(p);
  }

  /** The fields `categories` asks for. */
  const CATEGORY_FIELDS: seq<string> := ["id", "name", "slug", "parent", "count"]

  /** The one request `categories` makes: page 1, 100 per page, the five
      fields. */
  function RequestUrl(url: string): string
  {
    UrlForCategories(Some(url), Some(1), Some(100), Names(CATEGORY_FIELDS))
  }

  /** The request asks for 100 categories per page, page 1, and the fields
      `id,name,slug,parent,count`. */
  lemma RequestParameters(url: string)
    ensures ParseQuery(RequestUrl(url)[|url|..]) == Some(Query(100, 1, Some("id,name,slug,parent,count")))
  {
    UrlForCategoriesRoundTrip(Some(url), Some(1), Some(100), Names(CATEGORY_FIELDS));
    CategoryFieldsJoined();
  }

  lemma CategoryFieldsJoined()
    ensures Join(CATEGORY_FIELDS, ",") == "id,name,slug,parent,count"
  {
    var fs := CATEGORY_FIELDS;
    assert fs[..2][..1] == fs[..1] && Join(fs[..1], ",") == "id";
    assert Join(fs[..2], ",") == "id,name";
    assert fs[..3][..2] == fs[..2];
    assert Join(fs[..3], ",") == "id,name,slug";
    assert fs[..4][..3] == fs[..3];
    assert Join(fs[..4], ",") == "id,name,slug,parent";
    assert fs[..|fs| - 1] == fs[..4];
  }

  /** A response: the HTTP status and the parsed body. */
  datatype Response<J> = Response(status: int, body: J)

  /** What `categories` does with the response: write the body to the
      output file, report it as an error, or report the error the fetch
      threw. */
  datatype Outcome<J> = Written(json: J) | Reported(json: J) | Threw(error: string)

  /** `categories`, with `fetch` standing for the request. */
  function Download<J>(url: string, fetch: string -> Result<Response<J>, string>): (r: Outcome<J>)
    ensures r.Written? <==> fetch(RequestUrl(url)).Success? && fetch(RequestUrl(url)).value.status == 200
    ensures r.Threw? <==> fetch(RequestUrl(url)).Failure?
    ensures r.Written? || r.Reported? ==> r.json == fetch(RequestUrl(url)).value.body
    ensures r.Threw? ==> r.error == fetch(RequestUrl(url)).error
  {
    match fetch(RequestUrl(url))
    case Failure(e) => Threw(e)
    case Success(resp) => if resp.status == 200 then Written(resp.body) else Reported(resp.body)
  }
}

=== FILE: drain.dfy ===
/** The loops the matcher stages share: the saved page files are popped one by
    one (last file first) and their records pushed in page order onto one
    list, which is then popped record by record (last record first), each
    record handled in turn; the first handler that rejects ends the stage.
 */
module Drain {
  import opened Wrappers
  import opened Seqs

  /** The records of all pages, pushed in the order the files are popped. */
  function Gather<T>(files: seq<seq<T>>): seq<T>
  {
    if |files| == 0 then []
    else files[|files| - 1] + Gather(files[..|files| - 1])
  }

  lemma {:induction false} FlattenCons<T>(page: seq<T>, rest: seq<seq<T>>)
    ensures Flatten([page] + rest) == page + Flatten(rest)
    decreases |rest|
  {
    if |rest| > 0 {
      var all := [page] + rest;
      assert all[..|all| - 1] == [page] + rest[..|rest| - 1];
      FlattenCons(page, rest[..|rest| - 1]);
    } else {
      assert [page] + rest == [page];
      assert [page][..0] == [];
    }
  }

  /** The gathered list is the concatenation of the pages taken last file
      first: every record of every page, nothing else, in that order. */
  lemma {:induction false} GatherIsFlattenOfReverse<T>(files: seq<seq<T>>)
    ensures Gather(files) == Flatten(Reverse(files))
    decreases |files|
  {
    if |files| > 0 {
      GatherIsFlattenOfReverse(files[..|files| - 1]);
      assert Reverse(files) == [files[|files| - 1]] + Reverse(files[..|files| - 1]);
      FlattenCons(files[|files| - 1], Reverse(files[..|files| - 1]));
    }
  }

  /** The record popped `k`-th (last record first). */
  function Popped<T>(items: seq<T>, k: nat): T
    requires k < |items|
  {
    items[|items| - 1 - k]
  }

  /** Pop every record and handle it, collecting the results in pop order;
      the first rejection ends the loop with that error. */
  function MapPopped<T, R, E>(items: seq<T>, f: T -> Result<R, E>): Result<seq<R>, E>
    decreases |items|
  {
    if |items| == 0 then Success([])
    else
      match f(items[|items| - 1])
      case Failure(e) => Failure(e)
      case Success(x) =>
        match MapPopped(items[..|items| - 1], f)
        case Failure(e) => Failure(e)
        case Success(xs) => Success([x] + xs)
  }

  /** The loop succeeds exactly when every handler resolves, with one result
      per record in pop order; otherwise it fails with the error of the first
      record, in pop order, whose handler rejects. */
  lemma {:induction false} MapPoppedSpec<T, R, E>(items: seq<T>, f: T -> Result<R, E>)
    ensures var r := MapPopped(items, f);
      && (r.Success? <==> forall k :: 0 <= k < |items| ==> f(items[k]).Success?)
      && (r.Success? ==> |r.value| == |items| && forall k :: 0 <= k < |items| ==> r.value[k] == f(Popped(items, k)).value)
      && (r.Failure? ==> exists j :: 0 <= j < |items| && f(Popped(items, j)) == Failure(r.error)
                           && forall k :: 0 <= k < j ==> f(Popped(items, k)).Success?)
    decreases |items|
  {
    if |items| > 0 {
      var init := items[..|items| - 1];
      MapPoppedSpec(init, f);
      assert forall k :: 0 <= k < |init| ==> init[k] == items[k];
      assert forall k :: 0 <= k < |init| ==> Popped(init, k) == Popped(items, k + 1);
      var r := MapPopped(items, f);
      if f(items[|items| - 1]).Success? {
        var rest := MapPopped(init, f);
        if rest.Failure? {
          var j :| 0 <= j < |init| && f(Popped(init, j)) == Failure(rest.error)
                   && forall k :: 0 <= k < j ==> f(Popped(init, k)).Success?;
          assert f(Popped(items, j + 1)) == Failure(r.error);
          forall k | 0 <= k < j + 1 ensures f(Popped(items, k)).Success? {
            if k > 0 {
              assert Popped(items, k) == Popped(init, k - 1);
            }
          }
        } else {
          forall k | 0 <= k < |items| ensures f(items[k]).Success? {
            if k < |init| {
              assert items[k] == init[k];
            }
          }
        }
      } else {
        assert f(Popped(items, 0)) == Failure(r.error);
      }
    }
  }

  /** The outcome of `Array.prototype.find` with a callback that may throw. */
  datatype Search = Found(index: nat) | NotFound | Threw

  /** `find`: the callback (`None` when it throws) runs on each element in
      order until it accepts one; a throw ends the search. */
  function Find<T>(s: seq<T>, test: T -> Option<bool>): (r: Search)
    ensures r.Found? ==> r.index < |s| && test(s[r.index]) == Some(true)
    ensures r.Found? ==> forall j :: 0 <= j < r.index ==> test(s[j]) == Some(false)
    ensures r.NotFound? <==> forall j :: 0 <= j < |s| ==> test(s[j]) == Some(false)
    ensures r.Threw? ==> exists j :: 0 <= j < |s| && test(s[j]).None? && forall k :: 0 <= k < j ==> test(s[k]) == Some(false)
  {
    if |s| == 0 then NotFound
    else if test(s[0]).None? then Threw
    else if test(s[0]).value then Found(0)
    else match Find(s[1..], test)
      case Found(i) => Found(i + 1)
      case NotFound => NotFound
      case Threw =>
        assert forall j :: 1 <= j < |s| ==> s[j] == s[1..][j - 1];
        Threw
  }

  /** An element the callback accepts, added after elements it rejects
      without throwing, is the one found. */
  lemma FindAppend<T>(s: seq<T>, x: T, test: T -> Option<bool>)
    requires Find(s, test).NotFound?
    requires test(x) == Some(true)
    ensures Find(s + [x], test) == Found(|s|)
  {
    assert (s + [x])[|s|] == x;
    assert forall j :: 0 <= j < |s| ==> (s + [x])[j] == s[j];
  }
}

=== FILE: jsmap.dfy ===
/** A JavaScript `Map`: key/value pairs kept in first-insertion order.
    `set` on a key that is already present replaces its value in place;
    `forEach` visits the entries in this order.
 */
module JsMap {
  import opened Wrappers

  datatype JsMap<K, V> = JsMap(entries: seq<(K, V)>)

  function Empty<K, V>(): JsMap<K, V>
  {
    JsMap([])
  }

  /** Keys of a map are pairwise distinct. */
  ghost predicate Valid<K, V>(m: JsMap<K, V>)
  {
    forall i, j :: 0 <= i < j < |m.entries| ==> m.entries[i].0 != m.entries[j].0
  }

  /** Position of the entry for `k`, if any. */
  function Find<K(==), V>(es: seq<(K, V)>, k: K): (r: Option<nat>)
    ensures r.Some? ==> r.value < |es| && es[r.value].0 == k
    ensures r.Some? ==> forall j :: 0 <= j < r.value ==> es[j].0 != k
    ensures r.None? ==> forall i :: 0 <= i < |es| ==> es[i].0 != k
  {
    if |es| == 0 then None
    else if es[0].0 == k then Some(0)
    else
      match Find(es[1..], k)
      case None => None
      case Some(i) => Some(i + 1)
  }

  /** `m.has(k)`. */
  predicate Has<K(==), V>(m: JsMap<K, V>, k: K)
  {
    Find(m.entries, k).Some?
  }

  /** `m.get(k)`, with `None` for `undefined`. */
  function Get<K(==), V>(m: JsMap<K, V>, k: K): Option<V>
  {
    match Find(m.entries, k)
    case None => None
    case Some(i) => Some(m.entries[i].1)
  }

  function Keys<K, V>(m: JsMap<K, V>): seq<K>
  {
    seq(|m.entries|, i requires 0 <= i < |m.entries| => m.entries[i].0)
  }

  /** `m.set(k, v)`: afterwards `k` maps to `v`, every other key keeps its value,
      and the key order is kept, with a new key placed last. */
  function Set<K(==,!new), V>(m: JsMap<K, V>, k: K, v: V): (r: JsMap<K, V>)
    ensures Valid(m) ==> Valid(r)
    ensures Get(r, k) == Some(v)
    ensures forall k' :: k' != k ==> Get(r, k') == Get(m, k')
    ensures Has(m, k) ==> Keys(r) == Keys(m)
    ensures !Has(m, k) ==> Keys(r) == Keys(m) + [k]
  {
    match Find(m.entries, k)
    case Some(i) =>
      var r := JsMap(m.entries[i := (k, v)]);
      assert forall k' :: k' != k ==> Find(r.entries, k') == Find(m.entries, k') by {
        forall k' | k' != k ensures Find(r.entries, k') == Find(m.entries, k') {
          FindIgnoresOtherKeys(m.entries, i, k, v, k');
        }
      }
      FindFirst(r.entries, i, k);
      r
    case None =>
      var r := JsMap(m.entries + [(k, v)]);
      assert forall k' :: k' != k ==> Find(r.entries, k') == Find(m.entries, k') by {
        forall k' | k' != k ensures Find(r.entries, k') == Find(m.entries, k') {
          FindAppendOther(m.entries, (k, v), k');
        }
      }
      FindFirst(r.entries, |m.entries|, k);
      r
  }

  lemma {:induction false} FindFirst<K, V>(es: seq<(K, V)>, i: nat, k: K)
    requires i < |es| && es[i].0 == k
    requires forall j :: 0 <= j < i ==> es[j].0 != k
    ensures Find(es, k) == Some(i)
  {
    if i > 0 {
      FindFirst(es[1..], i - 1, k);
    }
  }

  lemma {:induction false} FindIgnoresOtherKeys<K, V>(es: seq<(K, V)>, i: nat, k: K, v: V, k': K)
    requires i < |es| && es[i].0 == k && k' != k
    ensures Find(es[i := (k, v)], k') == Find(es, k')
  {
    if i > 0 {
      assert es[i := (k, v)][1..] == es[1..][i - 1 := (k, v)];
      FindIgnoresOtherKeys(es[1..], i - 1, k, v, k');
    }
  }

  lemma {:induction false} FindAppendOther<K, V>(es: seq<(K, V)>, e: (K, V), k': K)
    requires e.0 != k'
    ensures Find(es + [e], k') == Find(es, k')
  {
    if |es| > 0 {
      assert (es + [e])[1..] == es[1..] + [e];
      FindAppendOther(es[1..], e, k');
    }
  }

  /** A map built by `set`-ting the pairs in order. */
  function FromPairs<K(==,!new), V>(ps: seq<(K, V)>): (m: JsMap<K, V>)
    ensures Valid(m)
  {
    if |ps| == 0 then Empty()
    else Set(FromPairs(ps[..|ps| - 1]), ps[|ps| - 1].0, ps[|ps| - 1].1)
  }

  /** Position of the last pair whose key is `k`. */
  function LastIndexOfKey<K(==), V>(ps: seq<(K, V)>, k: K): (r: Option<nat>)
    ensures r.Some? ==> r.value < |ps| && ps[r.value].0 == k
    ensures r.Some? ==> forall j :: r.value < j < |ps| ==> ps[j].0 != k
    ensures r.None? ==> forall j :: 0 <= j < |ps| ==> ps[j].0 != k
  {
    if |ps| == 0 then None
    else if ps[|ps| - 1].0 == k then Some(|ps| - 1)
    else LastIndexOfKey(ps[..|ps| - 1], k)
  }

  /** Later duplicates overwrite earlier ones: a key maps to the value of the
      last pair that carries it, and is absent when no pair carries it. */
  lemma {:induction false} FromPairsLastWins<K(!new), V>(ps: seq<(K, V)>, k: K)
    ensures LastIndexOfKey(ps, k).None? ==> Get(FromPairs(ps), k) == None
    ensures LastIndexOfKey(ps, k).Some? ==>
      Get(FromPairs(ps), k) == Some(ps[LastIndexOfKey(ps, k).value].1)
  {
    if |ps| > 0 && ps[|ps| - 1].0 != k {
      var init := ps[..|ps| - 1];
      FromPairsLastWins(init, k);
      if LastIndexOfKey(init, k).Some? {
        assert ps[LastIndexOfKey(init, k).value] == init[LastIndexOfKey(init, k).value];
      }
    }
  }
}

=== FILE: paging.dfy ===
/** The existing-record indexes `getExistingImages` and `getExistingAssets`:
    the store is read in pages of at most 1000 records and every record is
    `set` into a map under its key (image file name, asset title).

    The store is a sequence listed in a fixed order and a page request
    `{skip, limit: 1000}` is a slice of it; `total` is the store's length.
 */
module Paging {
  import opened Wrappers
  import opened Seqs
  import JsMap

  const LIMIT: nat := 1000

  datatype Page<E> = Page(items: seq<E>, total: nat)

  /** One page request against the store. */
  function Fetch<E>(store: seq<E>, skip: nat): (p: Page<E>)
    ensures p.total == |store|
    ensures |p.items| <= LIMIT
    ensures skip <= |store| ==> skip + |p.items| <= |store| && p.items == store[skip..skip + |p.items|]
    ensures skip < |store| ==> |p.items| == Min(LIMIT, |store| - skip) > 0
    ensures skip >= |store| ==> p.items == []
  {
    if skip >= |store| then Page([], |store|)
    else Page(store[skip..Min(skip + LIMIT, |store|)], |store|)
  }

  /** The `skip` the loop holds after one page as written: the `forEach`
      callback sets it to the page-local index of the last item plus one, so
      it becomes the page's length (and stays put on an empty page). */
  function AsWrittenNextSkip<E>(store: seq<E>, skip: nat): nat
  {
    var p := Fetch(store, skip);
    if |p.items| == 0 then skip else |p.items|
  }

  /** `skip` after `k` iterations of the loop as written. The first iteration
      always runs (`total` starts at `Infinity`); the loop goes on while
      `skip < total`, with `total` the store's length. */
  function AsWrittenSkipAfter<E>(store: seq<E>, k: nat): nat
  {
    if k == 0 then 0 else AsWrittenNextSkip(store, AsWrittenSkipAfter(store, k - 1))
  }

  /** As written, a store with more than 1000 records is never exhausted:
      after any number of pages `skip` is at most 1000, so `skip < total`
      still holds and the loop requests yet another page. */
  lemma {:induction false} AsWrittenNeverEnds<E>(store: seq<E>, k: nat)
    requires |store| > LIMIT
    ensures AsWrittenSkipAfter(store, k) <= LIMIT < |store|
  {
    if k > 0 {
      AsWrittenNeverEnds(store, k - 1);
    }
  }

  /** As written, a store of at most 1000 records is read in one page, which
      holds every record, and the loop then stops. */
  lemma AsWrittenSmallStoreOnePage<E>(store: seq<E>)
    requires |store| <= LIMIT
    ensures Fetch(store, 0).items == store
    ensures AsWrittenSkipAfter(store, 1) == |store|
  {
  }

  /** The key of every record paired with the record, in store order, or
      `None` when some record has no key (reading it throws). What the pairs
      are is stated by KeyedPairsSpec. */
  function KeyedPairs<E, K>(items: seq<E>, key: E -> Option<K>): (r: Option<seq<(K, E)>>)
    ensures r.Some? ==> |r.value| == |items|
  {
    if |items| == 0 then Some([])
    else
      match KeyedPairs(items[..|items| - 1], key)
      case None => None
      case Some(ps) =>
        match key(items[|items| - 1])
        case None => None
        case Some(k) => Some(ps + [(k, items[|items| - 1])])
  }

  /** The pairs exist exactly when every record has a key, and then the
      `i`-th pair is the `i`-th record under its key. */
  lemma {:induction false} KeyedPairsSpec<E, K>(items: seq<E>, key: E -> Option<K>)
    ensures KeyedPairs(items, key).Some? <==> forall i :: 0 <= i < |items| ==> key(items[i]).Some?
    ensures KeyedPairs(items, key).Some? ==>
      forall i :: 0 <= i < |items| ==> KeyedPairs(items, key).value[i] == (key(items[i]).value, items[i])
  {
    if |items| > 0 {
      var init := items[..|items| - 1];
      KeyedPairsSpec(init, key);
      assert forall i :: 0 <= i < |init| ==> init[i] == items[i];
    }
  }

  /** Appending a record with a key appends its pair. */
  lemma KeyedPairsSnoc<E, K>(items: seq<E>, x: E, key: E -> Option<K>)
    requires KeyedPairs(items, key).Some? && key(x).Some?
    ensures KeyedPairs(items + [x], key) == Some(KeyedPairs(items, key).value + [(key(x).value, x)])
  {
    assert (items + [x])[..|items|] == items;
  }

  /** Reading one more record with a key appends its pair to those of the
      records before it. */
  lemma PairsStep<E, K>(store: seq<E>, m: nat, key: E -> Option<K>)
    requires m < |store| && KeyedPairs(store[..m], key).Some?
    ensures key(store[m]).Some? ==>
      KeyedPairs(store[..m + 1], key) == Some(KeyedPairs(store[..m], key).value + [(key(store[m]).value, store[m])])
  {
    if key(store[m]).None? { return; }
    assert store[..m + 1] == store[..m] + [store[m]];
    KeyedPairsSnoc(store[..m], store[m], key);
  }

  /** One page of the corrected loop: the records `store[skip..skip + n]` are
      read in turn and each is paired with its key after the pairs of
      `store[..skip]`, or the page fails at the first record that has no
      key. */
  method ReadPage<E, K>(store: seq<E>, skip: nat, n: nat, pairs: seq<(K, E)>, key: E -> Option<K>)
    returns (r: Option<seq<(K, E)>>)
    requires skip + n <= |store|
    requires KeyedPairs(store[..skip], key) == Some(pairs)
    ensures r.Some? <==> KeyedPairs(store[..skip + n], key).Some?
    ensures r.Some? ==> KeyedPairs(store[..skip + n], key) == r
  {
    var acc := pairs;
    var j := 0;
    while j < n
      invariant j <= n
      invariant KeyedPairs(store[..skip + j], key) == Some(acc)
    {
      var item := store[skip + j];
      var k := key(item);
      if k.None? {
        KeyedPairsMissing(store[..skip + n], skip + j, key);
        return None;
      }
      PairsStep(store, skip + j, key);
      acc := acc + [(k.value, item)];
      j := j + 1;
    }
    return Some(acc);
  }

  /** The corrected index: `skip` advances by the number of records read, so
      every record is read exactly once and the loop ends. Every record read
      is `set` under its key in store order (a later record with the same key
      replaces an earlier one), so the index is `JsMap.FromPairs` of the
      keyed pairs; the build fails exactly when some record has no key. */
  method BuildIndex<E, K(==,!new)>(store: seq<E>, key: E -> Option<K>) returns (r: Result<JsMap.JsMap<K, E>, string>)
    ensures r.Success? <==> KeyedPairs(store, key).Some?
    ensures r.Success? ==> r.value == JsMap.FromPairs(KeyedPairs(store, key).value)
  {
    var pairs: seq<(K, E)> := [];
    var skip: nat := 0;
    var total: Option<nat> := None;
    while total.None? || skip < total.value
      invariant skip <= |store|
      invariant total.Some? ==> total.value == |store|
      invariant KeyedPairs(store[..skip], key) == Some(pairs)
      decreases |store| - skip + (if total.None? then 1 else 0)
    {
      var page := Fetch(store, skip);
      var next := ReadPage(store, skip, |page.items|, pairs, key);
      if next.None? {
        KeyedPairsPrefix(store, skip + |page.items|, key);
        return Failure("Error in getting existing records");
      }
      pairs := next.value;
      skip := skip + |page.items|;
      total := Some(page.total);
    }
    assert store[..skip] == store;
    return Success(JsMap.FromPairs(pairs));
  }

  /** One record without a key leaves the whole sequence without keyed pairs. */
  lemma KeyedPairsMissing<E, K>(items: seq<E>, i: nat, key: E -> Option<K>)
    requires i < |items| && key(items[i]).None?
    ensures KeyedPairs(items, key).None?
  {
    KeyedPairsSpec(items, key);
  }

  /** A store whose prefix has a record without a key has no keyed pairs. */
  lemma KeyedPairsPrefix<E, K>(store: seq<E>, n: nat, key: E -> Option<K>)
    requires n <= |store|
    ensures KeyedPairs(store[..n], key).None? ==> KeyedPairs(store, key).None?
  {
    if KeyedPairs(store[..n], key).None? {
      KeyedPairsSpec(store[..n], key);
      KeyedPairsSpec(store, key);
      var i :| 0 <= i < n && key(store[..n][i]).None?;
      assert store[i] == store[..n][i];
    }
  }

  /** What a lookup in the corrected index returns: the last record of the
      store carrying that key, or nothing when no record carries it. */
  lemma IndexLookup<E, K(!new)>(store: seq<E>, key: E -> Option<K>, k: K)
    requires KeyedPairs(store, key).Some?
    ensures var ps := KeyedPairs(store, key).value;
      && (JsMap.LastIndexOfKey(ps, k).None? ==>
            JsMap.Get(JsMap.FromPairs(ps), k) == None
            && forall i :: 0 <= i < |store| ==> key(store[i]) != Some(k))
      && (JsMap.LastIndexOfKey(ps, k).Some? ==>
            var i := JsMap.LastIndexOfKey(ps, k).value;
            && JsMap.Get(JsMap.FromPairs(ps), k) == Some(store[i])
            && key(store[i]) == Some(k)
            && forall j :: i < j < |store| ==> key(store[j]) != Some(k))
  {
    var ps := KeyedPairs(store, key).value;
    KeyedPairsSpec(store, key);
    JsMap.FromPairsLastWins(ps, k);
    if JsMap.LastIndexOfKey(ps, k).None? {
      forall i | 0 <= i < |store| ensures key(store[i]) != Some(k) {
        assert ps[i].0 != k;
      }
    } else {
      var i := JsMap.LastIndexOfKey(ps, k).value;
      forall j | i < j < |store| ensures key(store[j]) != Some(k) {
        assert ps[j].0 != k;
      }
    }
  }
}

=== FILE: pool.dfy ===
/** The bounded worker pool that `createBlogPosts` and `uploadAssets` each
    implement with a queue, a `Set` of identifiers in progress and three result
    arrays.

    The bookkeeping runs in promise callbacks on JavaScript's single event-loop
    thread, so each settlement (`finally`) callback is atomic; the pool is
    therefore a sequential transition system. `Start` is the initial `while`
    loop that claims up to `PROCESSES` items, `Settle` is one settlement
    callback. Which in-flight item settles next is a parameter (the index `i`),
    and a timeout is just another outcome chosen by the caller.

    `inFlight` lists the items whose promise chains have not settled yet, in
    start order; it is not a variable of the source but the set of pending
    promises. `processing` is the source's `Set` of identifiers. `unrecorded`
    counts settlements whose handler pushed nothing (it is not a variable of
    the source either; it lets conservation be stated exactly).
 */
module Pool {
  import opened Seqs

  /** The `PROCESSES` constant of both pools. */
  const PROCESSES: nat := 8

  /** Where a settlement handler puts a settled item. `Unrecorded` stands for a
      handler that throws before pushing anything. */
  datatype Verdict<D, F> = ToDone(d: D) | ToSkipped(d: D) | ToFailed(f: F) | Unrecorded

  datatype State<T, K, D, F> = State(
    queue: seq<T>,
    inFlight: seq<T>,
    processing: set<K>,
    done: seq<D>,
    skipped: seq<D>,
    failed: seq<F>,
    unrecorded: nat,
    completed: bool)

  /** Number of items whose settlement has run. */
  function SettledCount<T, K, D, F>(s: State<T, K, D, F>): nat
  {
    |s.done| + |s.skipped| + |s.failed| + s.unrecorded
  }

  ghost function KeySet<T, K>(xs: seq<T>, key: T -> K): set<K>
  {
    set i | 0 <= i < |xs| :: key(xs[i])
  }

  ghost predicate KeysDistinct<T, K>(xs: seq<T>, key: T -> K)
  {
    forall i, j :: 0 <= i < j < |xs| ==> key(xs[i]) != key(xs[j])
  }

  function Initial<T, K, D, F>(items: seq<T>): State<T, K, D, F>
  {
    State(items, [], {}, [], [], [], 0, false)
  }

  /** `queue.pop()` followed by the synchronous part of starting the item:
      `processing.add(identifier)`. */
  function Claim<T, K, D, F>(s: State<T, K, D, F>, key: T -> K): (r: State<T, K, D, F>)
    requires |s.queue| > 0
  {
    var x := s.queue[|s.queue| - 1];
    s.(queue := s.queue[..|s.queue| - 1], inFlight := s.inFlight + [x], processing := s.processing + {key(x)})
  }

  /** After the initial loop has claimed `k` items from `s`, the state is `r`:
      the last `k` queued items are in flight, last first, with their
      identifiers in `processing`, and nothing else has changed. */
  ghost predicate Claimed<T, K, D, F>(s: State<T, K, D, F>, r: State<T, K, D, F>, k: nat, key: T -> K)
  {
    && k <= |s.queue|
    && r.queue == s.queue[..|s.queue| - k]
    && r.inFlight == s.inFlight + Reverse(s.queue[|s.queue| - k..])
    && r.processing == s.processing + KeySet(s.queue[|s.queue| - k..], key)
    && r.done == s.done && r.skipped == s.skipped && r.failed == s.failed
    && r.unrecorded == s.unrecorded && r.completed == s.completed
  }

  lemma ClaimStep<T, K, D, F>(s: State<T, K, D, F>, r: State<T, K, D, F>, k: nat, key: T -> K)
    requires |s.queue| > 0 && k >= 1
    requires Claimed(Claim(s, key), r, k - 1, key)
    ensures Claimed(s, r, k, key)
  {
    ClaimStepFlight(s, r, k, key);
    ClaimStepKeys(s, r, k, key);
    ClaimedTail(s.queue, k);
  }

  lemma ClaimStepFlight<T, K, D, F>(s: State<T, K, D, F>, r: State<T, K, D, F>, k: nat, key: T -> K)
    requires |s.queue| > 0 && 1 <= k <= |s.queue|
    requires r.inFlight == Claim(s, key).inFlight + Reverse(Claim(s, key).queue[|Claim(s, key).queue| - (k - 1)..])
    ensures r.inFlight == s.inFlight + Reverse(s.queue[|s.queue| - k..])
  {
    var q := s.queue;
    ClaimedTail(q, k);
    TailStep(q[|q| - k..|q| - 1], q[|q| - 1]);
  }

  lemma ClaimStepKeys<T, K, D, F>(s: State<T, K, D, F>, r: State<T, K, D, F>, k: nat, key: T -> K)
    requires |s.queue| > 0 && 1 <= k <= |s.queue|
    requires r.processing == Claim(s, key).processing + KeySet(Claim(s, key).queue[|Claim(s, key).queue| - (k - 1)..], key)
    ensures r.processing == s.processing + KeySet(s.queue[|s.queue| - k..], key)
  {
    var q := s.queue;
    ClaimedTail(q, k);
    KeySetAppend(q[|q| - k..|q| - 1], q[|q| - 1], key);
  }

  /** The claimed tail: the last `k - 1` items before the last, then the last. */
  lemma ClaimedTail<T>(q: seq<T>, k: nat)
    requires 1 <= k <= |q|
    ensures q[..|q| - 1][|q| - 1 - (k - 1)..] == q[|q| - k..|q| - 1]
    ensures q[..|q| - 1][..|q| - 1 - (k - 1)] == q[..|q| - k]
    ensures q[|q| - k..] == q[|q| - k..|q| - 1] + [q[|q| - 1]]
  {
  }

  lemma TailStep<T>(tail1: seq<T>, last: T)
    ensures Reverse(tail1 + [last]) == [last] + Reverse(tail1)
  {
    var tail := tail1 + [last];
    assert tail[..|tail| - 1] == tail1;
  }

  /** The initial loop `while (queue.length && count < PROCESSES)`, from `count`
      on: it claims `Min(PROCESSES - count, |queue|)` items. */
  function Launch<T, K, D, F>(s: State<T, K, D, F>, count: nat, key: T -> K): (r: State<T, K, D, F>)
    requires count <= PROCESSES
    ensures Claimed(s, r, Min(PROCESSES - count, |s.queue|), key)
    decreases |s.queue|
  {
    if |s.queue| > 0 && count < PROCESSES then
      var r := Launch(Claim(s, key), count + 1, key);
      ClaimStep(s, r, Min(PROCESSES - count, |s.queue|), key);
      r
    else
      assert s.queue[|s.queue|..] == [];
      s
  }

  /** `createBlogPosts` / `uploadAssets` before any callback has run: the last
      `Min(PROCESSES, |items|)` items are in flight, the rest still queued. */
  function Start<T, K, D, F>(items: seq<T>, key: T -> K): (r: State<T, K, D, F>)
    ensures |r.inFlight| == Min(PROCESSES, |items|)
    ensures r.queue + Reverse(r.inFlight) == items
    ensures r.processing == KeySet(r.inFlight, key)
    ensures SettledCount(r) == 0 && !r.completed
  {
    var r := Launch(Initial(items), 0, key);
    LaunchFromInitial(items, r, key);
    r
  }

  lemma LaunchFromInitial<T, K, D, F>(items: seq<T>, r: State<T, K, D, F>, key: T -> K)
    requires Claimed(Initial(items), r, Min(PROCESSES, |items|), key)
    ensures |r.inFlight| == Min(PROCESSES, |items|)
    ensures r.queue + Reverse(r.inFlight) == items
    ensures r.processing == KeySet(r.inFlight, key)
    ensures SettledCount(r) == 0 && !r.completed
  {
    var k := Min(PROCESSES, |items|);
    var tail := items[|items| - k..];
    assert r.inFlight == Reverse(tail);
    ReverseReverse(tail);
    KeySetReverse(tail, key);
    assert items[..|items| - k] + tail == items;
  }

  /** Push the settled item to the list its verdict names. */
  function Record<T, K, D, F>(s: State<T, K, D, F>, v: Verdict<D, F>): State<T, K, D, F>
  {
    match v
    case ToDone(d) => s.(done := s.done + [d])
    case ToSkipped(d) => s.(skipped := s.skipped + [d])
    case ToFailed(f) => s.(failed := s.failed + [f])
    case Unrecorded => s.(unrecorded := s.unrecorded + 1)
  }

  /** One settlement callback for the `i`-th in-flight item: record it,
      `processing.delete(identifier)`, then claim the next queued item, or do
      nothing while `processing` is non-empty, or complete. */
  function Settle<T, K, D, F>(s: State<T, K, D, F>, i: nat, v: Verdict<D, F>, key: T -> K): (r: State<T, K, D, F>)
    requires i < |s.inFlight|
    ensures SettledCount(r) == SettledCount(s) + 1
    ensures |r.queue| + |r.inFlight| + 1 == |s.queue| + |s.inFlight|
    ensures |r.inFlight| <= |s.inFlight|
    ensures |s.queue| > 0 ==> |r.inFlight| == |s.inFlight| && |r.queue| == |s.queue| - 1
    ensures v.ToDone? ==> r.done == s.done + [v.d] && r.skipped == s.skipped && r.failed == s.failed
    ensures v.ToSkipped? ==> r.skipped == s.skipped + [v.d] && r.done == s.done && r.failed == s.failed
    ensures v.ToFailed? ==> r.failed == s.failed + [v.f] && r.done == s.done && r.skipped == s.skipped
    ensures r.completed ==> s.completed || (|r.queue| == 0 && r.processing == {})
    ensures s.completed ==> r.completed
  {
    var x := s.inFlight[i];
    var s1 := Record(s, v).(inFlight := s.inFlight[..i] + s.inFlight[i + 1..], processing := s.processing - {key(x)});
    if |s1.queue| > 0 then Claim(s1, key)
    else if s1.processing != {} then s1
    else s1.(completed := true)
  }

  /** What holds of the pool between callbacks when identifiers are distinct:
      at most `PROCESSES` items in flight, all slots busy while items wait,
      `processing` is exactly the identifiers in flight, every item is in
      exactly one place, and completion has fired exactly when all have settled. */
  ghost predicate Inv<T, K, D, F>(s: State<T, K, D, F>, n: nat, key: T -> K)
  {
    && |s.inFlight| <= PROCESSES
    && (|s.queue| > 0 ==> |s.inFlight| == PROCESSES)
    && KeysDistinct(s.queue, key)
    && KeysDistinct(s.inFlight, key)
    && KeySet(s.queue, key) !! KeySet(s.inFlight, key)
    && s.processing == KeySet(s.inFlight, key)
    && |s.queue| + |s.inFlight| + SettledCount(s) == n
    && (s.completed ==> |s.queue| == 0 && |s.inFlight| == 0)
    && (|s.queue| == 0 && |s.inFlight| == 0 && n > 0 ==> s.completed)
  }

  lemma KeySetAppend<T, K>(xs: seq<T>, y: T, key: T -> K)
    ensures KeySet(xs + [y], key) == KeySet(xs, key) + {key(y)}
  {
    var ys := xs + [y];
    assert forall i :: 0 <= i < |xs| ==> ys[i] == xs[i];
    assert ys[|xs|] == y;
  }

  lemma KeySetEmpty<T, K>(xs: seq<T>, key: T -> K)
    ensures KeySet(xs, key) == {} <==> |xs| == 0
  {
    if |xs| > 0 {
      assert key(xs[0]) in KeySet(xs, key);
    }
  }

  lemma KeySetReverse<T, K>(xs: seq<T>, key: T -> K)
    ensures KeySet(Reverse(xs), key) == KeySet(xs, key)
  {
    var r := Reverse(xs);
    forall k | k in KeySet(xs, key) ensures k in KeySet(r, key) {
      var i :| 0 <= i < |xs| && key(xs[i]) == k;
      assert r[|xs| - 1 - i] == xs[i];
    }
  }

  /** Dropping position `i` of a list with distinct identifiers drops exactly its identifier. */
  lemma KeySetRemoveAt<T, K>(xs: seq<T>, i: nat, key: T -> K)
    requires i < |xs| && KeysDistinct(xs, key)
    ensures var rest := xs[..i] + xs[i + 1..];
      && KeysDistinct(rest, key)
      && KeySet(rest, key) == KeySet(xs, key) - {key(xs[i])}
      && |rest| == |xs| - 1
  {
    var rest := xs[..i] + xs[i + 1..];
    assert forall j :: 0 <= j < |rest| ==> rest[j] == xs[if j < i then j else j + 1];
    forall k | k in KeySet(xs, key) - {key(xs[i])} ensures k in KeySet(rest, key) {
      var j :| 0 <= j < |xs| && key(xs[j]) == k;
      assert j != i;
      assert rest[if j < i then j else j - 1] == xs[j];
    }
  }

  lemma KeySetDropLast<T, K>(xs: seq<T>, key: T -> K)
    requires |xs| > 0 && KeysDistinct(xs, key)
    ensures KeysDistinct(xs[..|xs| - 1], key)
    ensures KeySet(xs[..|xs| - 1], key) == KeySet(xs, key) - {key(xs[|xs| - 1])}
  {
    KeySetRemoveAt(xs, |xs| - 1, key);
    assert xs[..|xs| - 1] + xs[|xs|..] == xs[..|xs| - 1];
  }

  /** Splitting a list with distinct identifiers into a prefix and a reversed
      suffix gives two lists with distinct, disjoint identifiers. */
  lemma DistinctSplit<T, K>(items: seq<T>, a: seq<T>, b: seq<T>, key: T -> K)
    requires KeysDistinct(items, key) && a + Reverse(b) == items
    ensures KeysDistinct(a, key) && KeysDistinct(b, key)
    ensures KeySet(a, key) !! KeySet(b, key)
  {
    assert forall j :: 0 <= j < |a| ==> a[j] == items[j];
    assert forall j :: 0 <= j < |b| ==> b[j] == items[|items| - 1 - j];
    forall x, y | 0 <= x < y < |b| ensures key(b[x]) != key(b[y]) {
      assert key(items[|items| - 1 - y]) != key(items[|items| - 1 - x]);
    }
  }

  /** With distinct identifiers, any state with the shape `Start` guarantees
      satisfies the invariant. */
  lemma StartEstablishesInv<T, K, D, F>(items: seq<T>, r: State<T, K, D, F>, key: T -> K)
    requires KeysDistinct(items, key)
    requires |r.inFlight| == Min(PROCESSES, |items|)
    requires r.queue + Reverse(r.inFlight) == items
    requires r.processing == KeySet(r.inFlight, key)
    requires SettledCount(r) == 0 && !r.completed
    ensures Inv(r, |items|, key)
  {
    DistinctSplit(items, r.queue, r.inFlight, key);
    assert |r.queue| + |r.inFlight| == |items|;
  }

  /** Every settlement preserves the invariant, whatever item settles and
      whatever its verdict. */
  lemma SettlePreservesInv<T, K, D, F>(s: State<T, K, D, F>, n: nat, i: nat, v: Verdict<D, F>, key: T -> K)
    requires Inv(s, n, key) && i < |s.inFlight|
    ensures Inv(Settle(s, i, v, key), n, key)
  {
    var x := s.inFlight[i];
    var rest := s.inFlight[..i] + s.inFlight[i + 1..];
    KeySetRemoveAt(s.inFlight, i, key);
    assert KeySet(s.queue, key) !! KeySet(rest, key);
    var r := Settle(s, i, v, key);
    if |s.queue| > 0 {
      var y := s.queue[|s.queue| - 1];
      KeySetDropLast(s.queue, key);
      KeySetAppend(rest, y, key);
      assert key(y) in KeySet(s.queue, key);
      assert key(y) !in KeySet(rest, key);
      var fl := rest + [y];
      forall a, b | 0 <= a < b < |fl| ensures key(fl[a]) != key(fl[b]) {
        if b == |rest| {
          assert fl[a] == rest[a];
        } else {
          assert fl[a] == rest[a] && fl[b] == rest[b];
        }
      }
      assert r.inFlight == fl;
    } else if s.processing - {key(x)} != {} {
      assert r.inFlight == rest;
    } else {
      assert KeySet(rest, key) == {};
      KeySetEmpty(rest, key);
    }
  }

  /** A settlement choice: which in-flight item settles (taken modulo the number
      in flight, so every schedule is expressible) and with what outcome. */
  datatype Choice<O> = Choice(pick: nat, outcome: O)

  /** The pool driven by a schedule of settlements, with `classify` as the
      settlement handler; it stops early when nothing is in flight. */
  function Run<T, K, D, F, O>(s: State<T, K, D, F>, choices: seq<Choice<O>>, classify: (T, O) -> Verdict<D, F>, key: T -> K): State<T, K, D, F>
    decreases |choices|
  {
    if |choices| == 0 || |s.inFlight| == 0 then s
    else
      var i := choices[0].pick % |s.inFlight|;
      Run(Settle(s, i, classify(s.inFlight[i], choices[0].outcome), key), choices[1..], classify, key)
  }

  /** Any schedule at least as long as the work left drives the pool to
      completion: every item settles, the invariant still holds, and a handler
      that always records leaves no item unaccounted for. */
  lemma {:induction false} RunCompletes<T, K, D, F, O>(s: State<T, K, D, F>, n: nat, choices: seq<Choice<O>>, classify: (T, O) -> Verdict<D, F>, key: T -> K)
    requires Inv(s, n, key) && n > 0
    requires |choices| >= |s.queue| + |s.inFlight|
    ensures var r := Run(s, choices, classify, key);
      && Inv(r, n, key)
      && r.completed
      && SettledCount(r) == n
      && ((forall x, o :: !classify(x, o).Unrecorded?) ==> r.unrecorded == s.unrecorded)
    decreases |choices|
  {
    if |choices| > 0 && |s.inFlight| > 0 {
      var i := choices[0].pick % |s.inFlight|;
      var v := classify(s.inFlight[i], choices[0].outcome);
      SettlePreservesInv(s, n, i, v, key);
      RunCompletes(Settle(s, i, v, key), n, choices[1..], classify, key);
    }
  }

  /** The corrected start: complete at once when there is nothing to claim. */
  function StartOrComplete<T, K, D, F>(items: seq<T>, key: T -> K): (r: State<T, K, D, F>)
    ensures r.completed <==> |items| == 0
    ensures |r.inFlight| == Min(PROCESSES, |items|)
  {
    var s := Start(items, key);
    if |s.inFlight| == 0 then s.(completed := true) else s
  }

  /** With distinct identifiers, the corrected pool completes on every input,
      the empty one included, after any schedule as long as the input, with
      every item accounted for. */
  lemma PoolCompletes<T, K, D, F, O>(items: seq<T>, choices: seq<Choice<O>>, classify: (T, O) -> Verdict<D, F>, key: T -> K)
    requires KeysDistinct(items, key)
    requires |choices| >= |items|
    ensures var r := Run(StartOrComplete<T, K, D, F>(items, key), choices, classify, key);
      && r.completed
      && SettledCount(r) == |items|
      && ((forall x, o :: !classify(x, o).Unrecorded?) ==> r.unrecorded == 0)
  {
    var s0 := Start<T, K, D, F>(items, key);
    StartEstablishesInv(items, s0, key);
    var s := StartOrComplete<T, K, D, F>(items, key);
    if |items| > 0 {
      RunCompletes(s, |items|, choices, classify, key);
    }
  }

  /** As written, an empty input never completes: nothing is claimed, so no
      settlement callback ever runs, whatever the schedule. */
  lemma EmptyInputNeverCompletes<T, K, D, F, O>(choices: seq<Choice<O>>, classify: (T, O) -> Verdict<D, F>, key: T -> K)
    ensures !Run(Start<T, K, D, F>([], key), choices, classify, key).completed
  {
  }

  /** `f` applied to every element, in order. */
  function Images<X, T>(xs: seq<X>, f: X -> T): (r: seq<T>)
    ensures |r| == |xs|
    ensures forall i :: 0 <= i < |xs| ==> r[i] == f(xs[i])
  {
    seq(|xs|, i requires 0 <= i < |xs| => f(xs[i]))
  }

  /** The items behind the records in `done`, `skipped` and `failed`, read
      back through `item` and `failedItem`. */
  function Recorded<T, K, D, F>(s: State<T, K, D, F>, item: D -> T, failedItem: F -> T): multiset<T>
  {
    multiset(Images(s.done, item)) + multiset(Images(s.skipped, item)) + multiset(Images(s.failed, failedItem))
  }

  /** A verdict that records exactly the item `x`. */
  predicate RecordsItem<T(==), D, F>(v: Verdict<D, F>, x: T, item: D -> T, failedItem: F -> T)
  {
    match v
    case ToDone(d) => item(d) == x
    case ToSkipped(d) => item(d) == x
    case ToFailed(f) => failedItem(f) == x
    case Unrecorded => false
  }

  /** Every item is queued, in flight or recorded, each as often as in the input. */
  ghost predicate Conserved<T, K, D, F>(s: State<T, K, D, F>, items: seq<T>, item: D -> T, failedItem: F -> T)
  {
    multiset(s.queue) + multiset(s.inFlight) + Recorded(s, item, failedItem) == multiset(items)
  }

  lemma ImagesAppend<X, T>(xs: seq<X>, y: X, f: X -> T)
    ensures multiset(Images(xs + [y], f)) == multiset(Images(xs, f)) + multiset{f(y)}
  {
    assert Images(xs + [y], f) == Images(xs, f) + [f(y)];
  }

  /** Recording a verdict that names the item adds that item and nothing else. */
  lemma RecordAddsItem<T, K, D, F>(s: State<T, K, D, F>, v: Verdict<D, F>, x: T, item: D -> T, failedItem: F -> T)
    requires RecordsItem(v, x, item, failedItem)
    ensures Recorded(Record(s, v), item, failedItem) == Recorded(s, item, failedItem) + multiset{x}
  {
    match v
    case ToDone(d) => ImagesAppend(s.done, d, item);
    case ToSkipped(d) => ImagesAppend(s.skipped, d, item);
    case ToFailed(f) => ImagesAppend(s.failed, f, failedItem);
  }

  lemma RemoveAtMultiset<T>(xs: seq<T>, i: nat)
    requires i < |xs|
    ensures multiset(xs[..i] + xs[i + 1..]) + multiset{xs[i]} == multiset(xs)
  {
    assert xs == xs[..i] + [xs[i]] + xs[i + 1..];
  }

  /** A claim moves one item from queued to in flight. */
  lemma ClaimConserves<T, K, D, F>(s: State<T, K, D, F>, items: seq<T>, key: T -> K, item: D -> T, failedItem: F -> T)
    requires |s.queue| > 0 && Conserved(s, items, item, failedItem)
    ensures Conserved(Claim(s, key), items, item, failedItem)
  {
    var q := s.queue;
    RemoveAtMultiset(q, |q| - 1);
    assert q[..|q| - 1] + q[|q|..] == q[..|q| - 1];
    assert Recorded(Claim(s, key), item, failedItem) == Recorded(s, item, failedItem);
  }

  /** The first half of a settlement: recording the `i`-th in-flight item and
      dropping it from flight. */
  function Retire<T, K, D, F>(s: State<T, K, D, F>, i: nat, v: Verdict<D, F>, key: T -> K): State<T, K, D, F>
    requires i < |s.inFlight|
  {
    Record(s, v).(inFlight := s.inFlight[..i] + s.inFlight[i + 1..], processing := s.processing - {key(s.inFlight[i])})
  }

  lemma RetireConserves<T, K, D, F>(s: State<T, K, D, F>, items: seq<T>, i: nat, v: Verdict<D, F>, key: T -> K, item: D -> T, failedItem: F -> T)
    requires Conserved(s, items, item, failedItem) && i < |s.inFlight|
    requires RecordsItem(v, s.inFlight[i], item, failedItem)
    ensures Conserved(Retire(s, i, v, key), items, item, failedItem)
  {
    RemoveAtMultiset(s.inFlight, i);
    RecordAddsItem(s, v, s.inFlight[i], item, failedItem);
    assert Recorded(Retire(s, i, v, key), item, failedItem) == Recorded(Record(s, v), item, failedItem);
  }

  /** A settlement whose verdict records the settled item moves that item from
      in flight to recorded, and a claim moves one from queued to in flight. */
  lemma SettleConserves<T, K, D, F>(s: State<T, K, D, F>, items: seq<T>, i: nat, v: Verdict<D, F>, key: T -> K, item: D -> T, failedItem: F -> T)
    requires Conserved(s, items, item, failedItem) && i < |s.inFlight|
    requires RecordsItem(v, s.inFlight[i], item, failedItem)
    ensures Conserved(Settle(s, i, v, key), items, item, failedItem)
  {
    var s1 := Retire(s, i, v, key);
    RetireConserves(s, items, i, v, key, item, failedItem);
    if |s1.queue| > 0 {
      ClaimConserves(s1, items, key, item, failedItem);
      assert Settle(s, i, v, key) == Claim(s1, key);
    } else if s1.processing == {} {
      assert Settle(s, i, v, key) == s1.(completed := true);
      assert Recorded(s1.(completed := true), item, failedItem) == Recorded(s1, item, failedItem);
    } else {
      assert Settle(s, i, v, key) == s1;
    }
  }

  /** A settlement handler whose every verdict records the item it settles. */
  ghost predicate Faithful<T(!new), D, F, O(!new)>(classify: (T, O) -> Verdict<D, F>, item: D -> T, failedItem: F -> T)
  {
    forall x, o :: RecordsItem(classify(x, o), x, item, failedItem)
  }

  lemma {:induction false} RunConserves<T(!new), K, D, F, O(!new)>(s: State<T, K, D, F>, items: seq<T>, choices: seq<Choice<O>>, classify: (T, O) -> Verdict<D, F>, key: T -> K, item: D -> T, failedItem: F -> T)
    requires Conserved(s, items, item, failedItem) && Faithful(classify, item, failedItem)
    ensures Conserved(Run(s, choices, classify, key), items, item, failedItem)
    decreases |choices|
  {
    if |choices| > 0 && |s.inFlight| > 0 {
      var i := choices[0].pick % |s.inFlight|;
      var v := classify(s.inFlight[i], choices[0].outcome);
      SettleConserves(s, items, i, v, key, item, failedItem);
      RunConserves(Settle(s, i, v, key), items, choices[1..], classify, key, item, failedItem);
    }
  }

  /** The started pool holds every item, queued or in flight. */
  lemma StartConserved<T, K, D, F>(items: seq<T>, key: T -> K, item: D -> T, failedItem: F -> T)
    ensures Conserved(StartOrComplete<T, K, D, F>(items, key), items, item, failedItem)
  {
    var s := StartOrComplete<T, K, D, F>(items, key);
    ReverseMultiset(s.inFlight);
    assert multiset(s.queue + Reverse(s.inFlight)) == multiset(items);
    assert s.done == [] && s.skipped == [] && s.failed == [];
  }

  /** A faithful handler never leaves an item unrecorded. */
  lemma FaithfulRecords<T(!new), D, F, O(!new)>(classify: (T, O) -> Verdict<D, F>, item: D -> T, failedItem: F -> T)
    requires Faithful(classify, item, failedItem)
    ensures forall x, o :: !classify(x, o).Unrecorded?
  {
    forall x, o ensures !classify(x, o).Unrecorded? {
      assert RecordsItem(classify(x, o), x, item, failedItem);
    }
  }

  /** With distinct identifiers and a handler that records every item it
      settles, the corrected pool completes, and its three lists hold the
      input items exactly: each item once, none invented. */
  lemma PoolRecordsEveryItem<T(!new), K, D, F, O(!new)>(items: seq<T>, choices: seq<Choice<O>>, classify: (T, O) -> Verdict<D, F>, key: T -> K, item: D -> T, failedItem: F -> T)
    requires KeysDistinct(items, key)
    requires |choices| >= |items|
    requires Faithful(classify, item, failedItem)
    ensures var r := Run(StartOrComplete<T, K, D, F>(items, key), choices, classify, key);
      && r.completed
      && Recorded(r, item, failedItem) == multiset(items)
      && |r.done| + |r.skipped| + |r.failed| == |items|
  {
    var s := StartOrComplete<T, K, D, F>(items, key);
    StartConserved(items, key, item, failedItem);
    RunConserves(s, items, choices, classify, key, item, failedItem);
    FaithfulRecords(classify, item, failedItem);
    PoolCompletes(items, choices, classify, key);
    SettledAllRecorded(Run(s, choices, classify, key), items, item, failedItem);
  }

  /** Once every item has settled and none went unrecorded, nothing is left
      queued or in flight, so the records hold the input exactly. */
  lemma SettledAllRecorded<T, K, D, F>(r: State<T, K, D, F>, items: seq<T>, item: D -> T, failedItem: F -> T)
    requires Conserved(r, items, item, failedItem)
    requires SettledCount(r) == |items| && r.unrecorded == 0
    ensures Recorded(r, item, failedItem) == multiset(items)
    ensures |r.done| + |r.skipped| + |r.failed| == |items|
  {
    var rec := Recorded(r, item, failedItem);
    assert |rec| == |r.done| + |r.skipped| + |r.failed| == |items|;
    assert |multiset(r.queue) + multiset(r.inFlight) + rec| == |multiset(items)| == |items|;
    assert |multiset(r.queue)| + |multiset(r.inFlight)| == 0;
    assert r.queue == [] && r.inFlight == [];
  }

  /** Every item has identifier 0. */
  function ZeroKey(x: int): int
  {
    0
  }

  /** With duplicate identifiers, completion fires while an item is still in
      flight: two items share identifier 0, the first settlement removes 0 from
      `processing`, and the empty queue and empty set trigger `complete`. */
  lemma DuplicateKeysCompleteEarly()
    ensures var r := Settle(Start<int, int, int, int>([1, 2], ZeroKey), 0, ToDone(2), ZeroKey);
      r.completed && |r.inFlight| == 1 && SettledCount(r) == 1
  {
    var s := Start<int, int, int, int>([1, 2], ZeroKey);
    TwoItemStart(s);
  }

  lemma TwoItemStart(s: State<int, int, int, int>)
    requires |s.inFlight| == 2
    requires s.queue + Reverse(s.inFlight) == [1, 2]
    requires s.processing == KeySet(s.inFlight, ZeroKey)
    requires SettledCount(s) == 0 && !s.completed
    ensures var r := Settle(s, 0, ToDone(2), ZeroKey);
      r.completed && |r.inFlight| == 1 && SettledCount(r) == 1
  {
    assert s.queue == [];
    assert ZeroKey(s.inFlight[0]) == 0;
    assert s.processing == {0};
  }
}

=== FILE: post_references.dfy ===
/** `createPostReferences` and `processBlogReferences`: for every transformed
    post, the entries an `articlePage` links to are created one after another
    (rich-text content, publish date, main title, summary, title image) and
    the author's existing entry is looked up; the post file is then rewritten
    with these references.

    Inline image urls in the body are rewritten through the map from
    WordPress link to Contentful url built from the saved asset records, and
    the title image is found through the map from WordPress media number to
    asset entry id.
 */
module PostReferences {
  import opened Wrappers
  import opened Strings
  import JsMap
  import Assets

  /** `links`: WordPress link to Contentful url, one `set` per saved asset in
      order, so a later duplicate link overwrites an earlier one. */
  function InlineMap(assets: seq<Assets.SavedAsset>): (m: JsMap.JsMap<string, string>)
    ensures JsMap.Valid(m)
  {
    if |assets| == 0 then JsMap.Empty()
    else
      var a := assets[|assets| - 1];
      JsMap.Set(InlineMap(assets[..|assets| - 1]), a.wordpress.link, a.contentful.url)
  }

  /** `heros`: media number to asset entry id, set only for a truthy (non-zero)
      media number. */
  function HeroMap(assets: seq<Assets.SavedAsset>): (m: JsMap.JsMap<int, string>)
    ensures JsMap.Valid(m)
  {
    if |assets| == 0 then JsMap.Empty()
    else
      var a := assets[|assets| - 1];
      var m := HeroMap(assets[..|assets| - 1]);
      if a.wordpress.mediaNumber != 0 then JsMap.Set(m, a.wordpress.mediaNumber, a.contentful.id) else m
  }

  /** `i` is the last saved asset whose link is `k`. */
  predicate LastWithLink(assets: seq<Assets.SavedAsset>, k: string, i: int)
  {
    && 0 <= i < |assets|
    && assets[i].wordpress.link == k
    && forall j :: i < j < |assets| ==> assets[j].wordpress.link != k
  }

  /** `i` is the last saved asset whose media number is `k`. */
  predicate LastWithMedia(assets: seq<Assets.SavedAsset>, k: int, i: int)
  {
    && 0 <= i < |assets|
    && assets[i].wordpress.mediaNumber == k
    && forall j :: i < j < |assets| ==> assets[j].wordpress.mediaNumber != k
  }

  /** A link no saved asset has is absent. */
  lemma {:induction false} InlineMapAbsent(assets: seq<Assets.SavedAsset>, k: string)
    requires forall j :: 0 <= j < |assets| ==> assets[j].wordpress.link != k
    ensures JsMap.Get(InlineMap(assets), k) == None
  {
    if |assets| > 0 {
      InlineMapAbsent(assets[..|assets| - 1], k);
    }
  }

  /** Every saved link maps to the url of its last saved asset. */
  lemma {:induction false} InlineMapLastWins(assets: seq<Assets.SavedAsset>, k: string, i: int)
    requires LastWithLink(assets, k, i)
    ensures JsMap.Get(InlineMap(assets), k) == Some(assets[i].contentful.url)
    decreases |assets|
  {
    var init := assets[..|assets| - 1];
    if i < |assets| - 1 {
      assert LastWithLink(init, k, i);
      InlineMapLastWins(init, k, i);
    }
  }

  /** Media number 0 (falsy) is never a key. */
  lemma {:induction false} HeroMapNoZero(assets: seq<Assets.SavedAsset>)
    ensures !JsMap.Has(HeroMap(assets), 0)
  {
    if |assets| > 0 {
      HeroMapNoZero(assets[..|assets| - 1]);
    }
  }

  /** A media number no saved asset has is absent. */
  lemma {:induction false} HeroMapAbsent(assets: seq<Assets.SavedAsset>, k: int)
    requires forall j :: 0 <= j < |assets| ==> assets[j].wordpress.mediaNumber != k
    ensures JsMap.Get(HeroMap(assets), k) == None
  {
    if |assets| > 0 {
      HeroMapAbsent(assets[..|assets| - 1], k);
    }
  }

  /** Every non-zero media number maps to the entry id of its last saved
      asset. */
  lemma {:induction false} HeroMapLastWins(assets: seq<Assets.SavedAsset>, k: int, i: int)
    requires k != 0 && LastWithMedia(assets, k, i)
    ensures JsMap.Get(HeroMap(assets), k) == Some(assets[i].contentful.id)
    decreases |assets|
  {
    var init := assets[..|assets| - 1];
    if i < |assets| - 1 {
      assert LastWithMedia(init, k, i);
      HeroMapLastWins(init, k, i);
    } else {
      assert assets[|assets| - 1].wordpress.mediaNumber == k;
    }
  }

  /** The asset stage's saved record is what this stage looks up: when the
      record `transformForSaving` built for `a` is the last one with its link,
      the link maps to the url of the uploaded image; when it is the last one
      with its non-zero media number, that number maps to the asset entry. */
  lemma SavedRecordIsLookedUp(saved: seq<Assets.SavedAsset>, i: int, a: Assets.WpAsset, entry: Assets.CfAssetEntry, image: Assets.CfImage)
    requires 0 <= i < |saved|
    requires Assets.TransformForSaving(a, entry, image) == Success(saved[i])
    ensures (forall j :: i < j < |saved| ==> saved[j].wordpress.link != a.link) ==>
      JsMap.Get(InlineMap(saved), a.link) == Some(image.url)
    ensures a.mediaNumber != 0 && (forall j :: i < j < |saved| ==> saved[j].wordpress.mediaNumber != a.mediaNumber) ==>
      JsMap.Get(HeroMap(saved), a.mediaNumber) == Some(entry.id)
  {
    if forall j :: i < j < |saved| ==> saved[j].wordpress.link != a.link {
      InlineMapLastWins(saved, a.link, i);
    }
    if a.mediaNumber != 0 && forall j :: i < j < |saved| ==> saved[j].wordpress.mediaNumber != a.mediaNumber {
      HeroMapLastWins(saved, a.mediaNumber, i);
    }
  }

  /** `createMapsFromAssets`. */
  function CreateMapsFromAssets(assets: seq<Assets.SavedAsset>): (r: (JsMap.JsMap<string, string>, JsMap.JsMap<int, string>))
    ensures JsMap.Valid(r.0) && JsMap.Valid(r.1)
    ensures !JsMap.Has(r.1, 0)
  {
    HeroMapNoZero(assets);
    (InlineMap(assets), HeroMap(assets))
  }

  /** The map's entries in insertion order, each replacing the first
      occurrence of its old url by its new one. */
  function ReplaceEach(text: string, es: seq<(string, string)>): string
    decreases |es|
  {
    if |es| == 0 then text
    else ReplaceEach(ReplaceFirst(text, es[0].0, es[0].1), es[1..])
  }

  /** `replaceInlineImageUrls(text, map)`. */
  function ReplaceInlineImageUrls(text: string, m: JsMap.JsMap<string, string>): string
  {
    ReplaceEach(text, m.entries)
  }

  /** A text in which no old url occurs comes back unchanged, and so does
      any text with the empty map. */
  lemma {:induction false} ReplaceWithoutOccurrence(text: string, es: seq<(string, string)>)
    requires forall i :: 0 <= i < |es| ==> !Contains(text, es[i].0)
    ensures ReplaceEach(text, es) == text
  {
    if |es| > 0 {
      ReplaceFirstSpec(text, es[0].0, es[0].1);
      ReplaceWithoutOccurrence(text, es[1..]);
    }
  }

  lemma ReplaceEmptyMap(text: string)
    ensures ReplaceInlineImageUrls(text, JsMap.Empty()) == text
  {
  }

  /** With a single entry, the text is rewritten by one string `replace`:
      unchanged when the old url does not occur, and otherwise only its first
      occurrence is replaced, so every later occurrence is kept. */
  lemma OnlyFirstOccurrenceReplaced(text: string, was: string, now: string)
    ensures var r := ReplaceInlineImageUrls(text, JsMap.JsMap([(was, now)]));
      && (!Contains(text, was) ==> r == text)
      && (Contains(text, was) ==>
            exists i: nat | i <= |text| ::
              && OccursAt(text, was, i)
              && (forall j: nat :: j < i ==> !OccursAt(text, was, j))
              && r == text[..i] + now + text[i + |was|..])
  {
    var es := [(was, now)];
    assert es[1..] == [];
    assert ReplaceEach(text, es) == ReplaceEach(ReplaceFirst(text, was, now), []);
    ReplaceFirstSpec(text, was, now);
  }

  /** The entries are applied in insertion order: a map with one more entry
      replaces in the text the earlier entries produced. */
  lemma {:induction false} ReplaceEachAppend(text: string, es: seq<(string, string)>, e: (string, string))
    ensures ReplaceEach(text, es + [e]) == ReplaceFirst(ReplaceEach(text, es), e.0, e.1)
    decreases |es|
  {
    if |es| == 0 {
      assert [e][1..] == [];
      assert es + [e] == [e];
    } else {
      assert (es + [e])[0] == es[0];
      assert (es + [e])[1..] == es[1..] + [e];
      ReplaceEachAppend(ReplaceFirst(text, es[0].0, es[0].1), es[1..], e);
    }
  }

  /** A link to an existing entry (`{ sys: { id } }`), and an entry as the
      client returns it. */
  datatype Entry = Entry(id: string)

  /** The creates this stage issues, with their fields. */
  datatype Request =
    | RichText(title: string, text: string)
    | PublishDate(title: string, date: string)
    | MainTitle(title: string, id: string, text: string)
    | Summary(title: string, id: string, text: string, description: string)
    | TitleImage(title: string, asset: string)

  /** A transformed post as this stage reads it; `description` is
      `yoast_head_json.description` (`None` when `yoast_head_json` is missing),
      `featuredMedia` and `author` are WordPress ids. */
  datatype RefPost = RefPost(
    title: string, slug: string, body: string, publishDate: string,
    description: Option<string>, featuredMedia: int, author: int,
    contentful: Option<References>)

  /** An entry of `authors.json`: its WordPress id and its Contentful entry. */
  datatype Author = Author(id: int, contentful: Option<Entry>)

  /** What `createPostReference` resolves with. */
  datatype References = References(
    content: Entry, publishDate: Entry, mainTitle: Entry,
    summary: Entry, titleImage: Entry, author: Entry)

  /** The creates issued, in order, and how the post's promise settled. */
  datatype Trace = Trace(requests: seq<Request>, result: Result<References, string>)

  function ContentRequest(p: RefPost, inline: JsMap.JsMap<string, string>): Request
  {
    RichText("Content: " + p.title, ReplaceInlineImageUrls(p.body, inline))
  }

  function PublishDateRequest(p: RefPost): Request
  {
    PublishDate("Published Date: " + p.title, p.publishDate)
  }

  function MainTitleRequest(p: RefPost): Request
  {
    MainTitle("Title: " + p.title, p.title, p.title)
  }

  function SummaryRequest(p: RefPost, description: string): Request
  {
    Summary("Summary: " + p.title, p.title, p.title, description)
  }

  function TitleImageRequest(p: RefPost, asset: string): Request
  {
    TitleImage("Image: " + p.title, asset)
  }

  /** The message the post's promise rejects with: the error, then the
      (always empty) list of failed references, which prints as `undefined`. */
  function RejectMessage(p: RefPost, error: string): string
  {
    error + ". References that have errors for " + p.slug + ": undefined"
  }

  const TITLE_IMAGE_ERROR: string := "Error: Title Image not defined."
  /** The error a missing summary throws, abbreviated to its kind: the
      engine's text after `TypeError` is dropped. */
  const SUMMARY_ERROR: string := "TypeError"

  function AuthorError(p: RefPost): string
  {
    "Error: Author not found in Contentful for " + p.slug
  }

  /** The first author whose id is the post's author. */
  function FindAuthor(authors: seq<Author>, id: int): (r: Option<nat>)
    ensures r.Some? ==> r.value < |authors| && authors[r.value].id == id
    ensures r.Some? ==> forall j :: 0 <= j < r.value ==> authors[j].id != id
    ensures r.None? ==> forall j :: 0 <= j < |authors| ==> authors[j].id != id
  {
    if |authors| == 0 then None
    else if authors[0].id == id then Some(0)
    else match FindAuthor(authors[1..], id)
      case None => None
      case Some(i) => Some(i + 1)
  }

  /** `createAuthorReference`: the `contentful` entry of the first author with
      the post's author id, which must have a (truthy) `sys.id`. */
  function AuthorReference(p: RefPost, authors: seq<Author>): (r: Result<Entry, string>)
    ensures r.Success? <==>
      FindAuthor(authors, p.author).Some?
      && authors[FindAuthor(authors, p.author).value].contentful.Some?
      && authors[FindAuthor(authors, p.author).value].contentful.value.id != ""
    ensures r.Success? ==> r.value == authors[FindAuthor(authors, p.author).value].contentful.value
    ensures r.Failure? ==> r.error == AuthorError(p)
  {
    match FindAuthor(authors, p.author)
    case None => Failure(AuthorError(p))
    case Some(i) =>
      if authors[i].contentful.Some? && authors[i].contentful.value.id != "" then Success(authors[i].contentful.value)
      else Failure(AuthorError(p))
  }

  /** `createTitleImageEntry`'s guard: the hero entry id for the post's
      featured media, or the error it throws. */
  function TitleImageAsset(p: RefPost, heros: JsMap.JsMap<int, string>): (r: Result<string, string>)
    ensures r.Success? <==> JsMap.Has(heros, p.featuredMedia)
    ensures r.Success? ==> JsMap.Get(heros, p.featuredMedia) == Some(r.value)
    ensures r.Failure? ==> r.error == TITLE_IMAGE_ERROR
  {
    match JsMap.Get(heros, p.featuredMedia)
    case None => Failure(TITLE_IMAGE_ERROR)
    case Some(id) => Success(id)
  }

  /** The requests the stage means to issue, in order, and the error of the
      guard that stops it early: the summary needs `yoast_head_json`, and the
      title image needs a hero entry for the featured media. */
  function Plan(p: RefPost, assets: seq<Assets.SavedAsset>): (r: (seq<Request>, Option<string>))
    ensures 3 <= |r.0| <= 5
    ensures r.0[..3] == [ContentRequest(p, InlineMap(assets)), PublishDateRequest(p), MainTitleRequest(p)]
    ensures p.description.None? ==> |r.0| == 3 && r.1 == Some(SUMMARY_ERROR)
    ensures p.description.Some? ==> |r.0| >= 4 && r.0[3] == SummaryRequest(p, p.description.value)
    ensures p.description.Some? && !JsMap.Has(HeroMap(assets), p.featuredMedia) ==> |r.0| == 4 && r.1 == Some(TITLE_IMAGE_ERROR)
    ensures r.1.None? <==> p.description.Some? && JsMap.Has(HeroMap(assets), p.featuredMedia)
    ensures r.1.None? ==> |r.0| == 5 && r.0[4] == TitleImageRequest(p, JsMap.Get(HeroMap(assets), p.featuredMedia).value)
  {
    var maps := CreateMapsFromAssets(assets);
    var first := [ContentRequest(p, maps.0), PublishDateRequest(p), MainTitleRequest(p)];
    if p.description.None? then (first, Some(SUMMARY_ERROR))
    else
      var withSummary := first + [SummaryRequest(p, p.description.value)];
      match TitleImageAsset(p, maps.1)
      case Failure(e) => (withSummary, Some(e))
      case Success(asset) => (withSummary + [TitleImageRequest(p, asset)], None)
  }

  /** The creates issued one after another until the first rejection: the
      entries of those that resolved, and the rejection message if any. */
  function RunCreates(p: RefPost, reqs: seq<Request>, create: Request -> Result<Entry, string>): (r: (seq<Entry>, Option<string>))
    ensures |r.0| <= |reqs|
    ensures forall i :: 0 <= i < |r.0| ==> create(reqs[i]) == Success(r.0[i])
    ensures r.1.None? <==> |r.0| == |reqs|
    ensures r.1.Some? ==> create(reqs[|r.0|]).Failure? && r.1.value == RejectMessage(p, create(reqs[|r.0|]).error)
    decreases |reqs|
  {
    if |reqs| == 0 then ([], None)
    else
      match create(reqs[0])
      case Failure(e) => ([], Some(RejectMessage(p, e)))
      case Success(entry) =>
        var rest := RunCreates(p, reqs[1..], create);
        ([entry] + rest.0, rest.1)
  }

  /** `createPostReference`: the creates in a fixed order, then the author
      lookup; the first failure stops every later step, and nothing already
      created is removed. */
  function CreatePostReference(p: RefPost, authors: seq<Author>, assets: seq<Assets.SavedAsset>, create: Request -> Result<Entry, string>): Trace
  {
    var plan := Plan(p, assets);
    var run := RunCreates(p, plan.0, create);
    if run.1.Some? then Trace(plan.0[..|run.0| + 1], Failure(run.1.value))
    else if plan.1.Some? then Trace(plan.0, Failure(RejectMessage(p, plan.1.value)))
    else
      match AuthorReference(p, authors)
      case Failure(e) => Trace(plan.0, Failure(RejectMessage(p, e)))
      case Success(author) =>
        Trace(plan.0, Success(References(run.0[0], run.0[1], run.0[2], run.0[3], run.0[4], author)))
  }

  /** The steps run in the fixed order and stop at the first failure: the
      requests issued are a non-empty prefix of the plan, every request but
      the last resolved, and the post resolves exactly when the guards pass,
      all five creates resolve and the author has an entry, with the created
      entries and the author's entry as its references. */
  lemma CreatePostReferenceSpec(p: RefPost, authors: seq<Author>, assets: seq<Assets.SavedAsset>, create: Request -> Result<Entry, string>)
    ensures var t := CreatePostReference(p, authors, assets, create);
      var plan := Plan(p, assets).0;
      && 1 <= |t.requests| <= |plan|
      && t.requests == plan[..|t.requests|]
      && (forall i :: 0 <= i < |t.requests| - 1 ==> create(t.requests[i]).Success?)
      && (t.result.Success? <==>
            && Plan(p, assets).1.None?
            && (forall i :: 0 <= i < |plan| ==> create(plan[i]).Success?)
            && AuthorReference(p, authors).Success?)
      && (t.result.Success? ==>
            && t.requests == plan
            && t.result.value == References(
                 create(plan[0]).value, create(plan[1]).value, create(plan[2]).value,
                 create(plan[3]).value, create(plan[4]).value,
                 AuthorReference(p, authors).value))
  {
    var plan := Plan(p, assets);
    var run := RunCreates(p, plan.0, create);
    if run.1.Some? {
      assert !create(plan.0[|run.0|]).Success?;
    }
  }

  /** A post file: its name and its contents. */
  datatype PostFile = PostFile(name: string, post: RefPost)

  /** The files written, and the error that stopped the loop if any. */
  datatype Progress = Progress(written: seq<PostFile>, error: Option<string>)

  /** `processBlogReferences` on the files still queued, with `handle` the
      per-post step: the last file is popped and handled; on success its file
      is rewritten with `contentful` replaced by the references, and the first
      failure ends the loop. */
  function ProcessQueue(queue: seq<PostFile>, handle: RefPost -> Result<References, string>): Progress
    decreases |queue|
  {
    if |queue| == 0 then Progress([], None)
    else
      var f := queue[|queue| - 1];
      match handle(f.post)
      case Failure(e) => Progress([], Some(e))
      case Success(refs) =>
        var rest := ProcessQueue(queue[..|queue| - 1], handle);
        Progress([PostFile(f.name, f.post.(contentful := Some(refs)))] + rest.written, rest.error)
  }

  /** The file popped `k`-th (last file first). */
  function Popped(queue: seq<PostFile>, k: nat): PostFile
    requires k < |queue|
  {
    queue[|queue| - 1 - k]
  }

  /** The files are handled last first: the `k`-th file written is the `k`-th
      popped, with only its `contentful` replaced, by its own references. The
      loop stops exactly at the first popped file that fails, and reports no
      error only when every file succeeded. */
  lemma {:induction false} ProcessQueueSpec(queue: seq<PostFile>, handle: RefPost -> Result<References, string>)
    ensures var r := ProcessQueue(queue, handle);
      && |r.written| <= |queue|
      && (forall k :: 0 <= k < |r.written| ==>
            && handle(Popped(queue, k).post).Success?
            && r.written[k] == PostFile(Popped(queue, k).name,
                 Popped(queue, k).post.(contentful := Some(handle(Popped(queue, k).post).value))))
      && (r.error.None? <==> |r.written| == |queue|)
      && (r.error.Some? ==> handle(Popped(queue, |r.written|).post).Failure?)
    decreases |queue|
  {
    if |queue| > 0 {
      var init := queue[..|queue| - 1];
      ProcessQueueSpec(init, handle);
      var r := ProcessQueue(queue, handle);
      if handle(queue[|queue| - 1].post).Success? {
        var rest := ProcessQueue(init, handle);
        assert r.written[1..] == rest.written;
        forall k | 0 < k < |r.written|
          ensures r.written[k] == rest.written[k - 1] && Popped(queue, k) == Popped(init, k - 1)
        {
        }
        if r.error.Some? {
          assert Popped(queue, |r.written|) == Popped(init, |rest.written|);
        }
      }
    }
  }

  /** `processBlogReferences`: every post file through `createPostReference`. */
  function ProcessBlogReferences(queue: seq<PostFile>, authors: seq<Author>, assets: seq<Assets.SavedAsset>, create: Request -> Result<Entry, string>): Progress
  {
    ProcessQueue(queue, p => CreatePostReference(p, authors, assets, create).result)
  }
}

=== FILE: related_links.dfy ===
/** `processSavedLinks`: for every WordPress category a `link` entry is found
    (the first existing link whose url contains the category slug) or
    created, and the pair of the category and the link is saved.
 */
module RelatedLinks {
  import opened Wrappers
  import opened Strings
  import Drain

  /** A WordPress category as downloaded. */
  datatype WpTerm = WpTerm(id: int, name: string, slug: string, parent: int, count: int)

  /** The `wordpress` part of a saved record. */
  datatype WpRef = WpRef(id: int, name: string, slug: string)

  function WordpressPart(t: WpTerm): (r: WpRef)
    ensures r.id == t.id && r.name == t.name && r.slug == t.slug
  {
    WpRef(t.id, t.name, t.slug)
  }

  /** A `link` entry of the space: `url` is `None` when the entry has no url
      field at all, `Some(None)` when the field has no value for the locale. */
  datatype CfLink = CfLink(id: string, url: Option<Option<string>>)

  /** `transformCfLink`'s projection. */
  datatype LinkRef = LinkRef(id: string, url: Option<string>)

  /** `cfLinks.map(transformCfLink)`: reading the url of an entry without a url
      field throws. */
  function TransformAll(ls: seq<CfLink>): (r: Result<seq<LinkRef>, string>)
    ensures r.Success? <==> forall i :: 0 <= i < |ls| ==> ls[i].url.Some?
    ensures r.Success? ==> |r.value| == |ls|
    ensures r.Success? ==> forall i :: 0 <= i < |ls| ==> r.value[i] == LinkRef(ls[i].id, ls[i].url.value)
  {
    if |ls| == 0 then Success([])
    else if ls[0].url.None? then Failure("TypeError")
    else
      match TransformAll(ls[1..])
      case Failure(e) => Failure(e)
      case Success(rest) => Success([LinkRef(ls[0].id, ls[0].url.value)] + rest)
  }

  /** The url a lookup compares, `""` when undefined. */
  function UrlOrEmpty(l: LinkRef): string
  {
    if l.url.Some? then l.url.value else ""
  }

  /** The lookup's callback: the url, or `""`, contains `slug`. It never
      throws. */
  function UrlHasSlug(slug: string): LinkRef -> Option<bool>
  {
    l => Some(Contains(UrlOrEmpty(l), slug))
  }

  /** The first projected link whose url contains `slug`. */
  function FindLink(refs: seq<LinkRef>, slug: string): (r: Drain.Search)
    ensures !r.Threw?
    ensures r.Found? ==> r.index < |refs| && Contains(UrlOrEmpty(refs[r.index]), slug)
    ensures r.Found? ==> forall j :: 0 <= j < r.index ==> !Contains(UrlOrEmpty(refs[j]), slug)
    ensures r.NotFound? <==> forall j :: 0 <= j < |refs| ==> !Contains(UrlOrEmpty(refs[j]), slug)
  {
    var r := Drain.Find(refs, UrlHasSlug(slug));
    assert r.Found? ==> forall j :: 0 <= j < r.index ==> UrlHasSlug(slug)(refs[j]) == Some(false);
    assert !r.Threw?;
    r
  }

  /** The fields of a new `link` entry. */
  datatype LinkFields = LinkFields(title: string, text: string, id: string, url: string)

  const TOPIC_PREFIX: string := "/blog/topic/"

  /** A new link is titled and labelled with the category name, has the slug
      as its id and points at the topic page of the slug. */
  function NewLinkFields(t: WpTerm): (f: LinkFields)
    ensures f.title == t.name && f.text == t.name && f.id == t.slug
    ensures f.url == TOPIC_PREFIX + t.slug
    ensures Contains(f.url, t.slug)
  {
    ContainsMiddle(TOPIC_PREFIX, t.slug, "");
    assert TOPIC_PREFIX + t.slug + "" == TOPIC_PREFIX + t.slug;
    LinkFields(t.name, t.name, t.slug, TOPIC_PREFIX + t.slug)
  }

  /** The entry `createEntry` resolves with: the requested url under the id
      the client assigns. */
  function CreatedLink(id: string, f: LinkFields): CfLink
  {
    CfLink(id, Some(Some(f.url)))
  }

  /** A saved record: the category and its link (`found || null`). */
  datatype LinkOutput = LinkOutput(wordpress: WpRef, contentful: Option<LinkRef>)

  /** A record and whether a link had to be created for it. */
  datatype Lookup = Lookup(output: LinkOutput, created: bool)

  /** `findLinkInContentful`: the first existing link whose url contains the
      slug, otherwise a newly created one; a create that rejects rejects the
      stage. */
  function FindLinkInContentful(t: WpTerm, cfLinks: seq<CfLink>, create: LinkFields -> Result<string, string>): (r: Result<Lookup, string>)
    ensures r.Success? ==> r.value.output.wordpress == WordpressPart(t) && r.value.output.contentful.Some?
    ensures TransformAll(cfLinks).Failure? ==> r.Failure?
    ensures TransformAll(cfLinks).Success? ==>
      var refs := TransformAll(cfLinks).value;
      && (FindLink(refs, t.slug).Found? ==>
            r == Success(Lookup(LinkOutput(WordpressPart(t), Some(refs[FindLink(refs, t.slug).index])), false)))
      && (FindLink(refs, t.slug).NotFound? ==>
            match create(NewLinkFields(t))
            case Success(id) => r == Success(Lookup(LinkOutput(WordpressPart(t), Some(LinkRef(id, Some(TOPIC_PREFIX + t.slug)))), true))
            case Failure(e) => r == Failure(e))
  {
    var refs :- TransformAll(cfLinks);
    var found := FindLink(refs, t.slug);
    if found.Found? then
      Success(Lookup(LinkOutput(WordpressPart(t), Some(refs[found.index])), false))
    else
      var f := NewLinkFields(t);
      match create(f)
      case Failure(e) => Failure(e)
      case Success(id) =>
        match TransformAll([CreatedLink(id, f)])
        case Failure(e) => Failure(e)
        case Success(created) => Success(Lookup(LinkOutput(WordpressPart(t), Some(created[0])), true))
  }

  /** Adding an entry with a url field at the end adds its projection at
      the end. */
  lemma {:induction false} TransformAllAppend(ls: seq<CfLink>, l: CfLink)
    requires TransformAll(ls).Success?
    requires l.url.Some?
    ensures TransformAll(ls + [l]) == Success(TransformAll(ls).value + [LinkRef(l.id, l.url.value)])
    decreases |ls|
  {
    var last := LinkRef(l.id, l.url.value);
    if |ls| > 0 {
      assert (ls + [l])[1..] == ls[1..] + [l];
      TransformAllAppend(ls[1..], l);
      var head := [LinkRef(ls[0].id, ls[0].url.value)];
      assert TransformAll(ls).value == head + TransformAll(ls[1..]).value;
      assert (ls + [l])[0] == ls[0];
      assert head + (TransformAll(ls[1..]).value + [last]) == (head + TransformAll(ls[1..]).value) + [last];
    } else {
      assert ls + [l] == [l];
      assert TransformAll(ls).value == [];
      assert TransformAll([l][1..]) == Success([]);
      assert [last] + [] == [last];
      assert TransformAll([l]) == Success([last]);
      assert TransformAll(ls).value + [last] == [last];
    }
  }

  /** A link whose url contains the slug, added after links none of which
      does, is the one the lookup finds. */
  lemma FindLinkAppend(refs: seq<LinkRef>, l: LinkRef, slug: string)
    requires FindLink(refs, slug).NotFound?
    requires Contains(UrlOrEmpty(l), slug)
    ensures FindLink(refs + [l], slug) == Drain.Found(|refs|)
  {
    Drain.FindAppend(refs, l, UrlHasSlug(slug));
  }

  /** Round trip: after a link is created for a category no existing link
      matched, the same lookup over the links with the new one added finds
      exactly the new one. */
  lemma CreatedLinkIsFound(t: WpTerm, cfLinks: seq<CfLink>, id: string)
    requires TransformAll(cfLinks).Success?
    requires FindLink(TransformAll(cfLinks).value, t.slug).NotFound?
    ensures TransformAll(cfLinks + [CreatedLink(id, NewLinkFields(t))]).Success?
    ensures FindLink(TransformAll(cfLinks + [CreatedLink(id, NewLinkFields(t))]).value, t.slug) == Drain.Found(|cfLinks|)
  {
    var l := CreatedLink(id, NewLinkFields(t));
    TransformAllAppend(cfLinks, l);
    FindLinkAppend(TransformAll(cfLinks).value, LinkRef(l.id, l.url.value), t.slug);
  }

  /** `processSavedLinks`: one lookup per category, in pop order, all against
      the same list of links fetched once. */
  function ProcessSavedLinks(files: seq<seq<WpTerm>>, cfLinks: seq<CfLink>, create: LinkFields -> Result<string, string>): Result<seq<Lookup>, string>
  {
    Drain.MapPopped(Drain.Gather(files), t => FindLinkInContentful(t, cfLinks, create))
  }

  /** The saved list holds one record per category in pop order, each with
      the category's own `{id, name, slug}`. Since the links are fetched once
      and never extended, every category whose slug no existing link matches
      gets a link created, two categories with the same such slug included. */
  lemma ProcessSavedLinksSpec(files: seq<seq<WpTerm>>, cfLinks: seq<CfLink>, create: LinkFields -> Result<string, string>)
    requires ProcessSavedLinks(files, cfLinks, create).Success?
    ensures var topics := Drain.Gather(files);
      var out := ProcessSavedLinks(files, cfLinks, create).value;
      && |out| == |topics|
      && (|topics| > 0 ==> TransformAll(cfLinks).Success?)
      && forall k :: 0 <= k < |topics| ==>
           && out[k].output.wordpress == WordpressPart(Drain.Popped(topics, k))
           && (out[k].created <==> TransformAll(cfLinks).Success?
                                   && FindLink(TransformAll(cfLinks).value, Drain.Popped(topics, k).slug).NotFound?)
  {
    var topics := Drain.Gather(files);
    var f := t => FindLinkInContentful(t, cfLinks, create);
    Drain.MapPoppedSpec(topics, f);
    if |topics| > 0 {
      assert f(topics[0]).Success?;
    }
  }
}

=== FILE: related_topics.dfy ===
/** `processSavedTopics` of the related-topics stage: for every WordPress
    category the first `relatedTopics` entry whose title contains the
    category name is taken as it is, or a new one listing the category's
    link is created.
 */
module RelatedTopics {
  import opened Wrappers
  import opened Strings
  import Drain
  import RelatedLinks

  /** A `relatedTopics` entry: `title` is `None` when the entry has no title
      field, `Some(None)` when the field has no value for the locale;
      `topicsList` holds the ids of the linked entries. */
  datatype CfTopic = CfTopic(id: string, title: Option<Option<string>>, topicsList: seq<string>)

  /** A stage error: a property read on `undefined` or `null`, or a create
      the client rejected, rethrown with the category slug. */
  datatype TopicError = TypeError | NotCreated(message: string)

  function NotCreatedMessage(slug: string, e: string): string
  {
    "Related Topic Entry not created for " + slug + ": " + e
  }

  /** The title lookup's callback: reading the title of an entry without one
      throws. */
  function TitleHasName(name: string): CfTopic -> Option<bool>
  {
    (t: CfTopic) => if t.title.None? || t.title.value.None? then None else Some(Contains(t.title.value.value, name))
  }

  /** The link lookup's callback over the saved links: a record without a
      link, or a link without a url, throws. */
  function LinkHasSlug(slug: string): RelatedLinks.LinkOutput -> Option<bool>
  {
    (o: RelatedLinks.LinkOutput) =>
      if o.contentful.None? || o.contentful.value.url.None? then None
      else Some(Contains(o.contentful.value.url.value, slug))
  }

  /** The id of the first saved link whose url contains `slug`; reading the
      link of a missing match fails before the create is attempted. */
  function LinkIdFor(cfLinks: seq<RelatedLinks.LinkOutput>, slug: string): (r: Result<string, TopicError>)
    ensures r.Success? <==> Drain.Find(cfLinks, LinkHasSlug(slug)).Found?
    ensures r.Success? ==>
      var i := Drain.Find(cfLinks, LinkHasSlug(slug)).index;
      && cfLinks[i].contentful.Some?
      && Contains(cfLinks[i].contentful.value.url.value, slug)
      && r.value == cfLinks[i].contentful.value.id
    ensures r.Failure? ==> r.error == TypeError
  {
    match Drain.Find(cfLinks, LinkHasSlug(slug))
    case Found(i) => Success(cfLinks[i].contentful.value.id)
    case NotFound => Failure(TypeError)
    case Threw => Failure(TypeError)
  }

  /** The fields of a new `relatedTopics` entry. */
  datatype TopicFields = TopicFields(title: string, id: string, topicsList: seq<string>)

  function NewTopicFields(t: RelatedLinks.WpTerm, linkId: string): (f: TopicFields)
    ensures f.title == t.name && f.id == t.slug && f.topicsList == [linkId]
  {
    TopicFields(t.name, t.slug, [linkId])
  }

  /** The entry `createEntry` resolves with, under the id the client
      assigns. */
  function CreatedTopic(id: string, f: TopicFields): CfTopic
  {
    CfTopic(id, Some(Some(f.title)), f.topicsList)
  }

  /** A saved record: the category and the raw found or created entry. */
  datatype TopicOutput = TopicOutput(wordpress: RelatedLinks.WpRef, contentful: CfTopic)

  datatype TopicLookup = TopicLookup(output: TopicOutput, created: bool)

  /** `findTopicInContentful`. */
  function FindTopicInContentful(t: RelatedLinks.WpTerm, cfTopics: seq<CfTopic>,
                                 cfLinks: seq<RelatedLinks.LinkOutput>,
                                 create: TopicFields -> Result<string, string>): (r: Result<TopicLookup, TopicError>)
    ensures r.Success? ==> r.value.output.wordpress == RelatedLinks.WordpressPart(t)
    ensures Drain.Find(cfTopics, TitleHasName(t.name)).Threw? ==> r == Failure(TypeError)
    ensures Drain.Find(cfTopics, TitleHasName(t.name)).Found? ==>
      r.Success? && !r.value.created
      && r.value.output.contentful == cfTopics[Drain.Find(cfTopics, TitleHasName(t.name)).index]
    ensures Drain.Find(cfTopics, TitleHasName(t.name)).NotFound? ==>
      match LinkIdFor(cfLinks, t.slug)
      case Failure(_) => r == Failure(TypeError)
      case Success(linkId) =>
        match create(NewTopicFields(t, linkId))
        case Failure(e) => r == Failure(NotCreated(NotCreatedMessage(t.slug, e)))
        case Success(id) =>
          r.Success? && r.value.created
          && r.value.output.contentful == CfTopic(id, Some(Some(t.name)), [linkId])
  {
    var wp := RelatedLinks.WordpressPart(t);
    match Drain.Find(cfTopics, TitleHasName(t.name))
    case Threw => Failure(TypeError)
    case Found(i) => Success(TopicLookup(TopicOutput(wp, cfTopics[i]), false))
    case NotFound =>
      var linkId :- LinkIdFor(cfLinks, t.slug);
      var f := NewTopicFields(t, linkId);
      match create(f)
      case Failure(e) => Failure(NotCreated(NotCreatedMessage(t.slug, e)))
      case Success(id) => Success(TopicLookup(TopicOutput(wp, CreatedTopic(id, f)), true))
  }

  /** Round trip: the title of a created entry is the category name, so the
      same lookup over the entries with the new one added finds it. */
  lemma CreatedTopicIsFound(t: RelatedLinks.WpTerm, cfTopics: seq<CfTopic>, id: string, linkId: string)
    requires Drain.Find(cfTopics, TitleHasName(t.name)).NotFound?
    ensures Drain.Find(cfTopics + [CreatedTopic(id, NewTopicFields(t, linkId))], TitleHasName(t.name))
         == Drain.Found(|cfTopics|)
  {
    ContainsSelf(t.name);
    Drain.FindAppend(cfTopics, CreatedTopic(id, NewTopicFields(t, linkId)), TitleHasName(t.name));
  }

  /** `processSavedTopics`: one lookup per category, in pop order, against
      entries fetched once. */
  function ProcessSavedTopics(files: seq<seq<RelatedLinks.WpTerm>>, cfTopics: seq<CfTopic>,
                              cfLinks: seq<RelatedLinks.LinkOutput>,
                              create: TopicFields -> Result<string, string>): Result<seq<TopicLookup>, TopicError>
  {
    Drain.MapPopped(Drain.Gather(files), t => FindTopicInContentful(t, cfTopics, cfLinks, create))
  }

  /** The saved list holds one record per category in pop order with the
      category's own `{id, name, slug}`; an entry is created exactly for the
      categories whose name no existing title contains, again for every
      repeat of such a name, since the fetched entries are never extended. */
  lemma ProcessSavedTopicsSpec(files: seq<seq<RelatedLinks.WpTerm>>, cfTopics: seq<CfTopic>,
                               cfLinks: seq<RelatedLinks.LinkOutput>,
                               create: TopicFields -> Result<string, string>)
    requires ProcessSavedTopics(files, cfTopics, cfLinks, create).Success?
    ensures var topics := Drain.Gather(files);
      var out := ProcessSavedTopics(files, cfTopics, cfLinks, create).value;
      && |out| == |topics|
      && forall k :: 0 <= k < |topics| ==>
           && out[k].output.wordpress == RelatedLinks.WordpressPart(Drain.Popped(topics, k))
           && (out[k].created <==> Drain.Find(cfTopics, TitleHasName(Drain.Popped(topics, k).name)).NotFound?)
  {
    Drain.MapPoppedSpec(Drain.Gather(files), t => FindTopicInContentful(t, cfTopics, cfLinks, create));
  }
}

=== FILE: seqs.dfy ===
/** Sequence helpers: the order in which repeated `pop()` drains an array, and
    the concatenation of pages read one after another.
 */
module Seqs {

  function Min(a: nat, b: nat): nat
  {
    if a <= b then a else b
  }

  /** The items of `s` in the order repeated `s.pop()` returns them. */
  function Reverse<T>(s: seq<T>): (r: seq<T>)
    ensures |r| == |s|
    ensures forall i :: 0 <= i < |s| ==> r[i] == s[|s| - 1 - i]
  {
    if |s| == 0 then [] else [s[|s| - 1]] + Reverse(s[..|s| - 1])
  }

  /** Reversing a concatenation reverses and swaps the parts. */
  lemma ReverseAppend<T>(a: seq<T>, b: seq<T>)
    ensures Reverse(a + b) == Reverse(b) + Reverse(a)
  {
  }

  /** Popping everything twice restores the original order. */
  lemma ReverseReverse<T>(s: seq<T>)
    ensures Reverse(Reverse(s)) == s
  {
  }

  /** Popping everything yields the same items. */
  lemma {:induction false} ReverseMultiset<T>(s: seq<T>)
    ensures multiset(Reverse(s)) == multiset(s)
    decreases |s|
  {
    if |s| > 0 {
      var init := s[..|s| - 1];
      ReverseMultiset(init);
      assert s == init + [s[|s| - 1]];
    }
  }

  /** The pages' items, page after page. */
  function Flatten<T>(pages: seq<seq<T>>): (r: seq<T>)
  {
    if |pages| == 0 then [] else Flatten(pages[..|pages| - 1]) + pages[|pages| - 1]
  }
}

=== FILE: strings.dfy ===
/** The handful of JavaScript string operations the migration stages rely on:
    `includes`, `split` on a one-character separator, `join`, `replace` with a
    string pattern (first occurrence only), `toLowerCase` restricted to ASCII,
    removal of one character everywhere, and number-to-decimal conversion as
    done by template literals.
 */
module Strings {
  import opened Wrappers

  /** `pat` occurs in `s` starting at index `i`. */
  predicate OccursAt(s: string, pat: string, i: nat) {
    i + |pat| <= |s| && s[i..i + |pat|] == pat
  }

  /** JavaScript `s.includes(pat)`. */
  predicate Contains(s: string, pat: string) {
    exists i: nat | i <= |s| :: OccursAt(s, pat, i)
  }

  /** The first index at or after `from` where `pat` occurs in `s`. */
  function IndexOfFrom(s: string, pat: string, from: nat): (r: Option<nat>)
    ensures r.Some? ==> from <= r.value && OccursAt(s, pat, r.value)
    ensures r.Some? ==> forall j: nat :: from <= j < r.value ==> !OccursAt(s, pat, j)
    ensures r.None? ==> forall j: nat :: from <= j ==> !OccursAt(s, pat, j)
    decreases |s| - from
  {
    if from + |pat| > |s| then None
    else if s[from..from + |pat|] == pat then Some(from)
    else IndexOfFrom(s, pat, from + 1)
  }

  /** JavaScript `s.indexOf(pat)`, with `None` for -1. */
  function IndexOf(s: string, pat: string): (r: Option<nat>)
    ensures r.Some? <==> Contains(s, pat)
  {
    var r := IndexOfFrom(s, pat, 0);
    if r.Some? then
      assert OccursAt(s, pat, r.value);
      r
    else
      r
  }

  /** `b` is found inside any string that has it as a middle part. */
  lemma ContainsMiddle(a: string, b: string, c: string)
    ensures Contains(a + b + c, b)
  {
    var s := a + b + c;
    assert s[|a|..|a| + |b|] == b;
    assert OccursAt(s, b, |a|);
  }

  /** Every string contains itself. */
  lemma ContainsSelf(s: string)
    ensures Contains(s, s)
  {
    ContainsMiddle("", s, "");
    assert "" + s + "" == s;
  }

  /** JavaScript `s.split(c)` for a one-character separator `c`: the maximal
      runs of characters other than `c`, empty runs included. */
  function Split(s: string, c: char): (parts: seq<string>)
    ensures |parts| >= 1
    decreases |s|
  {
    if |s| == 0 then [""]
    else
      var init := Split(s[..|s| - 1], c);
      if s[|s| - 1] == c then init + [""]
      else init[..|init| - 1] + [init[|init| - 1] + [s[|s| - 1]]]
  }

  /** JavaScript `parts.join(sep)`. */
  function Join(parts: seq<string>, sep: string): string
  {
    if |parts| == 0 then ""
    else if |parts| == 1 then parts[0]
    else Join(parts[..|parts| - 1], sep) + sep + parts[|parts| - 1]
  }

  function Last<T>(s: seq<T>): T
    requires |s| > 0
  {
    s[|s| - 1]
  }

  /** `s.split(c).slice(-1).join("")`: the text after the last `c`. */
  function LastSegment(s: string, c: char): string
  {
    Last(Split(s, c))
  }

  /** No part produced by `Split` contains the separator. */
  lemma {:induction false} SplitPartsHaveNoSeparator(s: string, c: char)
    ensures forall i :: 0 <= i < |Split(s, c)| ==> c !in Split(s, c)[i]
    decreases |s|
  {
    if |s| > 0 {
      SplitPartsHaveNoSeparator(s[..|s| - 1], c);
    }
  }

  lemma JoinExtendLast(ps: seq<string>, y: string, sep: string)
    requires |ps| >= 1
    ensures Join(ps[..|ps| - 1] + [Last(ps) + y], sep) == Join(ps, sep) + y
  {
    var qs := ps[..|ps| - 1] + [Last(ps) + y];
    if |ps| > 1 {
      assert qs[..|qs| - 1] == ps[..|ps| - 1];
    }
  }

  /** Round trip: joining the parts of a split with the separator gives back the input. */
  lemma {:induction false} SplitJoinRoundTrip(s: string, c: char)
    ensures Join(Split(s, c), [c]) == s
    decreases |s|
  {
    if |s| > 0 {
      var init := Split(s[..|s| - 1], c);
      SplitJoinRoundTrip(s[..|s| - 1], c);
      if s[|s| - 1] == c {
        var parts := init + [""];
        assert parts[..|parts| - 1] == init;
        assert Join(parts, [c]) == Join(init, [c]) + [c] + "";
      } else {
        JoinExtendLast(init, [s[|s| - 1]], [c]);
      }
      assert s[..|s| - 1] + [s[|s| - 1]] == s;
    }
  }

  /** The last segment is the longest suffix of `s` free of `c`: it holds no `c`,
      it ends `s`, and it is either all of `s` or preceded by a `c`. */
  lemma {:induction false} LastSegmentIsMaximalSuffix(s: string, c: char)
    ensures var r := LastSegment(s, c);
      && c !in r
      && |r| <= |s|
      && r == s[|s| - |r|..]
      && (|r| < |s| ==> s[|s| - |r| - 1] == c)
    decreases |s|
  {
    if |s| > 0 {
      var init := Split(s[..|s| - 1], c);
      LastSegmentIsMaximalSuffix(s[..|s| - 1], c);
    }
  }

  /** A string without the separator is its own last segment. */
  lemma LastSegmentWithoutSeparator(s: string, c: char)
    requires c !in s
    ensures LastSegment(s, c) == s
  {
    LastSegmentIsMaximalSuffix(s, c);
  }

  /** A suffix of `a + [c] + b` longer than `b` reaches the separator. */
  lemma LongSuffixHasSeparator(a: string, c: char, b: string, r: string)
    requires |r| <= |a + [c] + b| && r == (a + [c] + b)[|a + [c] + b| - |r|..]
    ensures |r| > |b| ==> c in r
  {
    var s := a + [c] + b;
    if |r| > |b| {
      assert r[|r| - |b| - 1] == s[|a|];
    }
  }

  /** The character just before a suffix shorter than `b` lies inside `b`. */
  lemma ShortSuffixPrecededByB(a: string, c: char, b: string, r: string)
    requires |r| < |b|
    ensures (a + [c] + b)[|a + [c] + b| - |r| - 1] in b
  {
    var s := a + [c] + b;
    assert s[|s| - |r| - 1] == b[|b| - |r| - 1];
  }

  /** The text after a separator that is followed by no other separator is the last segment. */
  lemma LastSegmentAfterSeparator(a: string, c: char, b: string)
    requires c !in b
    ensures LastSegment(a + [c] + b, c) == b
  {
    var s := a + [c] + b;
    LastSegmentIsMaximalSuffix(s, c);
    var r := LastSegment(s, c);
    LongSuffixHasSeparator(a, c, b, r);
    if |r| < |b| {
      ShortSuffixPrecededByB(a, c, b, r);
    }
    assert s[|s| - |b|..] == b;
  }

  /** JavaScript `s.replace(pat, rep)` with a string pattern: only the first
      occurrence is replaced. */
  function ReplaceFirst(s: string, pat: string, rep: string): string
  {
    match IndexOf(s, pat)
    case None => s
    case Some(i) => s[..i] + rep + s[i + |pat|..]
  }

  /** What `ReplaceFirst` keeps and changes: without an occurrence the text is
      unchanged; otherwise, at the first occurrence `i`, the text before `i` and
      everything after that occurrence (so every later occurrence) is kept. */
  lemma ReplaceFirstSpec(s: string, pat: string, rep: string)
    ensures !Contains(s, pat) ==> ReplaceFirst(s, pat, rep) == s
    ensures Contains(s, pat) ==>
      exists i: nat | i <= |s| ::
        && OccursAt(s, pat, i)
        && (forall j: nat :: j < i ==> !OccursAt(s, pat, j))
        && ReplaceFirst(s, pat, rep) == s[..i] + rep + s[i + |pat|..]
  {
    if IndexOf(s, pat).Some? {
      ReplaceFirstAt(s, pat, rep);
    }
  }

  lemma ReplaceFirstAt(s: string, pat: string, rep: string)
    requires IndexOf(s, pat).Some?
    ensures var i := IndexOf(s, pat).value;
      && i <= |s|
      && OccursAt(s, pat, i)
      && (forall j: nat :: j < i ==> !OccursAt(s, pat, j))
      && ReplaceFirst(s, pat, rep) == s[..i] + rep + s[i + |pat|..]
  {
    assert IndexOf(s, pat) == IndexOfFrom(s, pat, 0);
  }

  function LowerChar(ch: char): char
  {
    if 'A' <= ch <= 'Z' then (ch as int + 32) as char else ch
  }

  /** `s.toLowerCase()` on the ASCII letters. */
  function ToLower(s: string): (r: string)
    ensures |r| == |s|
    ensures forall i :: 0 <= i < |s| ==> r[i] == LowerChar(s[i])
    ensures forall i :: 0 <= i < |r| ==> !('A' <= r[i] <= 'Z')
  {
    seq(|s|, i requires 0 <= i < |s| => LowerChar(s[i]))
  }

  /** `s.replace(/c/g, "")`: every occurrence of `c` dropped, the rest kept in order. */
  function RemoveAll(s: string, c: char): (r: string)
    ensures c !in r
    ensures |r| <= |s|
    ensures forall ch :: ch in r <==> ch in s && ch != c
    decreases |s|
  {
    if |s| == 0 then ""
    else if s[0] == c then RemoveAll(s[1..], c)
    else [s[0]] + RemoveAll(s[1..], c)
  }

  /** Removing a character that does not occur changes nothing. */
  lemma {:induction false} RemoveAllAbsent(s: string, c: char)
    requires c !in s
    ensures RemoveAll(s, c) == s
    decreases |s|
  {
    if |s| > 0 {
      assert c !in s[1..] by {
        forall k | 0 <= k < |s[1..]| ensures s[1..][k] != c {
          assert s[1..][k] == s[k + 1];
        }
      }
      RemoveAllAbsent(s[1..], c);
      assert s == [s[0]] + s[1..];
    }
  }

  /** Removing a character from a concatenation removes it from each part. */
  lemma {:induction false} RemoveAllAppend(a: string, b: string, c: char)
    ensures RemoveAll(a + b, c) == RemoveAll(a, c) + RemoveAll(b, c)
    decreases |a|
  {
    if |a| > 0 {
      assert (a + b)[0] == a[0];
      assert (a + b)[1..] == a[1..] + b;
      RemoveAllAppend(a[1..], b, c);
    } else {
      assert a + b == b;
    }
  }

  /** Exactly the occurrences of `c` are dropped. */
  lemma {:induction false} RemoveAllLength(s: string, c: char)
    ensures |RemoveAll(s, c)| == |s| - multiset(s)[c]
    decreases |s|
  {
    if |s| > 0 {
      assert s == [s[0]] + s[1..];
      assert multiset(s) == multiset{s[0]} + multiset(s[1..]);
      RemoveAllLength(s[1..], c);
    }
  }

  /** Lower-casing a concatenation lower-cases each part. */
  lemma ToLowerAppend(a: string, b: string)
    ensures ToLower(a + b) == ToLower(a) + ToLower(b)
  {
  }

  /** Lower-casing keeps every occurrence of a character that is not a letter. */
  lemma {:induction false} ToLowerKeepsCount(s: string, c: char)
    requires !('A' <= c <= 'Z') && !('a' <= c <= 'z')
    ensures multiset(ToLower(s))[c] == multiset(s)[c]
    decreases |s|
  {
    if |s| > 0 {
      var x, rest := s[0], s[1..];
      assert s == [x] + rest;
      ToLowerAppend([x], rest);
      assert ToLower([x]) == [LowerChar(x)];
      CountCons(x, rest, c);
      CountCons(LowerChar(x), ToLower(rest), c);
      ToLowerKeepsCount(rest, c);
    }
  }

  lemma CountCons(x: char, rest: string, c: char)
    ensures multiset([x] + rest)[c] == (if x == c then 1 else 0) + multiset(rest)[c]
  {
    assert multiset([x] + rest) == multiset{x} + multiset(rest);
  }

  /** Lower-casing commutes with removing a character that lower-casing fixes. */
  lemma {:induction false} ToLowerRemoveAll(s: string, c: char)
    requires !('A' <= c <= 'Z') && !('a' <= c <= 'z')
    ensures ToLower(RemoveAll(s, c)) == RemoveAll(ToLower(s), c)
    decreases |s|
  {
    if |s| > 0 {
      ToLowerRemoveAll(s[1..], c);
      assert ToLower(s)[1..] == ToLower(s[1..]);
      assert ToLower(s)[0] == LowerChar(s[0]);
      if s[0] != c {
        assert LowerChar(s[0]) != c;
        assert ToLower([s[0]] + RemoveAll(s[1..], c)) == [LowerChar(s[0])] + ToLower(RemoveAll(s[1..], c));
      }
    }
  }

  /** Lower-casing twice is lower-casing once. */
  lemma ToLowerIdempotent(s: string)
    ensures ToLower(ToLower(s)) == ToLower(s)
  {
  }

  function DigitChar(d: nat): (ch: char)
    requires d < 10
    ensures '0' <= ch <= '9'
  {
    "0123456789"[d]
  }

  predicate IsDigits(s: string) {
    forall i :: 0 <= i < |s| ==> '0' <= s[i] <= '9'
  }

  /** The value of a string of decimal digits. */
  function DigitsValue(s: string): nat
    requires IsDigits(s)
  {
    if |s| == 0 then 0
    else DigitsValue(s[..|s| - 1]) * 10 + (s[|s| - 1] as int - '0' as int)
  }

  /** The decimal text a template literal produces for a non-negative integer. */
  function NatToString(n: nat): (r: string)
    ensures |r| >= 1 && IsDigits(r)
    ensures (r[0] == '0') <==> n == 0
    decreases n
  {
    if n < 10 then [DigitChar(n)]
    else NatToString(n / 10) + [DigitChar(n % 10)]
  }

  /** Round trip: reading the decimal text back gives the number. */
  lemma {:induction false} NatToStringRoundTrip(n: nat)
    ensures DigitsValue(NatToString(n)) == n
    decreases n
  {
    if n >= 10 {
      NatToStringRoundTrip(n / 10);
      var s := NatToString(n);
      assert s[..|s| - 1] == NatToString(n / 10);
    }
  }
}

=== FILE: topic_pages.dfy ===
/** `processSavedTopics` of the topic-page matcher: the same walk over the
    categories as the related-topics stage, except that every fetched entry
    is first projected to `{id, title}`, a missing title reads as `""`, and
    what gets created is a `topicPage` entry.
 */
module TopicPages {
  import opened Wrappers
  import opened Strings
  import Drain
  import RelatedLinks
  import RelatedTopics

  /** `transformCfTopic`'s projection. */
  datatype TopicRef = TopicRef(id: string, title: Option<string>)

  /** `cfTopics.map(transformCfTopic)`: projecting an entry without a title
      field throws, whichever entry it is. */
  function TransformAll(ts: seq<RelatedTopics.CfTopic>): (r: Option<seq<TopicRef>>)
    ensures r.Some? <==> forall i :: 0 <= i < |ts| ==> ts[i].title.Some?
    ensures r.Some? ==> |r.value| == |ts|
    ensures r.Some? ==> forall i :: 0 <= i < |ts| ==> r.value[i] == TopicRef(ts[i].id, ts[i].title.value)
  {
    if |ts| == 0 then Some([])
    else if ts[0].title.None? then None
    else
      match TransformAll(ts[1..])
      case None => None
      case Some(rest) => Some([TopicRef(ts[0].id, ts[0].title.value)] + rest)
  }

  function TitleOrEmpty(t: TopicRef): string
  {
    if t.title.Some? then t.title.value else ""
  }

  /** The lookup's callback: the title, or `""`, contains `name`. */
  function TitleHasName(name: string): TopicRef -> Option<bool>
  {
    (t: TopicRef) => Some(Contains(TitleOrEmpty(t), name))
  }

  /** The first projection whose title contains `name`; the callback never
      throws. */
  function FindTopic(refs: seq<TopicRef>, name: string): (r: Drain.Search)
    ensures !r.Threw?
    ensures r.Found? ==> r.index < |refs| && Contains(TitleOrEmpty(refs[r.index]), name)
    ensures r.Found? ==> forall j :: 0 <= j < r.index ==> !Contains(TitleOrEmpty(refs[j]), name)
    ensures r.NotFound? <==> forall j :: 0 <= j < |refs| ==> !Contains(TitleOrEmpty(refs[j]), name)
  {
    var r := Drain.Find(refs, TitleHasName(name));
    assert r.Found? ==> forall j :: 0 <= j < r.index ==> TitleHasName(name)(refs[j]) == Some(false);
    assert !r.Threw?;
    r
  }

  /** The fields of a new `topicPage` entry. */
  datatype PageFields = PageFields(title: string, description: string, slug: string, topicsList: seq<string>)

  function NewPageFields(t: RelatedLinks.WpTerm, linkId: string): (f: PageFields)
    ensures f.title == t.name && f.description == t.slug && f.topicsList == [linkId]
    ensures f.slug == RelatedLinks.TOPIC_PREFIX + t.slug
  {
    PageFields(t.name, t.slug, RelatedLinks.TOPIC_PREFIX + t.slug, [linkId])
  }

  /** The projection of the entry `createEntry` resolves with. */
  function CreatedPage(id: string, f: PageFields): TopicRef
  {
    TopicRef(id, Some(f.title))
  }

  datatype PageOutput = PageOutput(wordpress: RelatedLinks.WpRef, contentful: TopicRef)

  datatype PageLookup = PageLookup(output: PageOutput, created: bool)

  /** `findTopicInContentful` of the topic-page matcher. */
  function FindTopicPage(t: RelatedLinks.WpTerm, cfTopics: seq<RelatedTopics.CfTopic>,
                         cfLinks: seq<RelatedLinks.LinkOutput>,
                         create: PageFields -> Result<string, string>): (r: Result<PageLookup, RelatedTopics.TopicError>)
    ensures r.Success? ==> r.value.output.wordpress == RelatedLinks.WordpressPart(t)
    ensures TransformAll(cfTopics).None? ==> r == Failure(RelatedTopics.TypeError)
    ensures TransformAll(cfTopics).Some? && FindTopic(TransformAll(cfTopics).value, t.name).Found? ==>
      var refs := TransformAll(cfTopics).value;
      r.Success? && !r.value.created
      && r.value.output.contentful == refs[FindTopic(refs, t.name).index]
    ensures TransformAll(cfTopics).Some? && FindTopic(TransformAll(cfTopics).value, t.name).NotFound? ==>
      match RelatedTopics.LinkIdFor(cfLinks, t.slug)
      case Failure(_) => r == Failure(RelatedTopics.TypeError)
      case Success(linkId) =>
        match create(NewPageFields(t, linkId))
        case Failure(e) => r == Failure(RelatedTopics.NotCreated(RelatedTopics.NotCreatedMessage(t.slug, e)))
        case Success(id) =>
          r.Success? && r.value.created && r.value.output.contentful == TopicRef(id, Some(t.name))
  {
    var wp := RelatedLinks.WordpressPart(t);
    match TransformAll(cfTopics)
    case None => Failure(RelatedTopics.TypeError)
    case Some(refs) =>
      var found := FindTopic(refs, t.name);
      if found.Found? then
        Success(PageLookup(PageOutput(wp, refs[found.index]), false))
      else
        var linkId :- RelatedTopics.LinkIdFor(cfLinks, t.slug);
        var f := NewPageFields(t, linkId);
        match create(f)
        case Failure(e) => Failure(RelatedTopics.NotCreated(RelatedTopics.NotCreatedMessage(t.slug, e)))
        case Success(id) => Success(PageLookup(PageOutput(wp, CreatedPage(id, f)), true))
  }

  /** Round trip: the created page's title is the category name, so a lookup
      over the projections with the new one added finds it. */
  lemma CreatedPageIsFound(t: RelatedLinks.WpTerm, refs: seq<TopicRef>, id: string, linkId: string)
    requires FindTopic(refs, t.name).NotFound?
    ensures FindTopic(refs + [CreatedPage(id, NewPageFields(t, linkId))], t.name) == Drain.Found(|refs|)
  {
    var p := CreatedPage(id, NewPageFields(t, linkId));
    ContainsSelf(t.name);
    assert TitleOrEmpty(p) == t.name;
    Drain.FindAppend(refs, p, TitleHasName(t.name));
  }

  /** `processSavedTopics`: one lookup per category, in pop order. */
  function ProcessSavedTopics(files: seq<seq<RelatedLinks.WpTerm>>, cfTopics: seq<RelatedTopics.CfTopic>,
                              cfLinks: seq<RelatedLinks.LinkOutput>,
                              create: PageFields -> Result<string, string>): Result<seq<PageLookup>, RelatedTopics.TopicError>
  {
    Drain.MapPopped(Drain.Gather(files), t => FindTopicPage(t, cfTopics, cfLinks, create))
  }

  /** One record per category in pop order with the category's own
      `{id, name, slug}`; a page is created exactly for the categories whose
      name no projected title contains. */
  lemma ProcessSavedTopicsSpec(files: seq<seq<RelatedLinks.WpTerm>>, cfTopics: seq<RelatedTopics.CfTopic>,
                               cfLinks: seq<RelatedLinks.LinkOutput>,
                               create: PageFields -> Result<string, string>)
    requires ProcessSavedTopics(files, cfTopics, cfLinks, create).Success?
    ensures var topics := Drain.Gather(files);
      var out := ProcessSavedTopics(files, cfTopics, cfLinks, create).value;
      && |out| == |topics|
      && (|topics| > 0 ==> TransformAll(cfTopics).Some?)
      && forall k :: 0 <= k < |topics| ==>
           && out[k].output.wordpress == RelatedLinks.WordpressPart(Drain.Popped(topics, k))
           && (out[k].created <==> TransformAll(cfTopics).Some?
                                   && FindTopic(TransformAll(cfTopics).value, Drain.Popped(topics, k).name).NotFound?)
  {
    var topics := Drain.Gather(files);
    var f := t => FindTopicPage(t, cfTopics, cfLinks, create);
    Drain.MapPoppedSpec(topics, f);
    if |topics| > 0 {
      assert f(topics[0]).Success?;
    }
  }
}

=== FILE: util.dfy ===
/** The two URL helpers of `src/util.js`: the MIME type guessed from a URL's
    extension and the file name taken from a URL's last path segment.
 */
module Util {
  import opened Strings

  /** The `MIME_TYPES` table. */
  const MimeTypes: map<string, string> :=
    map["jpg" := "image/jpeg", "jpeg" := "image/jpeg", "png" := "image/png", "gif" := "image/gif"]

  /** Property names every plain object inherits from `Object.prototype`. Indexing
      `MIME_TYPES` with one of them yields a truthy value that is not a MIME string. */
  const InheritedKeys: set<string> := {
    "constructor", "__proto__", "__defineGetter__", "__defineSetter__",
    "__lookupGetter__", "__lookupSetter__", "hasOwnProperty", "isPrototypeOf",
    "propertyIsEnumerable", "toLocaleString", "toString", "valueOf"
  }

  /** What `urlToMimeType` returns: a MIME string, or the inherited member of
      `Object.prototype` that the table lookup found. */
  datatype MimeType = Mime(name: string) | InheritedMember(key: string)

  /** `url.split(".").slice(-1).join("")`. */
  function Extension(url: string): string
  {
    LastSegment(url, '.')
  }

  /** `urlToMimeType`: the table entry for the extension when it is truthy, the
      `jpg` entry otherwise. */
  function UrlToMimeType(url: string): MimeType
  {
    var ext := Extension(url);
    if ext in MimeTypes then Mime(MimeTypes[ext])
    else if ext in InheritedKeys then InheritedMember(ext)
    else Mime(MimeTypes["jpg"])
  }

  /** `trimUrlToFilename`: `url.split("/").slice(-1).join("")`. */
  function TrimUrlToFilename(url: string): string
  {
    LastSegment(url, '/')
  }

  /** The extension is the text after the last dot; a URL without a dot is its own extension. */
  lemma ExtensionIsTextAfterLastDot(url: string)
    ensures '.' !in Extension(url)
    ensures '.' !in url ==> Extension(url) == url
    ensures forall a, b :: url == a + "." + b && '.' !in b ==> Extension(url) == b
  {
    LastSegmentIsMaximalSuffix(url, '.');
    if '.' !in url {
      LastSegmentWithoutSeparator(url, '.');
    }
    forall a, b | url == a + "." + b && '.' !in b ensures Extension(url) == b {
      LastSegmentAfterSeparator(a, '.', b);
    }
  }

  /** The MIME type a URL gets from its extension: png, gif, jpg and jpeg map to
      their types, an inherited property name maps to the inherited member, and
      every other extension, upper-case ones and ones carrying a query included,
      falls back to image/jpeg. */
  lemma MimeTypeOfExtension(base: string, ext: string)
    requires '.' !in ext
    ensures ext == "png" ==> UrlToMimeType(base + "." + ext) == Mime("image/png")
    ensures ext == "gif" ==> UrlToMimeType(base + "." + ext) == Mime("image/gif")
    ensures ext == "jpg" || ext == "jpeg" ==> UrlToMimeType(base + "." + ext) == Mime("image/jpeg")
    ensures ext in InheritedKeys ==> UrlToMimeType(base + "." + ext) == InheritedMember(ext)
    ensures ext !in MimeTypes && ext !in InheritedKeys ==>
      UrlToMimeType(base + "." + ext) == Mime("image/jpeg")
  {
    LastSegmentAfterSeparator(base, '.', ext);
  }

  /** The lookup is case-sensitive, takes a query string as part of the
      extension, and finds inherited keys. */
  lemma MimeTypeLookupExamples(base: string)
    ensures UrlToMimeType(base + ".PNG") == Mime("image/jpeg")
    ensures UrlToMimeType(base + ".png?x=1") == Mime("image/jpeg")
    ensures UrlToMimeType(base + ".constructor") == InheritedMember("constructor")
  {
    UpperCaseExample(base);
    QueryExample(base);
    InheritedExample(base);
  }

  lemma UpperCaseExample(base: string)
    ensures UrlToMimeType(base + ".PNG") == Mime("image/jpeg")
  {
    MimeTypeOfExtension(base, "PNG");
    assert base + "." + "PNG" == base + ".PNG";
  }

  lemma QueryExample(base: string)
    ensures UrlToMimeType(base + ".png?x=1") == Mime("image/jpeg")
  {
    MimeTypeOfExtension(base, "png?x=1");
    assert base + "." + "png?x=1" == base + ".png?x=1";
  }

  lemma InheritedExample(base: string)
    ensures UrlToMimeType(base + ".constructor") == InheritedMember("constructor")
  {
    MimeTypeOfExtension(base, "constructor");
    assert base + "." + "constructor" == base + ".constructor";
  }

  /** The file name is the text after the last `/`: it holds no `/`, it is the
      whole URL when there is no `/`, and it is empty when the URL ends in `/`. */
  lemma TrimUrlToFilenameSpec(url: string)
    ensures '/' !in TrimUrlToFilename(url)
    ensures '/' !in url ==> TrimUrlToFilename(url) == url
    ensures forall a, b :: url == a + "/" + b && '/' !in b ==> TrimUrlToFilename(url) == b
    ensures |url| > 0 && url[|url| - 1] == '/' ==> TrimUrlToFilename(url) == ""
  {
    LastSegmentIsMaximalSuffix(url, '/');
    if '/' !in url {
      LastSegmentWithoutSeparator(url, '/');
    }
    forall a, b | url == a + "/" + b && '/' !in b ensures TrimUrlToFilename(url) == b {
      LastSegmentAfterSeparator(a, '/', b);
    }
    if |url| > 0 && url[|url| - 1] == '/' {
      LastSegmentAfterSeparator(url[..|url| - 1], '/', "");
      assert url[..|url| - 1] + "/" + "" == url;
    }
  }

  /** Trimming a file name again changes nothing. */
  lemma TrimUrlToFilenameIdempotent(url: string)
    ensures TrimUrlToFilename(TrimUrlToFilename(url)) == TrimUrlToFilename(url)
  {
    LastSegmentIsMaximalSuffix(url, '/');
    LastSegmentWithoutSeparator(TrimUrlToFilename(url), '/');
  }
}

=== FILE: wrappers.dfy ===
/** Failure-compatible datatypes used throughout the model.

    `Option` stands for a JavaScript value that may be `undefined`/`null`;
    `Result` stands for a promise (or a synchronous call) that either resolves
    with a value or rejects/throws with an error.
 */
module Wrappers {

  datatype Option<+T> = None | Some(value: T) {

    predicate IsFailure() {
      None?
    }

    function PropagateFailure<U>(): Option<U>
      requires None?
    {
      None
    }

    function Extract(): T
      requires Some?
    {
      value
    }
  }

  datatype Result<+R, +E> = Success(value: R) | Failure(error: E) {

    predicate IsFailure() {
      Failure?
    }

    function PropagateFailure<U>(): Result<U, E>
      requires Failure?
    {
      Failure(error)
    }

    function Extract(): R
      requires Success?
    {
      value
    }
  }
}
